=== FILE: README.md ===
# gymapp — a Dafny model of the workout tracker's core

gymapp is a gym workout tracker. Its React pages let a user browse the
exercise catalogue, build routines out of exercises, run a workout session
series by series with a rest countdown, and keep a workout log. Its Express
controllers store routines, exercises and workout sessions in MySQL, and
its service workers keep the app usable offline and run a background rest
timer.

This project models the following, as pure functions over immutable
datatypes:

- **The session page** (`WorkoutSession`, `RestCountdown`). It records
  series, advances between series and exercises, closes the session, and
  runs the rest countdown with its +30/+60 buttons. A session whose row
  could not be created is modelled too: the page then records nothing.
- **The background timer** of the timer service worker (`BackgroundTimer`).
  It derives time left from an end timestamp, broadcasts updates, and
  notifies once when a run ends.
- **The routine-detail summary** (`RoutineStats`): series total, estimated
  duration, and removal of an exercise.
- **The page logic** of the exercise list, the routine list, the
  add-exercise dialog, the edit-exercise form, the edit-routine form and
  the workout-log page (`ExercisesPage`, `RoutinesPage`,
  `AddExercisePage`, `EditExercisePage`, `EditRoutinePage`,
  `EntrenamientosPage`).
- **The controllers' request handling** over an in-memory image of the
  tables (`Tables`, `RutinasController`, `EjerciciosController`,
  `EntrenamientosController`). This covers status codes, what each
  handler writes, and what a later listing returns.
- **The server's CORS decision, 404 route and error handler** (`Server`),
  and the bearer-token middleware (`Auth`).
- **Where the pages' requests go.** `ApiClient` is the HTTP client every
  page calls through: its base URL comes from the build's `VITE_API_URL`
  and falls back to the local server. The model covers how axios joins a
  page's path to that base and how the browser resolves the result.
  `ApiConfig` holds the separate `getApiUrl` helper, which no page uses.
- **The offline service worker** (`OfflineCache`). It routes each request
  to cache-first, network-first or stale-while-revalidate, cleans up
  caches on activation, and falls back when the network is offline.

Shared helpers:

- `Wrappers`: `Option`/`Result`.
- `JsMath`: JavaScript's `Math.ceil`/`Math.floor` and `%`.
- `Text`: lower-casing of Basic Latin and Latin-1 letters, `includes`,
  `trim`, `split`, `padStart`, and reading and printing decimal integers.
- `NumberInput`: the pages' numeric inputs. A typed value is empty or a
  valid floating-point number in the HTML standard's sense. The pages read
  it two ways: a comparison reads it with `Number`, modelled as an exact
  real, and a request body reads it with `parseInt`.
- `Seqs`: filters, counts and subsequences.
- `Sorting`: a stable insertion sort that stands in for SQL `ORDER BY`.
- `Domain`: the records the pages receive from the API.

The clock, the network, the database's failures and the JWT verifier are
parameters: `now`, `apiOk`/`saveOk`/`putOk`, `failAt`, and
`verify: string -> Option<int>`.

## Model

| member | source | states |
|---|---|---|
| RestCountdown.Start | src/pages/IniciarEntrenamiento.jsx:118-122 | starting the rest countdown makes it active with the whole duration left and remembered as the initial time |
| RestCountdown.Pause | src/pages/IniciarEntrenamiento.jsx:124-126 | pausing stops the countdown without losing the seconds left or the initial time |
| RestCountdown.Reset | src/pages/IniciarEntrenamiento.jsx:128-132 | "continuar" discards the countdown: inactive, zero left, zero initial time |
| RestCountdown.AddSeconds | src/pages/IniciarEntrenamiento.jsx:374-380 | the +30 / +60 buttons shift the seconds left by exactly that amount and touch nothing else |
| RestCountdown.Tick | src/pages/IniciarEntrenamiento.jsx:38-59 | a running countdown above zero loses one second silently; the alert fires exactly when an active countdown reads zero, and it then stops; an inactive countdown is untouched |
| RestCountdown.InactiveIsQuiet | src/pages/IniciarEntrenamiento.jsx:38-59 | however many times the effect runs, a paused countdown neither changes nor alerts |
| RestCountdown.CountsDown | src/pages/IniciarEntrenamiento.jsx:38-59 | after n runs of the effect, n at most the time left, the countdown is n lower and has not alerted |
| RestCountdown.AlertsExactlyOnce | src/pages/IniciarEntrenamiento.jsx:38-59 | once the effect has run more times than there were seconds left, the alert has fired exactly once and the countdown rests inactive at zero |
| RestCountdown.NegativeNeverAlerts | src/pages/IniciarEntrenamiento.jsx:38-59 | a countdown pushed below zero never alerts and never changes, because the effect only acts at zero or above |
| RestCountdown.TwoDigits | src/pages/IniciarEntrenamiento.jsx:112-116 | the padded seconds of `formatTime` are two decimal digits worth the seconds |
| RestCountdown.ParseJoined | src/pages/IniciarEntrenamiento.jsx:112-116 | a "m:ss" text splits back at its colon into minutes and seconds and reads back as m*60+ss |
| RestCountdown.FormatTimeRoundTrip | src/pages/IniciarEntrenamiento.jsx:112-116 | `formatTime` of any seconds reads back to the same seconds: minutes before the colon, two-digit seconds below 60 after it |
| RestCountdown.FormatTimeInjective | src/pages/IniciarEntrenamiento.jsx:112-116 | two different durations never display the same text |
| WorkoutSession.SeriesKeys | src/pages/IniciarEntrenamiento.jsx:172-191 | the series keys of an exercise are exactly (id, from), (id, from+1), ..., (id, to-1) |
| WorkoutSession.SeriesKeysSnoc | src/pages/IniciarEntrenamiento.jsx:172-191 | one more series appends exactly its key at the end of the plan |
| WorkoutSession.AllSeriesSnoc | src/pages/IniciarEntrenamiento.jsx:193-210 | the plan for one more exercise is the previous plan followed by that exercise's series keys |
| WorkoutSession.KeysSnoc | src/pages/IniciarEntrenamiento.jsx:152-159 | appending a recorded series appends its (exercise, series number) key |
| WorkoutSession.FirstSeriesData | src/pages/IniciarEntrenamiento.jsx:80-87 | the first series of an exercise starts uncompleted with no note, a repetitions field that is filled exactly when the exercise suggests repetitions, and the suggested weight or empty |
| WorkoutSession.Begin | src/pages/IniciarEntrenamiento.jsx:68-109 | a new session stands on series 1 of the first exercise with nothing recorded, no countdown and not closed; it holds the created row's id, and it shows an error exactly when creating the row failed; it satisfies the session invariant when the routine has exercises |
| WorkoutSession.SeriesRecord | src/pages/IniciarEntrenamiento.jsx:135-150 | the recorded detail belongs to the created session row and names the current exercise and series number. It carries a weight exactly when one was typed. Repetitions typed without an exponent that pass the page's check are sent as at least 1 |
| WorkoutSession.CompletarSerie | src/pages/IniciarEntrenamiento.jsx:134-170 | without repetitions only an error is set; without a session row the handler throws and nothing changes; a failed save only sets an error; a successful save appends exactly this series' record, marks it completed, starts the rest countdown unless it was the last series, and changes nothing else |
| WorkoutSession.Finalizar | src/pages/IniciarEntrenamiento.jsx:212-226 | a successful close of a session with a row records the end time and general note; a failed update, or a session without a row, only sets an error |
| WorkoutSession.SiguienteEjercicio | src/pages/IniciarEntrenamiento.jsx:193-210 | before the last exercise it moves to series 1 of the next one with fresh series data and no countdown; on the last one it closes the session |
| WorkoutSession.SiguienteSerie | src/pages/IniciarEntrenamiento.jsx:172-191 | before the last series it moves to the next series, keeps the typed weight, resets repetitions to the suggestion and stops the countdown; after it, it moves to the next exercise |
| WorkoutSession.CompleteKeepsPlan | src/pages/IniciarEntrenamiento.jsx:134-170 | completing a series keeps the invariant that the recorded series are exactly the plan's series up to the current one |
| WorkoutSession.NextKeepsPlan | src/pages/IniciarEntrenamiento.jsx:172-210 | advancing after a completed series keeps that invariant |
| WorkoutSession.EditKeepsPlan | src/pages/IniciarEntrenamiento.jsx:426-530 | typing into the series inputs or the general note keeps the invariant and records nothing |
| WorkoutSession.TimerKeepsPlan | src/pages/IniciarEntrenamiento.jsx:303-381 | every countdown button and tick keeps the invariant and records nothing |
| WorkoutSession.Step | src/pages/IniciarEntrenamiento.jsx:134-226 | any action the page offers keeps the invariant, records at most one series, only appends to the record, leaves a closed session alone and never changes the routine |
| WorkoutSession.Run | src/pages/IniciarEntrenamiento.jsx:134-226 | any sequence of offered actions keeps the invariant and only ever appends to the record |
| WorkoutSession.Apply | src/pages/IniciarEntrenamiento.jsx:134-226 | no action changes the routine or the session row; only "Completar Serie" adds to the record, and then exactly this series' detail at the end |
| WorkoutSession.ClosedSessionRecordedEverySeries | src/pages/IniciarEntrenamiento.jsx:212-226 | a session that closed recorded every series of every exercise once, in routine order |
| WorkoutSession.NoSessionRowRecordsNothing | src/pages/IniciarEntrenamiento.jsx:134-226 | without a session row, no sequence of actions records a series, marks one done, moves to another series or exercise, closes the session or clears an error |
| WorkoutSession.FailedStartRecordsNothing | src/pages/IniciarEntrenamiento.jsx:89-106 | after a failed `POST /entrenamientos` the page shows an error and, whatever the user does, stays on series 1 of the first exercise with nothing recorded and the session never closed |
| WorkoutSession.PlanLengthIsTotalSeries | src/pages/RutinaDetalle.jsx:156 | the number of series a session records equals the routine page's "Series Totales" |
| WorkoutSession.ExponentRepsRecordedAsZero | src/pages/IniciarEntrenamiento.jsx:135-147 | repetitions typed as "0.9e1" pass the check as 9 and, in a created session, are recorded as 0 |
| WorkoutSession.BodyOf | src/pages/IniciarEntrenamiento.jsx:143-150 | the posted body carries the detail's session, exercise, series number, repetitions and weight, and always sends the notes as text |
| WorkoutSession.CompletedSeriesStored | src/pages/IniciarEntrenamiento.jsx:134-159 | the detail the page posts for its owner's created session is answered 201 and stored as the last row with that exercise, series number, weight and the parsed repetitions, which are at least 1 when typed without an exponent |
| WorkoutSession.TwoSeriesSession | src/pages/IniciarEntrenamiento.jsx:134-226 | example: a concrete two-series session: 60 s rest after series 1, the weight carried to series 2, closure, and both records |
| RoutineStats.TotalSeriesAppend | src/pages/RutinaDetalle.jsx:156 | the series total of two lists is the sum of their totals |
| RoutineStats.TotalSeries | src/pages/RutinaDetalle.jsx:156 | with no negative series the total is not negative and is at least every exercise's series |
| RoutineStats.RestBudget | src/pages/RutinaDetalle.jsx:142 | with no negative series the rest budget is not negative and is at least every exercise's series times its rest |
| RoutineStats.EstimatedMinutes | src/pages/RutinaDetalle.jsx:142 | the estimate is the rest budget in seconds rounded up to whole minutes |
| RoutineStats.DefaultRestAddsMinutePerSeries | src/pages/RutinaDetalle.jsx:142 | an exercise with no rest set counts 60 s per series, so it adds exactly its series in minutes |
| RoutineStats.EliminarEjercicio | src/pages/RutinaDetalle.jsx:50-60 | unless confirmed and accepted by the API the list is unchanged; otherwise exactly the rows of other exercises remain, in order |
| RoutineStats.EliminarTwice | src/pages/RutinaDetalle.jsx:50-60 | removing the same exercise twice is the same as once |
| RoutineStats.EliminarSeries | src/pages/RutinaDetalle.jsx:54 | the series total drops by exactly the series of the removed rows |
| BackgroundTimer.Broadcast | public/service-worker.js:26-33 | every client is posted the message, once each, in client order |
| BackgroundTimer.BroadcastNotifiesNobody | public/service-worker.js:26-33 | a broadcast never shows a notification |
| BackgroundTimer.TimeLeft | public/service-worker.js:23 | the seconds left are never negative, are zero exactly when the end time has passed, and are otherwise the milliseconds left rounded up to whole seconds |
| BackgroundTimer.TimeLeftMonotone | public/service-worker.js:23 | later readings never show more time left |
| BackgroundTimer.StartTimer | public/service-worker.js:10-20 | starting runs the timer with its end time the duration after now |
| BackgroundTimer.StartReplacesPreviousRun | public/service-worker.js:16-19 | a new start is independent of whatever run was going before |
| BackgroundTimer.FirstReadingWithinDuration | public/service-worker.js:10-23 | no reading after a start shows more than the requested duration |
| BackgroundTimer.StopTimer | public/service-worker.js:63-69 | stopping leaves no run going |
| BackgroundTimer.StopIdempotent | public/service-worker.js:63-69 | stopping twice is stopping once |
| BackgroundTimer.Tick | public/service-worker.js:21-60 | an idle worker does nothing. A running one reads the time left and, above zero, broadcasts it and keeps running. At zero it stops, and the notification comes first, then the reading to the clients, then the end to the clients of the second lookup |
| BackgroundTimer.TickNotifications | public/service-worker.js:36-58 | one tick shows the notification exactly when it ends a live run |
| BackgroundTimer.Ticks | public/service-worker.js:21-60 | a run of ticks keeps the end time, and an idle worker produces no readings or events |
| BackgroundTimer.FinishesAtMostOnce | public/service-worker.js:36-58 | whatever the clock does, a run notifies at most once, and exactly once when it has ended |
| BackgroundTimer.ReadingsCountDown | public/service-worker.js:21-60 | with a clock that never goes back, readings never increase, and only the last can be zero |
| AddExercisePage.FilterEjercicios | src/pages/AgregarEjercicio.jsx:56-73 | every exercise shown matches the search term when there is one, and the group when the group filter is on |
| AddExercisePage.FilterEjerciciosIsOneFilter | src/pages/AgregarEjercicio.jsx:56-73 | the two successive filters are one filter by the conjunction of both criteria |
| AddExercisePage.FilterEjerciciosExact | src/pages/AgregarEjercicio.jsx:56-73 | an exercise is shown exactly when it meets both criteria, and the shown ones keep catalogue order |
| AddExercisePage.NoCriteriaShowsAll | src/pages/AgregarEjercicio.jsx:56-73 | with no term and no group, the whole catalogue is shown |
| AddExercisePage.FilterEjerciciosIdempotent | src/pages/AgregarEjercicio.jsx:56-73 | filtering the filtered list changes nothing |
| AddExercisePage.SelectEjercicio | src/pages/AgregarEjercicio.jsx:75-86 | selecting an exercise opens the dialog on it with 3 series, 10 repetitions, 60 s rest and empty weight and notes |
| AddExercisePage.SelectForgetsPreviousDialog | src/pages/AgregarEjercicio.jsx:75-86 | what was typed in an earlier dialog does not survive a new selection |
| AddExercisePage.AgregarBody | src/pages/AgregarEjercicio.jsx:88-104 | the request names the selected exercise and carries the typed configuration, with an empty weight sent as null |
| AddExercisePage.ControllerBody | src/controllers/rutinasController.js:216-246 | the controller stores each field of the body in its own column as sent, the notes as text |
| AddExercisePage.AddedWithDialogConfig | src/pages/AgregarEjercicio.jsx:88-104 | adding from the dialog to one of the user's routines answers 201, and the routine then lists the exercise last with the dialog's series, repetitions, rest, notes and weight, an empty weight as null |
| ExercisesPage.FilteredEjercicios | src/pages/Ejercicios.jsx:65-69 | the shown list is a subsequence of the catalogue holding exactly the exercises whose name contains the term ignoring case and whose group matches unless 'todos' |
| ExercisesPage.DescriptionIgnored | src/pages/Ejercicios.jsx:65-69 | an exercise's description never affects whether it is shown |
| ExercisesPage.NoCriteriaShowsAll | src/pages/Ejercicios.jsx:18-69 | an empty term with 'todos' shows the whole catalogue |
| ExercisesPage.ResultCount | src/pages/Ejercicios.jsx:128 | the displayed count is the number of exercises meeting the criteria |
| ExercisesPage.DeleteEjercicio | src/pages/Ejercicios.jsx:54-63 | unless confirmed and accepted the list is unchanged; otherwise exactly the exercises with other ids remain, in order |
| ExercisesPage.DeleteAbsentId | src/pages/Ejercicios.jsx:54-63 | deleting an id not in the list leaves it unchanged |
| RoutinesPage.FilteredRutinas | src/pages/Rutinas.jsx:62-65 | the shown list is a subsequence holding exactly the routines whose day equals the filter ignoring case, or all under 'todas' |
| RoutinesPage.AllDaysShowsAll | src/pages/Rutinas.jsx:20-65 | 'todas' shows every routine |
| RoutinesPage.FilterIgnoresCase | src/pages/Rutinas.jsx:62-65 | the case of the day filter does not matter |
| RoutinesPage.DeleteRutina | src/pages/Rutinas.jsx:51-60 | unless confirmed and accepted the list is unchanged; otherwise exactly the routines with other ids remain |
| RoutinesPage.DeleteRemovesOne | src/pages/Rutinas.jsx:51-60 | deleting a routine whose id is unique shortens the list by exactly one |
| EditExercisePage.FindEjercicio | src/pages/EditarEjercicio.jsx:39-46 | it finds nothing exactly when no row's id string equals the route parameter, and otherwise the first row that matches |
| EditExercisePage.FindsById | src/pages/EditarEjercicio.jsx:39-46 | the route parameter written from a row's id finds that row when no earlier row shares its id |
| EditExercisePage.LeadingZeroNeverFound | src/pages/EditarEjercicio.jsx:39-46 | a parameter with a leading zero, such as "07", never finds a row |
| EditExercisePage.InitConfig | src/pages/EditarEjercicio.jsx:49-55 | each numeric field is filled exactly when the stored value is truthy; weight and notes load as text or empty |
| EditExercisePage.Load | src/pages/EditarEjercicio.jsx:39-55 | loading fails exactly when no row matches, and otherwise fills the form from the row found |
| EditExercisePage.HandleSave | src/pages/EditarEjercicio.jsx:70-89 | the three checks run in order and each error comes exactly when the earlier checks pass and its own fails; a save sends the parsed numbers, the weight or null, and the notes |
| EditExercisePage.SentNumbersInRange | src/pages/EditarEjercicio.jsx:70-89 | a sent update never has a negative rest. Series and repetitions typed without an exponent are sent as whole numbers of at least 1 |
| EditExercisePage.StoredZeroRestBlocksSave | src/pages/EditarEjercicio.jsx:49-81 | a stored rest of 0 or null loads empty, and saving then fails with the rest error |
| EditExercisePage.TypedZeroRestAccepted | src/pages/EditarEjercicio.jsx:70-89 | a typed "0" rest passes and is sent as 0 |
| EditExercisePage.ExponentSeriesSentAsZero | src/pages/EditarEjercicio.jsx:70-89 | series typed as "0.9e1" pass the check as 9 and are sent as 0 |
| EditExercisePage.HandleSaveCorrected | src/pages/EditarEjercicio.jsx:70-89 | the save also checks the parsed series and repetitions. What it sends is what the page as written sends, and it refuses more only when the page would send series or repetitions below 1 or missing |
| EditExercisePage.CorrectedSendsNumbersInRange | src/pages/EditarEjercicio.jsx:70-89 | the corrected save always sends series and repetitions of at least 1 and never a negative rest |
| EditExercisePage.CorrectedAgreesWithoutExponent | src/pages/EditarEjercicio.jsx:70-89 | without exponents in series and repetitions the corrected save is the save as written |
| NumberInput.FieldOf | src/pages/EditarEjercicio.jsx:49-55 | a stored truthy number loads as that number, and a null or 0 loads as the empty field, which is falsy |
| NumberInput.ScanExponent | src/pages/EditarEjercicio.jsx:207-260 | an exponent has an optional sign and at least one digit |
| NumberInput.Scan | src/pages/EditarEjercicio.jsx:207-260 | a text the input can hold splits into sign, whole digits, fraction digits and exponent, with at least one digit before the exponent, never empty and never starting with `+` |
| NumberInput.FractionValue | src/pages/EditarEjercicio.jsx:70-80 | the digits after the point are worth at least 0 and less than 1 |
| NumberInput.Magnitude | src/pages/EditarEjercicio.jsx:70-80 | the value before the exponent lies between the whole part and the whole part plus one |
| NumberInput.Value | src/pages/EditarEjercicio.jsx:70-80 | the sign of the value is the numeral's sign; without an exponent it is the signed magnitude |
| NumberInput.NumberOf | src/pages/EditarEjercicio.jsx:70-80 | a loaded number is itself, the empty text is 0, and a typed text has a value exactly when it is a valid floating-point number |
| NumberInput.ParseIntText | src/pages/EditarEjercicio.jsx:84-87 | the empty text is NaN |
| NumberInput.ParseIntField | src/pages/EditarEjercicio.jsx:84-87 | a loaded number is sent as itself and typed text goes through parseInt |
| NumberInput.ParseIntReadsWhole | src/pages/EditarEjercicio.jsx:84-87 | parseInt of a valid floating-point number is its signed whole part, or NaN when the numeral starts at the point |
| NumberInput.TypedIntegerReadsBack | src/pages/EditarEjercicio.jsx:70-87 | an integer typed as written reads as that integer both to `Number` and to `parseInt` |
| NumberInput.PassedAtLeast | src/pages/EditarEjercicio.jsx:70-87 | a field that passes `!f \|\| f < k` for k at least 1, typed without an exponent, is sent as an integer of at least k |
| NumberInput.PassedNonNegative | src/pages/EditarEjercicio.jsx:78-87 | a field that passes `!f \|\| f < 0` is never sent negative |
| NumberInput.WholeAtLeastPasses | src/pages/EditarEjercicio.jsx:70-87 | conversely, a field typed without an exponent whose whole part is at least k passes the check |
| NumberInput.ExponentPassesAsZero | src/pages/EditarEjercicio.jsx:70-87 | "0.9e1" is 9 to `Number` and passes `< 1`, while parseInt reads 0 |
| EditRoutinePage.FromRutina | src/pages/EditarRutina.jsx:30-41 | the form loads the routine's name, day and group, and its description and notes as stored, null included |
| EditRoutinePage.HandleChange | src/pages/EditarRutina.jsx:72-77 | an edit sets exactly the edited field and leaves every other field |
| EditRoutinePage.FormExtensional | src/pages/EditarRutina.jsx:12-18 | two forms that agree on every field are the same form |
| EditRoutinePage.ChangeOverwrites | src/pages/EditarRutina.jsx:72-77 | the later edit of a field wins |
| EditRoutinePage.ChangesCommute | src/pages/EditarRutina.jsx:72-77 | edits of different fields commute |
| EditRoutinePage.HandleSubmit | src/pages/EditarRutina.jsx:43-70 | a missing name throws, a blank name is refused, a null description or notes throws inside the handler and is caught, and otherwise the trimmed values are sent with a non-blank name |
| EditRoutinePage.MissingDescriptionBlocksSave | src/pages/EditarRutina.jsx:55-61 | a routine with no description can never be saved as written, but is saved by the corrected handler |
| EditRoutinePage.HandleSubmitCorrected | src/pages/EditarRutina.jsx:43-70 | the corrected handler keeps the name checks, never fails inside, and sends null description or notes as empty text |
| EditRoutinePage.CorrectedSavesEveryNamedRoutine | src/pages/EditarRutina.jsx:30-70 | with the correction, every loaded routine with a non-blank name can be saved |
| EditRoutinePage.CorrectedAgreesWhenSent | src/pages/EditarRutina.jsx:43-70 | whenever the handler as written sends, the corrected one sends the same body |
| EditRoutinePage.TrimmedFormSentAsIs | src/pages/EditarRutina.jsx:46-61 | a form already trimmed is sent exactly as typed |
| EntrenamientosPage.BlankForm | src/pages/Entrenamientos.jsx:21-26 | the new-session form starts with no routine, today's date, an empty note and no exercises |
| EntrenamientosPage.HandleCreate | src/pages/Entrenamientos.jsx:48-57 | "Nuevo" opens the dialog on a blank form whose save button is disabled |
| EntrenamientosPage.EntriesOf | src/pages/Entrenamientos.jsx:65-73 | one entry per routine exercise, in order, with its id, name and series and empty results |
| EntrenamientosPage.HandleRutinaChange | src/pages/Entrenamientos.jsx:59-79 | the chosen routine is stored; its exercises replace the entries when fetched, and the entries are kept otherwise |
| EntrenamientosPage.SetField | src/pages/Entrenamientos.jsx:81-88 | an edit sets the chosen result field and keeps the others and the exercise's identity |
| EntrenamientosPage.HandleEjercicioChange | src/pages/Entrenamientos.jsx:81-88 | only the entry at the index changes, and an index out of range changes nothing |
| EntrenamientosPage.EditReadsBack | src/pages/Entrenamientos.jsx:81-88 | the value typed is read back from that entry |
| EntrenamientosPage.EditsCommute | src/pages/Entrenamientos.jsx:81-88 | edits of different fields of one entry commute |
| EntrenamientosPage.EditsKeepRoutine | src/pages/Entrenamientos.jsx:81-88 | whatever is typed into the exercise inputs, the entries keep the routine's exercise ids, names and series, in order |
| EntrenamientosPage.ChosenRoutineFollowed | src/pages/Entrenamientos.jsx:59-88 | after choosing a routine whose exercises arrived, and any edits, the entries stand for exactly that routine's exercises in listing order |
| EntrenamientosPage.Submit | src/pages/Entrenamientos.jsx:90-98 | the dialog closes and the table changes exactly when the backend answers 201 |
| EntrenamientosPage.HandleSave | src/pages/Entrenamientos.jsx:90-98 | the save as written changes neither the page nor the tables |
| EntrenamientosPage.HandleSaveCorrected | src/pages/Entrenamientos.jsx:90-98 | with the date sent as `fecha_inicio`, the dialog closes exactly when the form names one of the user's routines and has a date; then one session is appended, and otherwise nothing changes |
| EntrenamientosPage.SaveAlwaysRejected | src/pages/Entrenamientos.jsx:90-98 | the body the page sends lacks `fecha_inicio`, so every save gets 400 and nothing changes |
| EntrenamientosPage.CorrectedSaveCreates | src/pages/Entrenamientos.jsx:90-98 | sending the date as `fecha_inicio` creates an owned session dated with its first ten characters and closes the dialog |
| Text.LeadingDigits | backend/src/server.js:55 | the length of the run of digits that starts the text |
| Server.LeadingDigitsOfDigitsThenColon | backend/src/server.js:55 | digits followed by a colon are read up to the colon |
| Server.LanOriginInjective | backend/src/server.js:42-55 | different octets or ports make different LAN origins |
| Server.LanShapedExactly | backend/src/server.js:55 | a LAN origin matches the pattern exactly when its octet has 1 to 3 digits and its port is 5173, 5174 or 5175 |
| Server.LanPatternTest | backend/src/server.js:55 | the executable test agrees with the pattern's shape on every text |
| Server.Cors | backend/src/server.js:34-67 | in production only the site's domain is allowed; in development no origin, a listed origin or a pattern match is allowed and anything else is refused with an error |
| Server.ListedLanOriginsMatchPattern | backend/src/server.js:42-55 | example: the listed LAN origins also match the pattern |
| Server.PatternAdmitsAnyThreeDigits | backend/src/server.js:55 | example: the pattern accepts an octet such as 999 that is no address |
| Server.PatternRejections | backend/src/server.js:55 | examples: four digits, another port, a trailing slash or an empty octet are rejected |
| Server.OtherSchemeOrSubnetRejected | backend/src/server.js:55 | any origin that differs from the `http://192.168.1.` prefix is rejected |
| Server.HttpsAndOtherSubnetRejected | backend/src/server.js:55 | examples: https and another subnet are rejected |
| Server.NotFound | backend/src/server.js:113-118 | an unknown route answers 404 and echoes its path |
| Server.HandleError | backend/src/server.js:121-128 | the error's status when truthy, else 500; its message when present, else the default message |
| Server.Serve | backend/src/server.js:34-128 | a refused origin skips the routers and is answered 500 "No permitido por CORS" without the allow-origin header; otherwise the header is sent exactly when an admitted request names a non-empty origin, and the routers' answer, the 404 fallback or the error handler's answer is returned |
| Server.RefusedIffServerError | backend/src/server.js:34-128 | when the routers never fail with a 500, a request is answered 500 exactly when CORS refuses its origin, which only happens outside production |
| Auth.ExtractToken | src/middleware/auth.js:5-10 | a token exists exactly when the header has a non-empty second space-separated part, which is the token |
| Auth.SchemeThenToken | src/middleware/auth.js:5-10 | "scheme token" yields the token |
| Auth.BearerHeader | src/middleware/auth.js:5-10 | example: "Bearer abc.def" yields "abc.def" |
| Auth.TrailingPartsIgnored | src/middleware/auth.js:5-10 | anything after a second space is ignored |
| Auth.NoSpaceNoToken | src/middleware/auth.js:5-10 | a header without a space yields no token |
| Auth.NothingAfterSpaceNoToken | src/middleware/auth.js:5-10 | a header ending at its first space yields no token |
| Auth.DoubleSpaceNoToken | src/middleware/auth.js:5-10 | two spaces after the scheme yield no token |
| Auth.FindUser | src/middleware/auth.js:12-29 | the user found has the id, and none is found exactly when no user has it |
| Auth.AuthenticateToken | src/middleware/auth.js:5-29 | no token gives 401; a bad token or a database failure gives 403; a verified id with no user gives 401 "Usuario no válido"; the request passes exactly when the verified id names an existing user, who is attached |
| Auth.RequireAdmin | src/middleware/auth.js:32-37 | only the admin role passes; everyone else gets 403 |
| Auth.AdminOnly | src/middleware/auth.js:5-37 | an admin route answers 200 exactly to an authenticated admin, 403 to any other authenticated user, and otherwise the middleware's own 401 or 403 |
| Auth.OutcomesPartition | src/middleware/auth.js:5-29 | each request gets exactly one outcome: no token, a bad token or failed lookup, an unknown user, or the user the token names |
| ApiConfig.GetApiUrl | src/config/api.js:6-13 | the development URL exactly on localhost or 127.0.0.1, the production path everywhere else |
| ApiConfig.ApiTarget | src/config/api.js:2-13 | a request built on `getApiUrl()` would go to the development server's origin under `/api` on the two local host names, and to the page's own origin under the production path elsewhere |
| ApiClient.BaseUrl | src/services/api.js:4 | the build's `VITE_API_URL` when it is set and non-empty, and `http://localhost:3000/api` otherwise |
| ApiClient.Resolve | src/services/api.js:7-8 | an http or https URL goes to its own scheme and host; any other URL stays on the page's origin |
| ApiClient.CombineKeepsOrigin | src/services/api.js:7-8 | joining a page's path to a base that names a host keeps that host: the request goes to the base's origin |
| ApiClient.ApiRequestStrategy | src/services/api.js:4-8 | for any build's base, the worker serves a page's call cache-first exactly when the base names the page's own origin. Otherwise the call is network-first exactly when its path holds `/api/`. A base that is a path from the root always stays cache-first |
| ApiClient.DefaultBaseStrategy | src/services/api.js:4 | with `VITE_API_URL` unset or empty, every call goes to `http://localhost:3000`. A page served from any other origin has its calls routed network-first, and only a page on that origin gets cache-first |
| OfflineCache.Route | public/sw.js:62-78 | exactly the app's own origin goes cache-first, exactly a foreign origin with `/api/` in its path goes network-first, and every other request goes stale-while-revalidate |
| OfflineCache.SameOriginApiIsCacheFirst | public/sw.js:62-78 | example: a request to the app's own origin goes cache-first even when its path holds `/api/`, because the origin test comes first |
| OfflineCache.Activate | public/sw.js:44-59 | activation keeps every static or dynamic cache, deletes every other one, and keeps the survivors in order |
| OfflineCache.ActivateDropsCacheName | public/sw.js:2-59 | the versioned cache name itself does not survive activation |
| OfflineCache.ActivateIdempotent | public/sw.js:44-59 | activating twice is activating once |
| OfflineCache.MatchUrl | public/sw.js:83-86 | no match exactly when no cache holds the URL; a match comes from a cache that holds it |
| OfflineCache.Match | public/sw.js:83-86 | a non-GET request never matches; a GET looks up its URL across the caches |
| OfflineCache.Open | public/sw.js:91-94 | opening leaves the storage alone when the named cache exists, and otherwise adds it empty at the end |
| OfflineCache.Put | public/sw.js:91-94 | the named cache is opened, and created if missing, either way; a non-GET request then stores nothing, and a GET response is stored in that cache and nowhere else |
| OfflineCache.MatchAfterPut | public/sw.js:81-94 | a GET response not cached before is served from cache after it is stored |
| OfflineCache.CacheFirstStrategy | public/sw.js:81-105 | a cached response is served without change; a network response is served, and a 200 opens the dynamic cache and is stored there when the request is a GET; offline, a document falls back to the cached root or the offline page, and anything else fails |
| OfflineCache.NetworkFirstStrategy | public/sw.js:108-135 | network responses are served and stored exactly when GET and 200; offline, the cached copy or the 503 JSON answer |
| OfflineCache.StaleWhileRevalidateStrategy | public/sw.js:138-150 | the cached copy first, else the network's; a 200 is stored |
| OfflineCache.PutKeepsOnlyOk | public/sw.js:91-94 | storing a 200 response keeps every cached response a 200 |
| OfflineCache.HandleFetch | public/sw.js:62-150 | whichever strategy runs, only 200 responses enter the dynamic cache and the other caches are unchanged; a live network answers every API call routed network-first; a cache hit on the app's origin stores nothing |
| OfflineCache.CacheFirstServesWhatItStored | public/sw.js:81-105 | a response stored by cache-first is what the next cache-first fetch of that URL serves, even offline |
| OfflineCache.NetworkFirstOfflineFallback | public/sw.js:119-134 | offline, a cached API response is served; with none, 503 |
| RutinasController.GetRutinaEjercicios | src/controllers/rutinasController.js:35-77 | 404 with no rows exactly when the user does not own the routine; otherwise 200 and the routine's rows whose exercise exists, all of them, sorted by orden |
| RutinasController.ByOrden | src/controllers/rutinasController.js:68 | the orden order is a total preorder whose ties are exactly the rows of equal orden |
| RutinasController.CreateRutina | src/controllers/rutinasController.js:80-135 | 400 exactly when a required field is missing; 500 and nothing written when an insert fails; on 201 a fresh routine, its assignment to the user and one row per exercise with orden 1, 2, ... in input order, and no other table changes |
| RutinasController.CreatedRutinaOwned | src/controllers/rutinasController.js:80-135 | after 201 the creator owns the new routine |
| RutinasController.SortByOrdenFixed | src/controllers/rutinasController.js:68 | rows already in strictly increasing orden are the ORDER BY's result as they stand |
| RutinasController.ListedFreshRows | src/controllers/rutinasController.js:35-77 | the listing of a new routine is exactly the rows its creation appended |
| RutinasController.CreatedExercisesListedInOrder | src/controllers/rutinasController.js:35-135 | a routine created with existing exercises lists them back in the order they were sent |
| RutinasController.MaxOrden | src/controllers/rutinasController.js:233-238 | SQL MAX: nothing exactly when the routine has no rows, otherwise the orden of one of its rows and at least every other one |
| RutinasController.NextOrden | src/controllers/rutinasController.js:233-238 | the next orden is above every orden of the routine, and 1 when it has none |
| RutinasController.AddEjercicioToRutina | src/controllers/rutinasController.js:216-253 | 404 exactly when not owned; on 201 one row appended with a fresh id and the next orden, and nothing else changes |
| RutinasController.GreatestComesLast | src/controllers/rutinasController.js:68 | a row whose orden exceeds all others sorts last |
| RutinasController.ListedAfterAppend | src/controllers/rutinasController.js:35-77 | appending a row of the routine whose exercise exists adds exactly that row at the end of the routine's unsorted listing |
| RutinasController.AddedExerciseListedLast | src/controllers/rutinasController.js:35-253 | an added existing exercise appears once more in the listing, last |
| RutinasController.UpdateEjercicioInRutina | src/controllers/rutinasController.js:256-289 | 404 exactly when not owned or no row matches; on 200 only the config of the matching rows changes |
| RutinasController.UpdateIdempotent | src/controllers/rutinasController.js:256-289 | the same update twice equals once |
| RutinasController.RemoveEjercicioFromRutina | src/controllers/rutinasController.js:292-322 | 404 exactly when not owned or no row matches; on 200 the matching rows are gone, the list is shorter and every other row stays in order |
| RutinasController.RemoveTwice | src/controllers/rutinasController.js:292-322 | a second removal of the same exercise answers 404 and changes nothing |
| RutinasController.DeleteRutina | src/controllers/rutinasController.js:156-178 | 403 exactly when the routine is not assigned to the user; on 200 the routine's rows are gone and the others stay |
| RutinasController.DeletedRoutineNotFound | src/controllers/rutinasController.js:35-178 | after a delete, listing the routine answers 404 for every user |
| EntrenamientosController.JsonInt | backend/src/controllers/entrenamientosController.js:113-120 | a JSON number is itself; a string is read as a decimal integer; null is no id |
| EntrenamientosController.DatePart | backend/src/controllers/entrenamientosController.js:103 | at most ten characters, a prefix of the date, and exactly ten when the date has them |
| EntrenamientosController.CreateEntrenamiento | backend/src/controllers/entrenamientosController.js:99-144 | 400 exactly when the routine id is falsy or the start date missing; 404 exactly when the routine is not the user's; on 201 a fresh session dated with the date part, with no end and no note, appended to the table |
| EntrenamientosController.SessionPageCreates | backend/src/controllers/entrenamientosController.js:99-144 | the session page's request for an owned routine creates a session the user owns, dated with the first ten characters |
| EntrenamientosController.UpdateEntrenamiento | backend/src/controllers/entrenamientosController.js:147-176 | 404 exactly when not the user's; on 200 only the rows with that id get the end time and note |
| EntrenamientosController.EmptyNoteStoredAsNull | backend/src/controllers/entrenamientosController.js:168 | an empty general note is stored as null |
| EntrenamientosController.DeleteEntrenamiento | backend/src/controllers/entrenamientosController.js:179-201 | 403 exactly when not the user's; on 200 its rows are gone, the table is shorter and every other row stays |
| EntrenamientosController.DeletedSessionGone | backend/src/controllers/entrenamientosController.js:179-201 | after a delete, deleting the session again answers 403 and updating it answers 404 |
| EntrenamientosController.CreateEntrenamientoDetalle | backend/src/controllers/entrenamientosController.js:204-240 | 404 exactly when the session is not the user's; on 201 the body comes back with a fresh id and its row is appended |
| EntrenamientosController.EchoMatchesStoredRow | backend/src/controllers/entrenamientosController.js:220-235 | the detail echoed to the client is the row stored |
| EjerciciosController.CreateEjercicio | src/controllers/ejerciciosController.js:39-60 | 400 exactly when a required field is missing; on 201 a row with a fresh id is appended, an empty video stored as null |
| EjerciciosController.EmptyVideoStoredAsNull | src/controllers/ejerciciosController.js:49 | an empty video URL is stored as null |
| EjerciciosController.UpdateEjercicio | src/controllers/ejerciciosController.js:63-86 | 400 exactly when a required field is missing; 404 exactly when the fields are present and the id is absent; on 200 only the rows with the id are rewritten |
| EjerciciosController.UpdateWithSameBodyChangesNothing | src/controllers/ejerciciosController.js:63-86 | rewriting a row with its own values leaves the table as it was |
| EjerciciosController.DeleteEjercicio | src/controllers/ejerciciosController.js:89-119 | 400 exactly when a routine uses it; 404 when unused and absent; on 200 its row is gone and nothing else changes |
| EjerciciosController.InUseNeverDeleted | src/controllers/ejerciciosController.js:94-103 | an exercise in any routine is never deleted |
| EjerciciosController.ByNombreTotal | src/controllers/ejerciciosController.js:126-128 | the name order is a total preorder, as ORDER BY needs |
| EjerciciosController.GetEjerciciosByGrupo | src/controllers/ejerciciosController.js:122-136 | exactly the group's exercises, all of them, sorted by name |
| Text.ToLower | src/pages/Ejercicios.jsx:66 | same length; each capital Basic Latin or Latin-1 letter becomes its small letter and every other character is kept, so no capital remains |
| Text.ToLowerIdempotent | src/pages/Ejercicios.jsx:66 | lower-casing twice is lower-casing once |
| Text.Contains | public/sw.js:71 | true exactly when the second text occurs in the first at some position |
| Text.ContainsIgnoringCase | src/pages/Ejercicios.jsx:66 | true exactly when the lower-cased term occurs in the lower-cased text |
| Text.Trim | src/pages/EditarRutina.jsx:46-60 | the result is the text between the leading and the trailing white space: it is the slice of the input after its leading white space, everything after the slice is white space, it is empty exactly when the text is all white space, and otherwise starts and ends with a non-space |
| Text.TrimIdempotent | src/pages/EditarRutina.jsx:46-60 | trimming twice is trimming once |
| Text.Split | src/middleware/auth.js:6 | there is at least one part, no part holds the separator, and a text without it is its own only part |
| Text.SplitAtFirst | src/middleware/auth.js:6 | the text before the first separator is the first part and the rest splits on its own |
| Text.JoinSplit | src/middleware/auth.js:6 | joining the parts with the separator gives back the text |
| Text.PadStart2 | src/pages/IniciarEntrenamiento.jsx:115 | the result has length 2 or the text's length, ends with the text, and is padded with zeros in front |
| Text.ParseNumber | backend/src/controllers/entrenamientosController.js:113-131 | a number exactly when the text is an optionally signed decimal integer |
| Text.ParseNumberOfIntToString | backend/src/controllers/entrenamientosController.js:113-131 | every printed integer reads back as itself |

## Left out

- The React rendering, routing and navigation; `console` logging; `alert` and `confirm` become booleans (`confirmed`, `apiOk`).
- Network and database failures other than a failing insert in `createRutina` (`failAt`) are not modelled as outcomes of the controllers: the other handlers' 500 paths are left out.
- mysql2's rejection of `undefined` bind values (a 500) is not modelled; missing optional values are stored as null.
- MySQL's conversion of a string parameter to a number is modelled as a decimal integer parse (`Text.ParseNumber`); fractional or exponent strings are not.
- ApiConfig.ApiTarget: no page builds its requests on `getApiUrl`. Every page imports `src/services/api.js`, and `ApiClient` models that client.
- ApiClient.Resolve: URLs are resolved for the shapes the base can take: an http or https URL, a path from the root, or a path relative to the page's directory. Host case, default ports, dot segments, protocol-relative `//host` bases and other schemes are not modelled.
- ApiClient.ApiRequest: a request URL that is itself absolute is not modelled, since every page passes a path. The axios interceptors that add the bearer token and drop it on a 401 are left out, as is the 10-second timeout.
- Text.ToLower: case mappings outside Basic Latin and Latin-1 are not modelled, such as those of Greek, Cyrillic and Latin Extended letters.
- String collation in `ORDER BY nombre` is replaced by code-point lexicographic order; MySQL case-insensitive collations are not modelled.
- `ON DELETE CASCADE` of the foreign keys is not modelled: deleting a routine or a session removes only its own rows.
- `createRutina` inserts into a `reps_objetivo` column while the rest of the code uses `repeticiones`; the schema is not modelled, and a failing insert is covered by `failAt`.
- The workout-log page reads `reps_objetivo`, which the routine-exercises listing never returns; the field is left out of an entry.
- `parseFloat` of weights: weights stay text as typed.
- The Notification, vibration and `postMessage` APIs become events; `setInterval`/`setTimeout` timing becomes explicit ticks with a `now` parameter.
- The cache writes of `sw.js` take effect at once (`cache.put` is not awaited in the source); the install handler's `addAll`, and the push, notification-click and sync handlers are left out.
- JWT signature checking is the `verify` parameter; `jsonwebtoken` itself is not modelled.
- `getRutinas`, `getRutinaById`, `updateRutina`, `getEntrenamientos`, `getEntrenamientoById`, `getEjercicios` and `getEjercicioById` are a single SQL statement each with no logic of their own; the dashboard controller and page, the login controller and the rate limiter are left out for the same reason.
- The session page's rest dialog is a full-screen overlay that hides the page's other buttons while it shows; `WorkoutSession.Enabled` still offers them, so the session properties are proved over more action sequences than the page allows.
- The session page's countdown is independent of the background timer worker: the page never posts `startTimer`, so the two are modelled separately.
- Server.HandleError: the stack trace added to error answers in development is not modelled.
- Server.Serve: `helmet`'s headers, the rate limiter's 429 answers and body-parser errors are not modelled; what the routers do is a parameter.
- NumberInput.NumberOf: the value is exact; `Number`'s rounding to the nearest double is not modelled.
- WorkoutSession.SeriesRecord: at least one repetition is promised only for repetitions typed without an exponent, because "0.9e1" passes the check and is recorded as 0 (see Findings).
- EditExercisePage.SentNumbersInRange: series and repetitions of at least 1 are promised only when typed without an exponent, for the same reason.
- AddExercisePage.FilterEjercicios: lower-casing covers Basic Latin and Latin-1 letters; the case mappings of other scripts are not modelled.
- AddExercisePage.FilterEjerciciosExact: the same restriction of lower-casing applies.
- ExercisesPage.FilteredEjercicios: the same restriction of lower-casing applies.
- RoutinesPage.FilteredRutinas: the same restriction of lower-casing applies.
- RoutinesPage.FilterIgnoresCase: the same restriction of lower-casing applies.
- EjerciciosController.GetEjerciciosByGrupo: `WHERE grupo_muscular = ?` is exact equality here; under a case-insensitive collation MySQL would also match other cases.
- BackgroundTimer.Ticks: the same clients answer every `matchAll` of a run; a single tick allows the two lookups to differ.

## Findings

| source | as written | input that shows it | evidently intended | confidence | as-written member | corrected member |
|---|---|---|---|---|---|---|
| src/pages/Entrenamientos.jsx:90-98 | the page posts `{rutina_id, fecha, nota_general, ejercicios}`, but the create handler requires `fecha_inicio` and answers 400 without it | any save from the "Nuevo entrenamiento" dialog, e.g. routine "1" and date "2024-05-01" | send the date as `fecha_inicio` so the session is created | high; not executed | EntrenamientosPage.SaveAlwaysRejected | EntrenamientosPage.CorrectedSaveCreates |
| src/pages/EditarRutina.jsx:55-61 | `.trim()` is called on `descripcion` and `notas`, which load as null for a routine stored without them, so the handler throws and the save is never sent | a routine with name "Pierna" and a null description | treat a null description or note as empty text and save | medium (depends on the columns holding null); not executed | EditRoutinePage.MissingDescriptionBlocksSave | EditRoutinePage.CorrectedSavesEveryNamedRoutine |
| src/pages/EditarEjercicio.jsx:70-89 | the checks compare `Number(field)`, but the body sends `parseInt(field)`, which stops at the decimal point; the session page does the same with repetitions (src/pages/IniciarEntrenamiento.jsx:135-147) | series typed as "0.9e1": 9 to the check, sent as 0 | check the value that is sent, so that series and repetitions stored are at least 1 | medium (needs an exponent typed into the input); not executed | EditExercisePage.ExponentSeriesSentAsZero | EditExercisePage.CorrectedSendsNumbersInRange |

=== FILE: add_exercise.dfy ===
/**
 * The page that adds a catalogue exercise to a routine
 * (src/pages/AgregarEjercicio.jsx): the search and group filter over the
 * catalogue, the configuration dialog, and the body it posts.
 */
module AddExercisePage {
  import opened Wrappers
  import opened Text
  import opened Domain
  import Seqs
  import Tables
  import RutinasController

  /** The group choice that disables the group filter. */
  const AllGroups: string := "Todos"

  /** The search clause: the name, or the description when there is one, contains the term ignoring case. */
  predicate MatchesSearch(e: Ejercicio, term: string) {
    ContainsIgnoringCase(e.nombre, term)
      || (e.descripcion.Some? && ContainsIgnoringCase(e.descripcion.value, term))
  }

  predicate GroupFilterOn(grupo: string) {
    grupo != "" && grupo != AllGroups
  }

  /** Whether an exercise survives the page's filters. */
  predicate Shown(e: Ejercicio, term: string, grupo: string) {
    (term == "" || MatchesSearch(e, term)) && (!GroupFilterOn(grupo) || e.grupoMuscular == grupo)
  }

  function SearchBy(term: string): Ejercicio -> bool {
    e => MatchesSearch(e, term)
  }

  function InGroup(grupo: string): Ejercicio -> bool {
    (e: Ejercicio) => e.grupoMuscular == grupo
  }

  function ShownBy(term: string, grupo: string): Ejercicio -> bool {
    e => Shown(e, term, grupo)
  }

  /** `filterEjercicios`: the search filter when a term is typed, then the group filter when a group is chosen. */
  function FilterEjercicios(es: seq<Ejercicio>, term: string, grupo: string): (r: seq<Ejercicio>)
    ensures term != "" ==> forall i :: 0 <= i < |r| ==> MatchesSearch(r[i], term)
    ensures GroupFilterOn(grupo) ==> forall i :: 0 <= i < |r| ==> r[i].grupoMuscular == grupo
  {
    var searched := if term != "" then Seqs.Filter(es, SearchBy(term)) else es;
    if GroupFilterOn(grupo) then Seqs.Filter(searched, InGroup(grupo)) else searched
  }

  /** The two filters in sequence are one filter by both criteria. */
  lemma FilterEjerciciosIsOneFilter(es: seq<Ejercicio>, term: string, grupo: string)
    ensures FilterEjercicios(es, term, grupo) == Seqs.Filter(es, ShownBy(term, grupo))
  {
    var search := SearchBy(term);
    var group := InGroup(grupo);
    var shown := ShownBy(term, grupo);
    if term != "" && GroupFilterOn(grupo) {
      Seqs.FilterThenFilter(es, search, group, shown);
    } else if term != "" {
      Seqs.FilterCongruent(es, search, shown);
    } else if GroupFilterOn(grupo) {
      Seqs.FilterCongruent(es, group, shown);
    } else {
      Seqs.FilterAllPass(es, shown);
    }
  }

  /**
   * The list shown is the catalogue's exercises that meet both criteria, in
   * catalogue order: nothing else, and none of them left out.
   */
  lemma FilterEjerciciosExact(es: seq<Ejercicio>, term: string, grupo: string)
    ensures var r := FilterEjercicios(es, term, grupo);
      && Seqs.Subseq(r, es)
      && |r| <= |es|
      && (forall i :: 0 <= i < |r| ==> Shown(r[i], term, grupo))
      && (forall i :: 0 <= i < |es| && Shown(es[i], term, grupo) ==> es[i] in r)
  {
    FilterEjerciciosIsOneFilter(es, term, grupo);
  }

  /** No term and no group, or the "Todos" group, shows the whole catalogue. */
  lemma NoCriteriaShowsAll(es: seq<Ejercicio>, grupo: string)
    requires grupo == "" || grupo == AllGroups
    ensures FilterEjercicios(es, "", grupo) == es
  {
  }

  /** Filtering the shown list again by the same criteria changes nothing. */
  lemma FilterEjerciciosIdempotent(es: seq<Ejercicio>, term: string, grupo: string)
    ensures FilterEjercicios(FilterEjercicios(es, term, grupo), term, grupo) == FilterEjercicios(es, term, grupo)
  {
    var r := FilterEjercicios(es, term, grupo);
    FilterEjerciciosIsOneFilter(es, term, grupo);
    FilterEjerciciosIsOneFilter(r, term, grupo);
    Seqs.FilterIdempotent(es, ShownBy(term, grupo));
  }

  // ---------------------------------------------------------------------------
  // The configuration dialog

  /** The dialog's fields; a number field that does not parse (`NaN`) is `None`. */
  datatype Config = Config(
    series: Option<int>,
    repeticiones: Option<int>,
    pesoSugerido: string,
    descansoSegundos: Option<int>,
    notas: string)

  /** The configuration a freshly opened dialog shows. */
  const DefaultConfig := Config(Some(3), Some(10), "", Some(60), "")

  datatype Dialog = Dialog(seleccionado: Option<Ejercicio>, open: bool, config: Config)

  /** `handleSelectEjercicio`: whatever was typed before, the dialog opens on the defaults. */
  function SelectEjercicio(d: Dialog, e: Ejercicio): (r: Dialog)
    ensures r.open && r.seleccionado == Some(e)
    ensures r.config.series == Some(3) && r.config.repeticiones == Some(10)
    ensures r.config.descansoSegundos == Some(60)
    ensures r.config.pesoSugerido == "" && r.config.notas == ""
  {
    Dialog(Some(e), true, DefaultConfig)
  }

  /** Selecting forgets the previous dialog entirely. */
  lemma SelectForgetsPreviousDialog(d: Dialog, d': Dialog, e: Ejercicio)
    ensures SelectEjercicio(d, e) == SelectEjercicio(d', e)
  {
  }

  /** The body of `POST /rutinas/:id/ejercicios`. */
  datatype AddBody = AddBody(
    ejercicioId: int,
    series: Option<int>,
    repeticiones: Option<int>,
    pesoSugerido: Option<string>,
    descansoSegundos: Option<int>,
    notas: string)

  /** `handleAgregarEjercicio`'s body: the configuration as typed, with an empty weight sent as `null`. */
  function AgregarBody(e: Ejercicio, c: Config): (b: AddBody)
    ensures b.ejercicioId == e.id
    ensures b.series == c.series && b.repeticiones == c.repeticiones
    ensures b.descansoSegundos == c.descansoSegundos && b.notas == c.notas
    ensures b.pesoSugerido.None? <==> c.pesoSugerido == ""
    ensures b.pesoSugerido.Some? ==> b.pesoSugerido.value == c.pesoSugerido
  {
    AddBody(e.id, c.series, c.repeticiones, OrNull(Some(c.pesoSugerido)), c.descansoSegundos, c.notas)
  }

  /** The body as `addEjercicioToRutina` destructures it: each field goes to its column as sent. */
  function ControllerBody(b: AddBody): (r: RutinasController.AddBody)
    ensures r.ejercicioId == b.ejercicioId
    ensures r.config == Tables.Config(b.series, b.repeticiones, b.pesoSugerido, b.descansoSegundos, Some(b.notas))
  {
    RutinasController.AddBody(b.ejercicioId,
      Tables.Config(b.series, b.repeticiones, b.pesoSugerido, b.descansoSegundos, Some(b.notas)))
  }

  /**
   * Adding an exercise from the dialog, to a routine of the user's, stores
   * the dialog's configuration and lists the exercise after every one the
   * routine had.
   */
  lemma AddedWithDialogConfig(db: Tables.Db, rutinaId: int, userId: int, e: Ejercicio, c: Config)
    requires Tables.Owns(db, rutinaId, userId) && Tables.EjercicioExists(db, e.id)
    ensures var r := RutinasController.AddEjercicioToRutina(db, rutinaId, userId, ControllerBody(AgregarBody(e, c)));
      var before := RutinasController.GetRutinaEjercicios(db, rutinaId, userId).rows;
      var after := RutinasController.GetRutinaEjercicios(r.db, rutinaId, userId).rows;
      && r.status == 201
      && |after| == |before| + 1
      && after[|before|].ejercicioId == e.id
      && after[|before|].config.series == c.series
      && after[|before|].config.repeticiones == c.repeticiones
      && after[|before|].config.descansoSegundos == c.descansoSegundos
      && after[|before|].config.pesoSugerido == (if c.pesoSugerido == "" then None else Some(c.pesoSugerido))
      && after[|before|].config.notas == Some(c.notas)
  {
    RutinasController.AddedExerciseListedLast(db, rutinaId, userId, ControllerBody(AgregarBody(e, c)));
  }
}

=== FILE: api_client.dfy ===
/**
 * The HTTP client every page calls through (src/services/api.js): an axios
 * instance whose base URL is the build's `VITE_API_URL`, or the local server
 * when that is unset or empty. A page's `api.get("/rutinas")` joins the base
 * and the path as axios does, the browser resolves the result against the
 * page's URL, and the offline worker routes the request it sees.
 */
module ApiClient {
  import opened Wrappers
  import opened Text
  import OfflineCache

  const DefaultBaseUrl: string := "http://localhost:3000/api"
  const DefaultOrigin: string := "http://localhost:3000"

  /** `import.meta.env.VITE_API_URL || 'http://localhost:3000/api'`; `None` is an unset variable. */
  function BaseUrl(viteApiUrl: Option<string>): (b: string)
    ensures b != ""
    ensures viteApiUrl.Some? && viteApiUrl.value != "" ==> b == viteApiUrl.value
    ensures viteApiUrl.None? || viteApiUrl.value == "" ==> b == DefaultBaseUrl
  {
    if viteApiUrl.Some? && viteApiUrl.value != "" then viteApiUrl.value else DefaultBaseUrl
  }

  // ---------------------------------------------------------------------------
  // Joining the base and the page's path

  /** `base.replace(/\/?\/$/, '')`: one or two trailing slashes dropped. */
  function TrimTrailingSlash(s: string): (r: string)
    ensures r <= s && |s| - 2 <= |r|
    ensures forall k :: |r| <= k < |s| ==> s[k] == '/'
    ensures |r| < |s| ==> s[|s| - 1] == '/'
  {
    if |s| >= 2 && s[|s| - 2] == '/' && s[|s| - 1] == '/' then s[..|s| - 2]
    else if |s| >= 1 && s[|s| - 1] == '/' then s[..|s| - 1]
    else s
  }

  /** `relative.replace(/^\/+/, '')`: every leading slash dropped. */
  function TrimLeadingSlashes(s: string): (r: string)
    ensures |r| <= |s| && r == s[|s| - |r|..]
    ensures forall k :: 0 <= k < |s| - |r| ==> s[k] == '/'
    ensures r == [] || r[0] != '/'
    decreases |s|
  {
    if |s| > 0 && s[0] == '/' then TrimLeadingSlashes(s[1..]) else s
  }

  /** axios's `combineURLs(baseURL, relativeURL)`. */
  function CombineUrls(base: string, relative: string): string {
    if relative == "" then base else TrimTrailingSlash(base) + "/" + TrimLeadingSlashes(relative)
  }

  // ---------------------------------------------------------------------------
  // Resolving a URL in the page

  const AuthorityStops: set<char> := {'/', '?', '#'}
  const PathStops: set<char> := {'?', '#'}
  const QueryStops: set<char> := {'#'}

  /** The first index from `i` on whose character is one of `stops`, or the length. */
  function Find(u: string, i: nat, stops: set<char>): (j: nat)
    requires i <= |u|
    ensures i <= j <= |u|
    ensures forall k :: i <= k < j ==> u[k] !in stops
    ensures j < |u| ==> u[j] in stops
    decreases |u| - i
  {
    if i == |u| || u[i] in stops then i else Find(u, i + 1, stops)
  }

  /** The length of a leading "http://" or "https://", or 0 when the URL does not name one of the two schemes. */
  function SchemeEnd(u: string): (n: nat)
    ensures n == 0 || n == 7 || n == 8
    ensures n <= |u|
    ensures n == 7 ==> u[..7] == "http://"
    ensures n == 8 ==> u[..8] == "https://"
    ensures n == 0 <==> !(|u| >= 7 && u[..7] == "http://") && !(|u| >= 8 && u[..8] == "https://")
  {
    if |u| >= 7 && u[..7] == "http://" then 7
    else if |u| >= 8 && u[..8] == "https://" then 8
    else 0
  }

  /** An absolute URL with a non-empty host. */
  predicate HasHost(u: string) {
    SchemeEnd(u) > 0 && Find(u, SchemeEnd(u), AuthorityStops) > SchemeEnd(u)
  }

  /** The scheme and host (with port) of an absolute URL. */
  function OriginOf(u: string): (o: string)
    requires SchemeEnd(u) > 0
    ensures o <= u && |o| >= SchemeEnd(u)
  {
    u[..Find(u, SchemeEnd(u), AuthorityStops)]
  }

  datatype Location = Location(origin: string, path: string, query: string)

  /**
   * Where the browser sends a URL from a page at `pageOrigin` whose document
   * sits in the directory `pageDir`: an absolute URL names its own origin
   * and path (an empty path is "/"); any other URL stays on the page's
   * origin, from the root when it starts with "/" and from the page's
   * directory otherwise. The query keeps its "?"; a fragment is not sent.
   */
  function Resolve(u: string, pageOrigin: string, pageDir: string): (l: Location)
    ensures SchemeEnd(u) > 0 ==> l.origin == OriginOf(u)
    ensures SchemeEnd(u) == 0 ==> l.origin == pageOrigin
  {
    var n := SchemeEnd(u);
    var a := if n > 0 then Find(u, n, AuthorityStops) else 0;
    var q := Find(u, a, PathStops);
    var query := if q < |u| && u[q] == '?' then u[q..Find(u, q, QueryStops)] else "";
    if n > 0 then
      Location(u[..a], if q == a then "/" else u[a..q], query)
    else
      var rel := u[..q];
      Location(pageOrigin, if |rel| > 0 && rel[0] == '/' then rel else pageDir + rel, query)
  }

  /** The request the worker sees for a page's `api.<verb>(endpoint)`; an XHR has no destination. */
  function ApiRequest(viteApiUrl: Option<string>, pageOrigin: string, pageDir: string, verb: string, endpoint: string)
    : (r: OfflineCache.Request)
    ensures r.verb == verb && r.destination == ""
  {
    var l := Resolve(CombineUrls(BaseUrl(viteApiUrl), endpoint), pageOrigin, pageDir);
    OfflineCache.Request(verb, l.origin, l.path, l.query, "")
  }

  // ---------------------------------------------------------------------------
  // Properties

  /** `Find` stops at the first stop character, so any index with that property is its answer. */
  lemma FindIs(u: string, i: nat, stops: set<char>, j: nat)
    requires i <= j <= |u|
    requires forall k :: i <= k < j ==> u[k] !in stops
    requires j == |u| || u[j] in stops
    ensures Find(u, i, stops) == j
  {
  }

  /** Joining a path to a base with a host never changes the host: the join only touches what follows it. */
  lemma {:induction false} CombineKeepsOrigin(base: string, endpoint: string)
    requires HasHost(base)
    ensures SchemeEnd(CombineUrls(base, endpoint)) == SchemeEnd(base)
    ensures OriginOf(CombineUrls(base, endpoint)) == OriginOf(base)
  {
    var n := SchemeEnd(base);
    var a := Find(base, n, AuthorityStops);
    var u := CombineUrls(base, endpoint);
    if endpoint != "" {
      var t := TrimTrailingSlash(base);
      assert base[a - 1] !in AuthorityStops;
      assert |t| >= a;
      assert u[..|t|] == t && t == base[..|t|];
      if n == 7 {
        assert u[..7] == base[..7];
      } else {
        assert u[..7] == base[..7];
        assert u[..8] == base[..8];
      }
      assert u[|t|] == '/';
      assert forall k :: n <= k < a ==> u[k] == base[k];
      FindIs(u, n, AuthorityStops, a);
      assert u[..a] == base[..a];
    }
  }

  /**
   * How the worker serves the pages' calls, whatever the build's
   * `VITE_API_URL`: with a base that names a host, a call is served
   * cache-first exactly when that host is the page's own origin, and
   * otherwise network-first when its path holds "/api/"; with a base that is
   * a path from the root, every call stays on the page's origin and is
   * served cache-first.
   */
  lemma ApiRequestStrategy(viteApiUrl: Option<string>, pageOrigin: string, pageDir: string, verb: string, endpoint: string)
    ensures var base := BaseUrl(viteApiUrl);
      var r := ApiRequest(viteApiUrl, pageOrigin, pageDir, verb, endpoint);
      var s := OfflineCache.Route(r, pageOrigin);
      && (HasHost(base) ==> (s == OfflineCache.CacheFirst <==> OriginOf(base) == pageOrigin))
      && (HasHost(base) && OriginOf(base) != pageOrigin ==> (s == OfflineCache.NetworkFirst <==> Contains(r.path, "/api/")))
      && (base[0] == '/' ==> s == OfflineCache.CacheFirst)
  {
    var base := BaseUrl(viteApiUrl);
    var u := CombineUrls(base, endpoint);
    if HasHost(base) {
      CombineKeepsOrigin(base, endpoint);
    }
    if base[0] == '/' {
      if endpoint != "" {
        var t := TrimTrailingSlash(base);
        assert |t| > 0 ==> t[0] == base[0];
        assert u[0] == '/';
      }
      assert u[0] == '/';
      assert SchemeEnd(u) == 0 by {
        if |u| >= 7 { assert u[..7][0] == '/'; }
        if |u| >= 8 { assert u[..8][0] == '/'; }
      }
    }
  }

  /** The default origin is "http://" and a host of 14 characters that hold no "/", "?" or "#". */
  lemma DefaultOriginHost()
    ensures |DefaultOrigin| == 21 && DefaultOrigin[..7] == "http://"
    ensures forall k :: 7 <= k < 21 ==> DefaultOrigin[k] !in AuthorityStops
  {
  }

  /** The default base names the local server on port 3000. */
  lemma DefaultBaseOrigin()
    ensures HasHost(DefaultBaseUrl) && OriginOf(DefaultBaseUrl) == DefaultOrigin
  {
    DefaultOriginHost();
    var b := DefaultBaseUrl;
    assert b == DefaultOrigin + "/api";
    assert b[..7] == DefaultOrigin[..7];
    assert b[21] == '/';
    FindIs(b, 7, AuthorityStops, 21);
    assert b[..21] == DefaultOrigin;
  }

  /** Any URL that starts like the default base joined to a path names the default origin. */
  lemma DefaultShapeHost(u: string)
    requires |u| >= 26 && u[..26] == DefaultOrigin + "/api/"
    ensures SchemeEnd(u) == 7
    ensures Find(u, 7, AuthorityStops) == 21
    ensures u[..21] == DefaultOrigin
  {
    DefaultOriginHost();
    assert u[..21] == u[..26][..21];
    assert u[..7] == DefaultOrigin[..7];
    assert u[21] == u[..26][21] == '/';
    FindIs(u, 7, AuthorityStops, 21);
  }

  /** ... and its path, from index 21, runs at least past "/api/". */
  lemma DefaultShapePath(u: string)
    requires |u| >= 26 && u[..26] == DefaultOrigin + "/api/"
    ensures Find(u, 21, PathStops) >= 26
    ensures u[21..26] == "/api/"
  {
    assert u[21..26] == u[..26][21..];
    assert forall k :: 21 <= k < 26 ==> u[k] == u[21..26][k - 21];
    assert forall c :: c in "/api/" ==> c !in PathStops;
  }

  /** With the default base, a non-empty path joins after "/api/". */
  lemma DefaultJoin(endpoint: string)
    requires endpoint != ""
    ensures var u := CombineUrls(DefaultBaseUrl, endpoint);
      && |u| >= 26 && u[..26] == DefaultOrigin + "/api/"
  {
    assert TrimTrailingSlash(DefaultBaseUrl) == DefaultBaseUrl;
    assert DefaultBaseUrl + "/" == DefaultOrigin + "/api/";
  }

  /** With the default base, a call to a non-empty path goes to the default origin under "/api/". */
  lemma DefaultJoinedLocation(endpoint: string, pageOrigin: string, pageDir: string)
    requires endpoint != ""
    ensures var l := Resolve(CombineUrls(DefaultBaseUrl, endpoint), pageOrigin, pageDir);
      l.origin == DefaultOrigin && Contains(l.path, "/api/")
  {
    var u := CombineUrls(DefaultBaseUrl, endpoint);
    DefaultJoin(endpoint);
    DefaultShapeHost(u);
    DefaultShapePath(u);
    var path := Resolve(u, pageOrigin, pageDir).path;
    assert path == u[21..Find(u, 21, PathStops)];
    assert OccursAt("/api/", path, 0) by {
      assert path[0..5] == u[21..26];
    }
  }

  /**
   * With `VITE_API_URL` unset or empty, every call goes to
   * http://localhost:3000 with a path under "/api/": from a page served
   * anywhere else the worker sends it network-first, and only from that
   * origin itself cache-first.
   */
  lemma DefaultBaseStrategy(viteApiUrl: Option<string>, pageOrigin: string, pageDir: string, verb: string, endpoint: string)
    requires viteApiUrl.None? || viteApiUrl.value == ""
    ensures var r := ApiRequest(viteApiUrl, pageOrigin, pageDir, verb, endpoint);
      var s := OfflineCache.Route(r, pageOrigin);
      && r.origin == DefaultOrigin
      && (endpoint != "" ==> (s == OfflineCache.NetworkFirst <==> pageOrigin != DefaultOrigin))
      && (s == OfflineCache.CacheFirst <==> pageOrigin == DefaultOrigin)
  {
    assert BaseUrl(viteApiUrl) == DefaultBaseUrl;
    DefaultBaseOrigin();
    CombineKeepsOrigin(DefaultBaseUrl, endpoint);
    if endpoint != "" {
      DefaultJoinedLocation(endpoint, pageOrigin, pageDir);
    }
  }
}

=== FILE: api_config.dfy ===
/**
 * The API base URL that `getApiUrl` picks from the page's host name
 * (src/config/api.js). The pages do not build their requests on it: they
 * call through `ApiClient`, whose base comes from the build instead.
 */
module ApiConfig {

  const ProductionUrl: string := "/gym-api/api"
  const DevelopmentUrl: string := "http://localhost:8765/api"

  predicate IsLocalHost(hostname: string) {
    hostname == "localhost" || hostname == "127.0.0.1"
  }

  /** `getApiUrl`: the development server on the two local host names, the same-site path everywhere else. */
  function GetApiUrl(hostname: string): (url: string)
    ensures url == DevelopmentUrl <==> IsLocalHost(hostname)
    ensures url == ProductionUrl <==> !IsLocalHost(hostname)
  {
    if IsLocalHost(hostname) then DevelopmentUrl else ProductionUrl
  }

  /** The origin of the development server. */
  const DevelopmentOrigin: string := "http://localhost:8765"

  /**
   * Where a request built on `getApiUrl()` with `endpoint` (such as
   * "/rutinas") would go from a page served at `pageOrigin`: the development
   * URL is absolute and names its own origin; the production path is
   * relative, so it resolves against the page's origin.
   */
  function ApiTarget(hostname: string, pageOrigin: string, endpoint: string): (t: (string, string))
    ensures IsLocalHost(hostname) ==> t == (DevelopmentOrigin, "/api" + endpoint)
    ensures !IsLocalHost(hostname) ==> t == (pageOrigin, ProductionUrl + endpoint)
  {
    var base := GetApiUrl(hostname);
    var n := |DevelopmentOrigin|;
    if |base| >= n && base[..n] == DevelopmentOrigin then
      assert IsLocalHost(hostname) ==> base[n..] == "/api";
      (DevelopmentOrigin, base[n..] + endpoint)
    else
      (pageOrigin, base + endpoint)
  }
}

=== FILE: auth.dfy ===
/**
 * The authentication middleware (src/middleware/auth.js): reading the
 * bearer token, the outcome of verifying it, the user lookup, and the admin
 * gate. Token verification is a parameter: the user id a valid token
 * carries, or `None` when verification throws.
 */
module Auth {
  import opened Wrappers
  import opened Text
  import opened Domain

  /**
   * `authHeader && authHeader.split(' ')[1]`, then `if (!token)`: the second
   * space-separated part of the header, when there is one and it is not empty.
   */
  function ExtractToken(header: Option<string>): (t: Option<string>)
    ensures t.Some? <==> Present(header) && |Split(header.value, ' ')| >= 2 && Split(header.value, ' ')[1] != ""
    ensures t.Some? ==> t.value == Split(header.value, ' ')[1] && t.value != "" && ' ' !in t.value
  {
    if !Present(header) then None
    else
      var parts := Split(header.value, ' ');
      if |parts| >= 2 && parts[1] != "" then Some(parts[1]) else None
  }

  /** `"<scheme> <token>"` yields the token, whatever the scheme word is. */
  lemma SchemeThenToken(scheme: string, token: string)
    requires ' ' !in scheme && ' ' !in token && token != ""
    ensures ExtractToken(Some(scheme + " " + token)) == Some(token)
  {
    SplitAtFirst(scheme, token, ' ');
  }

  /** Example: the header the front end sends. */
  lemma BearerHeader()
    ensures ExtractToken(Some("Bearer abc.def")) == Some("abc.def")
  {
    assert "Bearer abc.def" == "Bearer" + " " + "abc.def";
    assert ' ' !in "Bearer" && ' ' !in "abc.def";
    SchemeThenToken("Bearer", "abc.def");
  }

  /** Anything after a second space is ignored. */
  lemma TrailingPartsIgnored(scheme: string, token: string, more: string)
    requires ' ' !in scheme && ' ' !in token && token != ""
    ensures ExtractToken(Some(scheme + " " + token + " " + more)) == Some(token)
  {
    SplitAtFirst(scheme, token + " " + more, ' ');
    SplitAtFirst(token, more, ' ');
    assert scheme + " " + token + " " + more == scheme + [' '] + (token + [' '] + more);
  }

  /** A header without a space has no token. */
  lemma NoSpaceNoToken(header: string)
    requires ' ' !in header
    ensures ExtractToken(Some(header)) == None
  {
  }

  /** A header ending in its first space has no token. */
  lemma NothingAfterSpaceNoToken(scheme: string)
    requires ' ' !in scheme
    ensures ExtractToken(Some(scheme + " ")) == None
  {
    SplitAtFirst(scheme, "", ' ');
    assert scheme + " " == scheme + [' '] + "";
  }

  /** Two spaces in a row leave an empty second part, so no token. */
  lemma DoubleSpaceNoToken(scheme: string, rest: string)
    requires ' ' !in scheme
    ensures ExtractToken(Some(scheme + "  " + rest)) == None
  {
    SplitAtFirst(scheme, " " + rest, ' ');
    SplitAtFirst("", rest, ' ');
    assert scheme + "  " + rest == scheme + [' '] + (" " + rest);
    assert " " + rest == [] + [' '] + rest;
  }

  datatype User = User(id: int, nombre: string, email: string, rol: string)

  /** `SELECT ... FROM users WHERE id = ?`, first row. */
  function FindUser(users: seq<User>, id: int): (u: Option<User>)
    ensures u.None? <==> forall i :: 0 <= i < |users| ==> users[i].id != id
    ensures u.Some? ==> u.value in users && u.value.id == id
    decreases |users|
  {
    if |users| == 0 then None
    else if users[0].id == id then Some(users[0])
    else FindUser(users[1..], id)
  }

  datatype AuthOutcome = Unauthorized(message: string) | Forbidden(message: string) | Authenticated(user: User)

  function Status(r: AuthOutcome): int {
    match r
    case Unauthorized(_) => 401
    case Forbidden(_) => 403
    case Authenticated(_) => 200
  }

  /**
   * `authenticateToken`: no token is 401; a token that does not verify, or a
   * failing user query (`dbOk` false), lands in the `catch` and is 403; a
   * verified id with no user is 401; otherwise the request goes on as that user.
   */
  function AuthenticateToken(header: Option<string>, verify: string -> Option<int>, users: seq<User>, dbOk: bool)
    : (r: AuthOutcome)
    ensures ExtractToken(header).None? ==> r == Unauthorized("Token de acceso requerido")
    ensures ExtractToken(header).Some? && (verify(ExtractToken(header).value).None? || !dbOk) ==>
              r == Forbidden("Token no válido")
    ensures r.Authenticated? <==>
              && ExtractToken(header).Some? && verify(ExtractToken(header).value).Some? && dbOk
              && exists i :: 0 <= i < |users| && users[i].id == verify(ExtractToken(header).value).value
    ensures r.Authenticated? ==> r.user in users && r.user.id == verify(ExtractToken(header).value).value
    ensures && ExtractToken(header).Some? && verify(ExtractToken(header).value).Some? && dbOk
            && FindUser(users, verify(ExtractToken(header).value).value).None? ==>
              r == Unauthorized("Usuario no válido")
  {
    var token := ExtractToken(header);
    if token.None? then Unauthorized("Token de acceso requerido")
    else
      var decoded := verify(token.value);
      if decoded.None? || !dbOk then Forbidden("Token no válido")
      else
        var user := FindUser(users, decoded.value);
        if user.None? then Unauthorized("Usuario no válido") else Authenticated(user.value)
  }

  datatype Gate = Pass | Denied(status: int, message: string)

  /** `requireAdmin`: only the "admin" role passes; everyone else is 403. */
  function RequireAdmin(u: User): (g: Gate)
    ensures g == Pass <==> u.rol == "admin"
    ensures g != Pass ==> g == Denied(403, "Acceso restringido a administradores")
  {
    if u.rol != "admin" then Denied(403, "Acceso restringido a administradores") else Pass
  }

  /** Authentication followed by the admin gate, as the catalogue's write routes chain them. */
  function AdminOnly(header: Option<string>, verify: string -> Option<int>, users: seq<User>, dbOk: bool): (s: int)
    ensures s == 200 ==>
      var r := AuthenticateToken(header, verify, users, dbOk);
      r.Authenticated? && r.user in users && r.user.rol == "admin"
    ensures s in {200, 401, 403}
    ensures var r := AuthenticateToken(header, verify, users, dbOk);
      && (r.Authenticated? && r.user.rol == "admin" ==> s == 200)
      && (r.Authenticated? && r.user.rol != "admin" ==> s == 403)
      && (!r.Authenticated? ==> s == Status(r))
  {
    var r := AuthenticateToken(header, verify, users, dbOk);
    if !r.Authenticated? then Status(r)
    else if RequireAdmin(r.user) == Pass then 200
    else 403
  }

  /**
   * Every request falls in exactly one of the middleware's answers: no
   * token, a token that does not verify or a failed lookup, an unknown
   * user, or the user the token names.
   */
  lemma OutcomesPartition(header: Option<string>, verify: string -> Option<int>, users: seq<User>, dbOk: bool)
    ensures var r := AuthenticateToken(header, verify, users, dbOk);
      var t := ExtractToken(header);
      && (r == Unauthorized("Token de acceso requerido") <==> t.None?)
      && (r == Forbidden("Token no válido") <==> t.Some? && (verify(t.value).None? || !dbOk))
      && (r == Unauthorized("Usuario no válido") <==>
            t.Some? && verify(t.value).Some? && dbOk && FindUser(users, verify(t.value).value).None?)
      && (r.Authenticated? <==>
            t.Some? && verify(t.value).Some? && dbOk && FindUser(users, verify(t.value).value).Some?)
      && (r.Authenticated? ==> r.user == FindUser(users, verify(t.value).value).value)
  {
  }
}

=== FILE: countdown.dfy ===
/**
 * The rest countdown local to the workout page (src/pages/IniciarEntrenamiento.jsx):
 * three pieces of React state, the handlers that set them, the effect that
 * counts down once a second, and `formatTime`.
 */
module RestCountdown {
  import opened Wrappers
  import opened Text
  import opened JsMath

  /** `timerActive`, `timeLeft` (seconds) and `initialTime` (for the progress ring). */
  datatype Countdown = Countdown(active: bool, timeLeft: int, initialTime: int)

  /** The state before any rest has started. */
  const Idle := Countdown(false, 0, 0)

  /** `startTimer(seconds)`. */
  function Start(seconds: int): (c: Countdown)
    ensures c.active && c.timeLeft == seconds && c.initialTime == seconds
  {
    Countdown(true, seconds, seconds)
  }

  /** `pauseTimer`: stops counting and keeps the remaining time. */
  function Pause(c: Countdown): (r: Countdown)
    ensures !r.active
    ensures r.timeLeft == c.timeLeft && r.initialTime == c.initialTime
  {
    c.(active := false)
  }

  /** `resetTimer` (the "Continuar" button). */
  function Reset(c: Countdown): (r: Countdown)
    ensures r == Idle
  {
    Idle
  }

  /** The "+30s" and "+1min" buttons: `setTimeLeft(timeLeft + delta)`. */
  function AddSeconds(c: Countdown, delta: int): (r: Countdown)
    ensures r.timeLeft - c.timeLeft == delta
    ensures r.active == c.active && r.initialTime == c.initialTime
  {
    c.(timeLeft := c.timeLeft + delta)
  }

  /** One run of the countdown effect, and whether it raised the "rest over" alert. */
  datatype TickResult = TickResult(next: Countdown, alerted: bool)

  /**
   * While active with time left the effect decrements once a second; when an
   * active countdown sits at exactly 0 it deactivates and raises the alert
   * (notification and vibration); otherwise nothing happens.
   */
  function Tick(c: Countdown): (r: TickResult)
    ensures r.next.initialTime == c.initialTime
    ensures c.active && c.timeLeft > 0 ==> r.next == c.(timeLeft := c.timeLeft - 1) && !r.alerted
    ensures r.alerted <==> c.active && c.timeLeft == 0
    ensures r.alerted ==> !r.next.active && r.next.timeLeft == 0
    ensures !c.active ==> r.next == c
  {
    if c.active && c.timeLeft > 0 then TickResult(c.(timeLeft := c.timeLeft - 1), false)
    else if c.timeLeft == 0 && c.active then TickResult(c.(active := false), true)
    else TickResult(c, false)
  }

  /** The state after `n` runs of the effect. */
  function After(c: Countdown, n: nat): Countdown
    decreases n
  {
    if n == 0 then c else After(Tick(c).next, n - 1)
  }

  /** How many alerts `n` runs of the effect raise. */
  function Alerts(c: Countdown, n: nat): nat
    decreases n
  {
    if n == 0 then 0 else (if Tick(c).alerted then 1 else 0) + Alerts(Tick(c).next, n - 1)
  }

  /** An inactive countdown stays as it is and never alerts, however often the effect runs. */
  lemma {:induction false} InactiveIsQuiet(c: Countdown, n: nat)
    requires !c.active
    ensures After(c, n) == c && Alerts(c, n) == 0
    decreases n
  {
    if n > 0 {
      InactiveIsQuiet(c, n - 1);
    }
  }

  /**
   * A countdown started with `k >= 0` seconds is still running after `n <= k`
   * runs of the effect with `k - n` seconds left, and has not alerted.
   */
  lemma {:induction false} CountsDown(c: Countdown, n: nat)
    requires c.active && n <= c.timeLeft
    ensures After(c, n) == c.(timeLeft := c.timeLeft - n)
    ensures Alerts(c, n) == 0
    decreases n
  {
    if n > 0 {
      CountsDown(c.(timeLeft := c.timeLeft - 1), n - 1);
    }
  }

  /**
   * ... and after any `n > k` runs of the effect it has stopped at 0 having alerted exactly
   * once: the alert is never repeated.
   */
  lemma {:induction false} AlertsExactlyOnce(c: Countdown, n: nat)
    requires c.active && 0 <= c.timeLeft < n
    ensures Alerts(c, n) == 1
    ensures After(c, n) == c.(active := false, timeLeft := 0)
    decreases n
  {
    if c.timeLeft == 0 {
      InactiveIsQuiet(c.(active := false), n - 1);
    } else {
      AlertsExactlyOnce(c.(timeLeft := c.timeLeft - 1), n - 1);
    }
  }

  /** With a negative `timeLeft` (a negative configured rest) the effect never ends the rest. */
  lemma {:induction false} NegativeNeverAlerts(c: Countdown, n: nat)
    requires c.timeLeft < 0
    ensures After(c, n) == c && Alerts(c, n) == 0
    decreases n
  {
    if n > 0 {
      NegativeNeverAlerts(c, n - 1);
    }
  }

  // ---------------------------------------------------------------------------
  // formatTime

  /** `formatTime(seconds)`: `Math.floor(seconds / 60)`, a colon, and the remainder padded to two characters. */
  function FormatTime(seconds: int): string {
    IntToString(seconds / 60) + ":" + PadStart2(IntToString(JsRem(seconds, 60)))
  }

  /** Reads an `m:ss` display back into seconds. */
  function ParseTime(t: string): Option<nat> {
    if |t| >= 4 && t[|t| - 3] == ':' && AllDigits(t[..|t| - 3]) && AllDigits(t[|t| - 2..]) then
      Some(DigitsValue(t[..|t| - 3]) * 60 + DigitsValue(t[|t| - 2..]))
    else
      None
  }

  lemma TwoDigits(secs: nat)
    requires secs < 60
    ensures |PadStart2(IntToString(secs))| == 2
    ensures AllDigits(PadStart2(IntToString(secs)))
    ensures DigitsValue(PadStart2(IntToString(secs))) == secs
  {
    var p := PadStart2(IntToString(secs));
    if secs < 10 {
      assert p == "0" + [DigitChar(secs)];
      assert p[..1] == "0";
      assert DigitsValue(p[..1]) == DigitsValue("") * 10 + 0;
      assert DigitsValue(p) == DigitsValue(p[..1]) * 10 + (p[1] as int - '0' as int);
    } else {
      assert NatToString(secs) == NatToString(secs / 10) + [DigitChar(secs % 10)];
      assert |NatToString(secs / 10)| == 1;
      DigitsValueOfNatToString(secs);
    }
  }

  lemma ParseJoined(m: string, ss: string)
    requires 1 <= |m| && AllDigits(m) && |ss| == 2 && AllDigits(ss)
    ensures var t := m + ":" + ss;
      && |t| >= 4 && t[|t| - 3] == ':' && t[..|t| - 3] == m && t[|t| - 2..] == ss
      && ParseTime(t) == Some(DigitsValue(m) * 60 + DigitsValue(ss))
  {
    var t := m + ":" + ss;
    assert t[..|t| - 3] == m;
    assert t[|t| - 2..] == ss;
  }

  /**
   * For a non-negative number of seconds the display is `m:ss`: the seconds
   * part is always two digits and below 60, and reading it back gives the
   * number of seconds.
   */
  lemma FormatTimeRoundTrip(seconds: nat)
    ensures var t := FormatTime(seconds);
      && |t| >= 4 && t[|t| - 3] == ':'
      && DigitsValue(t[..|t| - 3]) == seconds / 60
      && AllDigits(t[|t| - 2..]) && DigitsValue(t[|t| - 2..]) < 60
      && ParseTime(t) == Some(seconds)
  {
    var mins, secs := seconds / 60, seconds % 60;
    assert mins * 60 + secs == seconds;
    var m := IntToString(mins);
    var ss := PadStart2(IntToString(secs));
    TwoDigits(secs);
    DigitsValueOfNatToString(mins);
    assert FormatTime(seconds) == m + ":" + ss;
    ParseJoined(m, ss);
  }

  /** Different non-negative durations never display the same. */
  lemma FormatTimeInjective(a: nat, b: nat)
    requires FormatTime(a) == FormatTime(b)
    ensures a == b
  {
    FormatTimeRoundTrip(a);
    FormatTimeRoundTrip(b);
  }
}

=== FILE: domain.dfy ===
/**
 * Rows the pages receive from the API, and the JavaScript coercions the
 * pages apply to them (`x || default`, falsy checks).
 */
module Domain {
  import opened Wrappers

  /** JavaScript truthiness of an optional number: `null`, `undefined` and `0` are falsy. */
  predicate Truthy(n: Option<int>) {
    n.Some? && n.value != 0
  }

  /** `n || fallback` on an optional number. */
  function OrElse(n: Option<int>, fallback: int): (r: int)
    ensures Truthy(n) ==> r == n.value
    ensures !Truthy(n) ==> r == fallback
  {
    if Truthy(n) then n.value else fallback
  }

  /** `n || ''` on a numeric form field; `None` stands for the empty string. */
  function NumField(n: Option<int>): (r: Option<int>)
    ensures r.Some? <==> Truthy(n)
    ensures r.Some? ==> r == n
  {
    if Truthy(n) then n else None
  }

  /** JavaScript truthiness of an optional string: `null`, `undefined` and `''` are falsy. */
  predicate Present(s: Option<string>) {
    s.Some? && s.value != ""
  }

  /** `s || null`. */
  function OrNull(s: Option<string>): (r: Option<string>)
    ensures r.Some? <==> Present(s)
    ensures r.Some? ==> r == s
  {
    if Present(s) then s else None
  }

  /** `s || ''`. */
  function OrEmpty(s: Option<string>): (r: string)
    ensures Present(s) ==> r == s.value
    ensures !Present(s) ==> r == ""
  {
    if Present(s) then s.value else ""
  }

  /**
   * One exercise of a routine as `GET /rutinas/:id/ejercicios` returns it:
   * the catalogue columns joined with the routine's configuration of it.
   * Weights are kept as the text the API sends.
   */
  datatype RoutineExercise = RoutineExercise(
    ejercicioId: int,
    nombre: string,
    descripcion: Option<string>,
    grupoMuscular: string,
    series: int,
    repeticiones: Option<int>,
    pesoSugerido: Option<string>,
    descansoSegundos: Option<int>,
    notas: Option<string>,
    orden: int)

  /** The rest used when an exercise has none configured. */
  const DefaultRestSeconds: int := 60

  /** `descanso_segundos || 60`: a missing or zero rest counts as 60 seconds. */
  function RestSeconds(e: RoutineExercise): (r: int)
    ensures r != 0
    ensures r == DefaultRestSeconds <==> !Truthy(e.descansoSegundos) || e.descansoSegundos.value == DefaultRestSeconds
    ensures r != DefaultRestSeconds ==> e.descansoSegundos == Some(r)
  {
    OrElse(e.descansoSegundos, DefaultRestSeconds)
  }

  /** A catalogue exercise as `GET /ejercicios` lists it. */
  datatype Ejercicio = Ejercicio(
    id: int,
    nombre: string,
    descripcion: Option<string>,
    grupoMuscular: string,
    videoUrl: Option<string>)

  /** A routine as the routine endpoints return it (`GET /rutinas` and `GET /rutinas/:id`). */
  datatype Rutina = Rutina(
    id: int,
    nombre: string,
    descripcion: Option<string>,
    dia: string,
    grupoMuscular: string,
    notas: Option<string>)
}

=== FILE: edit_exercise.dfy ===
/**
 * The page that edits one exercise of a routine
 * (src/pages/EditarEjercicio.jsx): finding the exercise from the route
 * parameter, filling the form from it, and the checks `handleSave` runs
 * before it sends the update.
 */
module EditExercisePage {
  import opened Wrappers
  import opened Text
  import opened Domain
  import opened NumberInput

  // ---------------------------------------------------------------------------
  // Finding the exercise

  /** `ej.ejercicio_id.toString() === ejercicioId`. */
  predicate IdMatches(e: RoutineExercise, param: string) {
    IntToString(e.ejercicioId) == param
  }

  /** `Array.prototype.find`: the first exercise whose id prints as the route parameter. */
  function FindEjercicio(es: seq<RoutineExercise>, param: string): (r: Option<RoutineExercise>)
    ensures r.None? <==> forall i :: 0 <= i < |es| ==> !IdMatches(es[i], param)
    ensures r.Some? ==> exists i :: && 0 <= i < |es| && es[i] == r.value && IdMatches(es[i], param)
                                    && forall j :: 0 <= j < i ==> !IdMatches(es[j], param)
    decreases |es|
  {
    if |es| == 0 then None
    else if IdMatches(es[0], param) then Some(es[0])
    else
      var r := FindEjercicio(es[1..], param);
      if r.Some? then
        ghost var i :| && 0 <= i < |es[1..]| && es[1..][i] == r.value && IdMatches(es[1..][i], param)
                       && forall j :: 0 <= j < i ==> !IdMatches(es[1..][j], param);
        assert es[i + 1] == r.value;
        assert forall j :: 0 <= j < i + 1 ==> !IdMatches(es[j], param) by {
          forall j | 0 <= j < i + 1
            ensures !IdMatches(es[j], param)
          {
            if j > 0 {
              assert es[j] == es[1..][j - 1];
            }
          }
        }
        r
      else
        r
  }

  /** The route parameter printed from an id finds the first exercise with that id. */
  lemma FindsById(es: seq<RoutineExercise>, k: int)
    requires 0 <= k < |es|
    requires forall j :: 0 <= j < k ==> es[j].ejercicioId != es[k].ejercicioId
    ensures FindEjercicio(es, IntToString(es[k].ejercicioId)) == Some(es[k])
  {
    var param := IntToString(es[k].ejercicioId);
    var r := FindEjercicio(es, param);
    assert IdMatches(es[k], param);
    var i :| && 0 <= i < |es| && es[i] == r.value && IdMatches(es[i], param)
             && forall j :: 0 <= j < i ==> !IdMatches(es[j], param);
    IntToStringInjective(es[i].ejercicioId, es[k].ejercicioId);
    if i < k {
      assert false;
    }
  }

  /** A parameter with a leading zero, such as "07", never names an exercise. */
  lemma LeadingZeroNeverFound(es: seq<RoutineExercise>, param: string)
    requires |param| > 1 && param[0] == '0'
    ensures FindEjercicio(es, param).None?
  {
    forall i | 0 <= i < |es|
      ensures !IdMatches(es[i], param)
    {
      var id := es[i].ejercicioId;
      if id >= 0 {
        assert IntToString(id) == NatToString(id);
      }
    }
  }

  // ---------------------------------------------------------------------------
  // The form

  datatype Config = Config(
    series: Field,
    repeticiones: Field,
    pesoSugerido: string,
    descansoSegundos: Field,
    notas: string)

  /** The form `fetchData` fills from the exercise it found. */
  function InitConfig(e: RoutineExercise): (c: Config)
    ensures !Falsy(c.series) <==> e.series != 0
    ensures !Falsy(c.repeticiones) <==> Truthy(e.repeticiones)
    ensures !Falsy(c.descansoSegundos) <==> Truthy(e.descansoSegundos)
    ensures c.pesoSugerido == OrEmpty(e.pesoSugerido) && c.notas == OrEmpty(e.notas)
  {
    Config(FieldOf(Some(e.series)), FieldOf(e.repeticiones), OrEmpty(e.pesoSugerido),
      FieldOf(e.descansoSegundos), OrEmpty(e.notas))
  }

  datatype LoadError = NotInRoutine

  /** `fetchData`: the form for the exercise the route names, or the "not found" error. */
  function Load(es: seq<RoutineExercise>, param: string): (r: Result<Config, LoadError>)
    ensures r.Err? <==> forall i :: 0 <= i < |es| ==> !IdMatches(es[i], param)
    ensures r.Ok? ==> r.value == InitConfig(FindEjercicio(es, param).value)
  {
    var found := FindEjercicio(es, param);
    if found.None? then Err(NotInRoutine) else Ok(InitConfig(found.value))
  }

  // ---------------------------------------------------------------------------
  // Saving

  datatype SaveError = SeriesTooLow | RepsTooLow | RestInvalid

  /** The body of `PUT /rutinas/:rutinaId/ejercicios/:ejercicioId`; `None` numbers are `NaN`. */
  datatype PutBody = PutBody(
    series: Option<int>,
    repeticiones: Option<int>,
    pesoSugerido: Option<string>,
    descansoSegundos: Option<int>,
    notas: string)

  predicate SeriesOk(c: Config) {
    Passes(c.series, 1)
  }

  predicate RepsOk(c: Config) {
    Passes(c.repeticiones, 1)
  }

  predicate RestOk(c: Config) {
    Passes(c.descansoSegundos, 0)
  }

  /** Every numeric field holds what its input can hold. */
  predicate FormValues(c: Config) {
    InputValue(c.series) && InputValue(c.repeticiones) && InputValue(c.descansoSegundos)
  }

  /**
   * `handleSave`: series, then repetitions, then rest are checked and only
   * the first failure is reported; a form that passes all three is sent
   * with its numbers parsed and an empty weight as `null`.
   */
  function HandleSave(c: Config): (r: Result<PutBody, SaveError>)
    ensures r == Err(SeriesTooLow) <==> !SeriesOk(c)
    ensures r == Err(RepsTooLow) <==> SeriesOk(c) && !RepsOk(c)
    ensures r == Err(RestInvalid) <==> SeriesOk(c) && RepsOk(c) && !RestOk(c)
    ensures r.Ok? <==> SeriesOk(c) && RepsOk(c) && RestOk(c)
    ensures r.Ok? ==>
      && r.value.series == ParseIntField(c.series)
      && r.value.repeticiones == ParseIntField(c.repeticiones)
      && r.value.descansoSegundos == ParseIntField(c.descansoSegundos)
      && r.value.pesoSugerido == OrNull(Some(c.pesoSugerido))
      && r.value.notas == c.notas
  {
    if !SeriesOk(c) then Err(SeriesTooLow)
    else if !RepsOk(c) then Err(RepsTooLow)
    else if !RestOk(c) then Err(RestInvalid)
    else Ok(PutBody(ParseIntField(c.series), ParseIntField(c.repeticiones), OrNull(Some(c.pesoSugerido)),
                    ParseIntField(c.descansoSegundos), notas := c.notas))
  }

  /**
   * What a sent update carries: the rest is never negative, and series and
   * repetitions typed without an exponent are sent as whole numbers of at
   * least 1.
   */
  lemma SentNumbersInRange(c: Config)
    requires FormValues(c)
    requires HandleSave(c).Ok?
    ensures var b := HandleSave(c).value;
      && (b.descansoSegundos.Some? ==> b.descansoSegundos.value >= 0)
      && (NoExponent(c.series) ==> b.series.Some? && b.series.value >= 1)
      && (NoExponent(c.repeticiones) ==> b.repeticiones.Some? && b.repeticiones.value >= 1)
  {
    PassedNonNegative(c.descansoSegundos);
    if NoExponent(c.series) { PassedAtLeast(c.series, 1); }
    if NoExponent(c.repeticiones) { PassedAtLeast(c.repeticiones, 1); }
  }

  /**
   * The checks compare `Number(f)` but the body sends `parseInt(f)`: series
   * typed as "0.9e1" are 9 to the check and are sent as 0.
   */
  lemma ExponentSeriesSentAsZero(c: Config)
    requires c.series == Typed("0.9e1")
    requires RepsOk(c) && RestOk(c)
    ensures HandleSave(c).Ok? && HandleSave(c).value.series == Some(0)
  {
    ExponentPassesAsZero();
  }

  /** `parseInt` found a number of at least `k`. */
  predicate AtLeast(n: Option<int>, k: int) {
    n.Some? && n.value >= k
  }

  /**
   * `handleSave` with the series and repetitions also checked on the
   * numbers it sends, so that what passes is what is stored.
   */
  function HandleSaveCorrected(c: Config): (r: Result<PutBody, SaveError>)
    ensures r.Ok? ==> AtLeast(r.value.series, 1) && AtLeast(r.value.repeticiones, 1)
    ensures r.Ok? ==> HandleSave(c) == r
    ensures r.Err? && HandleSave(c).Ok? ==>
      !AtLeast(HandleSave(c).value.series, 1) || !AtLeast(HandleSave(c).value.repeticiones, 1)
  {
    if !SeriesOk(c) || !AtLeast(ParseIntField(c.series), 1) then Err(SeriesTooLow)
    else if !RepsOk(c) || !AtLeast(ParseIntField(c.repeticiones), 1) then Err(RepsTooLow)
    else if !RestOk(c) then Err(RestInvalid)
    else HandleSave(c)
  }

  /** The corrected save sends series and repetitions of at least 1 and a rest that is never negative. */
  lemma CorrectedSendsNumbersInRange(c: Config)
    requires FormValues(c)
    requires HandleSaveCorrected(c).Ok?
    ensures var b := HandleSaveCorrected(c).value;
      && b.series.Some? && b.series.value >= 1
      && b.repeticiones.Some? && b.repeticiones.value >= 1
      && (b.descansoSegundos.Some? ==> b.descansoSegundos.value >= 0)
  {
    PassedNonNegative(c.descansoSegundos);
  }

  /** Without exponents the correction changes nothing. */
  lemma CorrectedAgreesWithoutExponent(c: Config)
    requires FormValues(c) && NoExponent(c.series) && NoExponent(c.repeticiones)
    ensures HandleSaveCorrected(c) == HandleSave(c)
  {
    if SeriesOk(c) {
      PassedAtLeast(c.series, 1);
      if RepsOk(c) {
        PassedAtLeast(c.repeticiones, 1);
      }
    }
  }

  /**
   * A stored rest of 0 loads as the empty field, so saving the form
   * unchanged is refused with the rest message, though the message asks for
   * "0 or greater".
   */
  lemma StoredZeroRestBlocksSave(e: RoutineExercise)
    requires e.series >= 1 && e.repeticiones.Some? && e.repeticiones.value >= 1
    requires !Truthy(e.descansoSegundos)
    ensures HandleSave(InitConfig(e)) == Err(RestInvalid)
  {
  }

  /** A rest of 0 typed into the input is text, not the number 0, and passes. */
  lemma TypedZeroRestAccepted(c: Config)
    requires SeriesOk(c) && RepsOk(c)
    requires c.descansoSegundos == Typed("0")
    ensures HandleSave(c).Ok? && HandleSave(c).value.descansoSegundos == Some(0)
  {
    assert IsIntLiteral("0");
    assert ParseInt("0") == 0;
  }
}

=== FILE: edit_routine.dfy ===
/**
 * The page that edits a routine (src/pages/EditarRutina.jsx): the form
 * state, `handleChange`, and the trimming and check `handleSubmit` applies
 * before it sends the update. A column the API returns as `null` is `None`.
 */
module EditRoutinePage {
  import opened Wrappers
  import opened Text
  import opened Domain

  datatype RoutineForm = RoutineForm(
    nombre: Option<string>,
    descripcion: Option<string>,
    dia: Option<string>,
    grupoMuscular: Option<string>,
    notas: Option<string>)

  /** The form before the routine has loaded. */
  const EmptyForm := RoutineForm(Some(""), Some(""), Some(""), Some(""), Some(""))

  /** `setRutina(response.data)`: the form takes the routine's columns as they come. */
  function FromRutina(r: Rutina): (f: RoutineForm)
    ensures f.nombre == Some(r.nombre) && f.dia == Some(r.dia) && f.grupoMuscular == Some(r.grupoMuscular)
    ensures f.descripcion == r.descripcion && f.notas == r.notas
  {
    RoutineForm(Some(r.nombre), r.descripcion, Some(r.dia), Some(r.grupoMuscular), r.notas)
  }

  datatype FormField = Nombre | Descripcion | Dia | GrupoMuscular | Notas

  function Get(f: RoutineForm, field: FormField): Option<string> {
    match field
    case Nombre => f.nombre
    case Descripcion => f.descripcion
    case Dia => f.dia
    case GrupoMuscular => f.grupoMuscular
    case Notas => f.notas
  }

  /** `handleChange(field, value)`: that field takes the value and no other field changes. */
  function HandleChange(f: RoutineForm, field: FormField, value: string): (r: RoutineForm)
    ensures Get(r, field) == Some(value)
    ensures forall other: FormField :: other != field ==> Get(r, other) == Get(f, other)
  {
    match field
    case Nombre => f.(nombre := Some(value))
    case Descripcion => f.(descripcion := Some(value))
    case Dia => f.(dia := Some(value))
    case GrupoMuscular => f.(grupoMuscular := Some(value))
    case Notas => f.(notas := Some(value))
  }

  /** A form is determined by its five fields. */
  lemma FormExtensional(f: RoutineForm, g: RoutineForm)
    requires forall field: FormField :: Get(f, field) == Get(g, field)
    ensures f == g
  {
    assert Get(f, Nombre) == Get(g, Nombre) && Get(f, Descripcion) == Get(g, Descripcion);
    assert Get(f, Dia) == Get(g, Dia) && Get(f, GrupoMuscular) == Get(g, GrupoMuscular);
    assert Get(f, Notas) == Get(g, Notas);
  }

  /** The later of two changes to one field wins. */
  lemma ChangeOverwrites(f: RoutineForm, field: FormField, a: string, b: string)
    ensures HandleChange(HandleChange(f, field, a), field, b) == HandleChange(f, field, b)
  {
    FormExtensional(HandleChange(HandleChange(f, field, a), field, b), HandleChange(f, field, b));
  }

  /** Changes to different fields commute. */
  lemma ChangesCommute(f: RoutineForm, x: FormField, a: string, y: FormField, b: string)
    requires x != y
    ensures HandleChange(HandleChange(f, x, a), y, b) == HandleChange(HandleChange(f, y, b), x, a)
  {
    FormExtensional(HandleChange(HandleChange(f, x, a), y, b), HandleChange(HandleChange(f, y, b), x, a));
  }

  /** The body of `PUT /rutinas/:id`. */
  datatype PutBody = PutBody(
    nombre: string,
    descripcion: string,
    dia: Option<string>,
    grupoMuscular: Option<string>,
    notas: string)

  /**
   * What a submit does: refuse a blank name; throw before the request
   * (`Threw` escapes the handler, `Caught` lands in its `catch` and shows the
   * generic error); or send the body.
   */
  datatype SubmitOutcome = NameRequired | Threw | Caught | Sent(body: PutBody)

  predicate Blank(s: string) {
    Trim(s) == ""
  }

  /** `handleSubmit` as written: `.trim()` is called on the description and notes as they are. */
  function HandleSubmit(f: RoutineForm): (r: SubmitOutcome)
    ensures f.nombre.None? <==> r == Threw
    ensures r == NameRequired <==> f.nombre.Some? && Blank(f.nombre.value)
    ensures r == Caught <==> f.nombre.Some? && !Blank(f.nombre.value) && (f.descripcion.None? || f.notas.None?)
    ensures r.Sent? ==>
      && r.body == PutBody(Trim(f.nombre.value), Trim(f.descripcion.value), f.dia, f.grupoMuscular, Trim(f.notas.value))
      && r.body.nombre != "" && !IsSpace(r.body.nombre[0]) && !IsSpace(r.body.nombre[|r.body.nombre| - 1])
  {
    if f.nombre.None? then Threw
    else if Blank(f.nombre.value) then NameRequired
    else if f.descripcion.None? || f.notas.None? then Caught
    else Sent(PutBody(Trim(f.nombre.value), Trim(f.descripcion.value), f.dia, f.grupoMuscular, Trim(f.notas.value)))
  }

  /** `(x || '').trim()`: the description and notes read as empty when missing. */
  function HandleSubmitCorrected(f: RoutineForm): (r: SubmitOutcome)
    ensures f.nombre.None? <==> r == Threw
    ensures r == NameRequired <==> f.nombre.Some? && Blank(f.nombre.value)
    ensures r != Caught
    ensures r.Sent? ==>
      && r.body == PutBody(Trim(f.nombre.value), Trim(OrEmpty(f.descripcion)), f.dia, f.grupoMuscular, Trim(OrEmpty(f.notas)))
      && r.body.nombre != ""
  {
    if f.nombre.None? then Threw
    else if Blank(f.nombre.value) then NameRequired
    else Sent(PutBody(Trim(f.nombre.value), Trim(OrEmpty(f.descripcion)), f.dia, f.grupoMuscular, Trim(OrEmpty(f.notas))))
  }

  /** Every loaded routine with a non-blank name can be saved unchanged by the corrected handler. */
  lemma CorrectedSavesEveryNamedRoutine(r: Rutina)
    requires !Blank(r.nombre)
    ensures HandleSubmitCorrected(FromRutina(r)).Sent?
  {
  }

  /** Where the handler as written sends, the corrected one sends the same body. */
  lemma CorrectedAgreesWhenSent(f: RoutineForm)
    requires HandleSubmit(f).Sent?
    ensures HandleSubmitCorrected(f) == HandleSubmit(f)
  {
  }

  /** Submitting an already trimmed form sends it unchanged. */
  lemma TrimmedFormSentAsIs(f: RoutineForm)
    requires HandleSubmit(f).Sent?
    requires f.nombre.value == Trim(f.nombre.value)
    requires f.descripcion.value == Trim(f.descripcion.value) && f.notas.value == Trim(f.notas.value)
    ensures HandleSubmit(f).body == PutBody(f.nombre.value, f.descripcion.value, f.dia, f.grupoMuscular, f.notas.value)
  {
  }

  /**
   * A routine created through `POST /rutinas` gets no description, so its
   * form holds `null` there, and saving it unchanged never sends.
   */
  lemma MissingDescriptionBlocksSave()
    ensures var r := Rutina(1, "Pierna", None, "Lunes", "Piernas", None);
      && HandleSubmit(FromRutina(r)) == Caught
      && HandleSubmitCorrected(FromRutina(r)) == Sent(PutBody("Pierna", "", Some("Lunes"), Some("Piernas"), ""))
  {
    assert Trim("Pierna") == "Pierna" by {
      assert LeadingSpaces("Pierna") == 0;
      assert TrailingStart("Pierna") == 6;
    }
    assert Trim("") == "";
  }
}

=== FILE: ejercicios_controller.dfy ===
/**
 * The exercise-catalogue endpoints (src/controllers/ejerciciosController.js):
 * create, update and delete with their validation and in-use guard, and the
 * per-group listing.
 */
module EjerciciosController {
  import opened Wrappers
  import opened Domain
  import opened Tables
  import Seqs
  import Sorting

  datatype Reply = Reply(status: int, db: Db)

  datatype EjercicioBody = EjercicioBody(nombre: Option<string>, grupoMuscular: Option<string>, videoUrl: Option<string>)

  predicate BodyValid(b: EjercicioBody) {
    Present(b.nombre) && Present(b.grupoMuscular)
  }

  datatype Created = Created(status: int, ejercicioId: Option<int>, db: Db)

  /** `createEjercicio`; `video_url || null`. */
  function CreateEjercicio(db: Db, body: EjercicioBody): (r: Created)
    ensures r.status == 400 <==> !BodyValid(body)
    ensures r.status != 400 ==> r.status == 201
    ensures r.status == 400 ==> r.db == db && r.ejercicioId.None?
    ensures r.status == 201 ==>
      && r.ejercicioId.Some? && !EjercicioExists(db, r.ejercicioId.value)
      && r.db == db.(ejercicios := db.ejercicios +
           [EjercicioRow(r.ejercicioId.value, body.nombre.value, body.grupoMuscular.value, OrNull(body.videoUrl))])
  {
    if !BodyValid(body) then Created(400, None, db)
    else
      var id := NextId(Ids(db.ejercicios, (r: EjercicioRow) => r.id));
      Created(201, Some(id), db.(ejercicios := db.ejercicios + [EjercicioRow(id, body.nombre.value, body.grupoMuscular.value, OrNull(body.videoUrl))]))
  }

  /** `updateEjercicio`: same validation; 404 when no row has the id. */
  function UpdateEjercicio(db: Db, ejercicioId: int, body: EjercicioBody): (r: Reply)
    ensures r.status == 400 <==> !BodyValid(body)
    ensures r.status == 404 <==> BodyValid(body) && !EjercicioExists(db, ejercicioId)
    ensures r.status == 200 || r.status == 400 || r.status == 404
    ensures r.status != 200 ==> r.db == db
    ensures r.status == 200 ==>
      && r.db.(ejercicios := db.ejercicios) == db
      && |r.db.ejercicios| == |db.ejercicios|
      && forall i :: 0 <= i < |db.ejercicios| ==>
           r.db.ejercicios[i] ==
             if db.ejercicios[i].id == ejercicioId
             then EjercicioRow(ejercicioId, body.nombre.value, body.grupoMuscular.value, OrNull(body.videoUrl))
             else db.ejercicios[i]
  {
    if !BodyValid(body) then Reply(400, db)
    else if !EjercicioExists(db, ejercicioId) then Reply(404, db)
    else
      var t := db.ejercicios;
      var row := EjercicioRow(ejercicioId, body.nombre.value, body.grupoMuscular.value, OrNull(body.videoUrl));
      Reply(200, db.(ejercicios := seq(|t|, i requires 0 <= i < |t| => if t[i].id == ejercicioId then row else t[i])))
  }

  /** A falsy video URL is stored as `NULL`, on create and on update alike. */
  lemma EmptyVideoStoredAsNull(db: Db, ejercicioId: int, nombre: string, grupo: string)
    requires nombre != "" && grupo != ""
    ensures var r := CreateEjercicio(db, EjercicioBody(Some(nombre), Some(grupo), Some("")));
      r.db.ejercicios[|r.db.ejercicios| - 1].videoUrl.None?
    ensures var r := UpdateEjercicio(db, ejercicioId, EjercicioBody(Some(nombre), Some(grupo), Some("")));
      forall i :: 0 <= i < |r.db.ejercicios| && r.db.ejercicios[i].id == ejercicioId ==> r.db.ejercicios[i].videoUrl.None?
  {
  }

  /** Updating with what was just created leaves the catalogue as creation left it. */
  lemma UpdateWithSameBodyChangesNothing(db: Db, body: EjercicioBody)
    requires BodyValid(body)
    requires forall i, j :: 0 <= i < j < |db.ejercicios| ==> db.ejercicios[i].id != db.ejercicios[j].id
    ensures var c := CreateEjercicio(db, body);
      UpdateEjercicio(c.db, c.ejercicioId.value, body) == Reply(200, c.db)
  {
    var c := CreateEjercicio(db, body);
    var id := c.ejercicioId.value;
    assert c.db.ejercicios[|db.ejercicios|].id == id;
    var u := UpdateEjercicio(c.db, id, body);
    assert u.db.ejercicios == c.db.ejercicios;
  }

  function UsesEjercicio(ejercicioId: int): RutinaEjercicioRow -> bool {
    (row: RutinaEjercicioRow) => row.ejercicioId == ejercicioId
  }

  function OtherEjercicio(ejercicioId: int): EjercicioRow -> bool {
    (row: EjercicioRow) => row.id != ejercicioId
  }

  /** `deleteEjercicio`: refused while any routine uses the exercise. */
  function DeleteEjercicio(db: Db, ejercicioId: int): (r: Reply)
    ensures r.status == 400 <==> Seqs.Count(db.rutinaEjercicios, UsesEjercicio(ejercicioId)) > 0
    ensures r.status == 404 <==> Seqs.Count(db.rutinaEjercicios, UsesEjercicio(ejercicioId)) == 0 && !EjercicioExists(db, ejercicioId)
    ensures r.status == 200 || r.status == 400 || r.status == 404
    ensures r.status != 200 ==> r.db == db
    ensures r.status == 200 ==>
      && r.db.(ejercicios := db.ejercicios) == db
      && !EjercicioExists(r.db, ejercicioId)
      && Seqs.Subseq(r.db.ejercicios, db.ejercicios)
      && forall i :: 0 <= i < |db.ejercicios| && db.ejercicios[i].id != ejercicioId ==> db.ejercicios[i] in r.db.ejercicios
  {
    if Seqs.Count(db.rutinaEjercicios, UsesEjercicio(ejercicioId)) > 0 then Reply(400, db)
    else if !EjercicioExists(db, ejercicioId) then Reply(404, db)
    else Reply(200, db.(ejercicios := Seqs.Filter(db.ejercicios, OtherEjercicio(ejercicioId))))
  }

  /** An exercise a routine uses survives any delete request for it. */
  lemma InUseNeverDeleted(db: Db, ejercicioId: int, i: int)
    requires 0 <= i < |db.rutinaEjercicios| && db.rutinaEjercicios[i].ejercicioId == ejercicioId
    ensures DeleteEjercicio(db, ejercicioId) == Reply(400, db)
  {
    assert UsesEjercicio(ejercicioId)(db.rutinaEjercicios[i]);
  }

  /** `ORDER BY nombre`, with code-point order standing in for the collation. */
  function ByNombre(): (EjercicioRow, EjercicioRow) -> bool {
    (a: EjercicioRow, b: EjercicioRow) => Sorting.LexLeq(a.nombre, b.nombre)
  }

  lemma ByNombreTotal()
    ensures Sorting.TotalPreorder(ByNombre())
  {
    forall a: EjercicioRow, b: EjercicioRow
      ensures ByNombre()(a, b) || ByNombre()(b, a)
    {
      Sorting.LexLeqTotal(a.nombre, b.nombre);
    }
    forall a: EjercicioRow, b: EjercicioRow, c: EjercicioRow | ByNombre()(a, b) && ByNombre()(b, c)
      ensures ByNombre()(a, c)
    {
      Sorting.LexLeqTransitive(a.nombre, b.nombre, c.nombre);
    }
  }

  function InGrupo(grupo: string): EjercicioRow -> bool {
    (row: EjercicioRow) => row.grupoMuscular == grupo
  }

  /** `getEjerciciosByGrupo`: the group's exercises, by name. */
  function GetEjerciciosByGrupo(db: Db, grupo: string): (r: seq<EjercicioRow>)
    ensures forall i :: 0 <= i < |r| ==> r[i].grupoMuscular == grupo
    ensures Sorting.SortedBy(r, ByNombre())
    ensures multiset(r) == multiset(Seqs.Filter(db.ejercicios, InGrupo(grupo)))
    ensures forall i :: 0 <= i < |db.ejercicios| && db.ejercicios[i].grupoMuscular == grupo ==> db.ejercicios[i] in r
  {
    ByNombreTotal();
    var f := Seqs.Filter(db.ejercicios, InGrupo(grupo));
    var r := Sorting.SortBy(f, ByNombre());
    Seqs.SameMembers(r, f);
    r
  }
}

=== FILE: entrenamientos_controller.dfy ===
/**
 * The training-session endpoints (backend/src/controllers/entrenamientosController.js):
 * creating a session for an assigned routine, finishing it, deleting it, and
 * recording one series.
 */
module EntrenamientosController {
  import opened Wrappers
  import opened Text
  import opened Domain
  import opened Tables
  import Seqs

  datatype Reply = Reply(status: int, db: Db)

  /** A scalar JSON value as the request body carries it; an absent field is `JNull`. */
  datatype Json = JNull | JNum(n: int) | JStr(s: string)

  predicate JsonTruthy(v: Json) {
    match v
    case JNull => false
    case JNum(n) => n != 0
    case JStr(s) => s != ""
  }

  /**
   * `parseInt(v)`, and the number the database compares a bound parameter
   * with; `None` is `NaN`. Text is read as an integer numeral only.
   */
  function JsonInt(v: Json): (r: Option<int>)
    ensures v.JNum? ==> r == Some(v.n)
    ensures v.JNull? ==> r.None?
    ensures v.JStr? ==> r == ParseNumber(v.s)
  {
    match v
    case JNull => None
    case JNum(n) => Some(n)
    case JStr(s) => ParseNumber(s)
  }

  // ---------------------------------------------------------------------------
  // POST /entrenamientos

  /** The creation request: `rutina_id` and `fecha_inicio`; any other field is ignored. */
  datatype CreateBody = CreateBody(rutinaId: Json, fechaInicio: Option<string>)

  /** The session the handler answers with. */
  datatype Record = Record(
    id: int,
    usuarioId: int,
    rutinaId: Option<int>,
    fecha: string,
    fechaInicio: string,
    fechaFin: Option<string>,
    notaGeneral: Option<string>)

  datatype Created = Created(status: int, record: Option<Record>, db: Db)

  /** The date column: the first ten characters of `fecha_inicio`, its `YYYY-MM-DD` part. */
  function DatePart(fechaInicio: string): (d: string)
    ensures |d| <= 10 && d <= fechaInicio
    ensures |fechaInicio| >= 10 ==> |d| == 10
  {
    Take(fechaInicio, 10)
  }

  predicate CanCreate(db: Db, userId: int, body: CreateBody) {
    JsonInt(body.rutinaId).Some? && Owns(db, JsonInt(body.rutinaId).value, userId)
  }

  function CreateEntrenamiento(db: Db, userId: int, body: CreateBody): (r: Created)
    ensures r.status == 400 <==> !JsonTruthy(body.rutinaId) || !Present(body.fechaInicio)
    ensures r.status == 404 <==> JsonTruthy(body.rutinaId) && Present(body.fechaInicio) && !CanCreate(db, userId, body)
    ensures r.status == 201 || r.status == 400 || r.status == 404
    ensures r.status != 201 ==> r.db == db && r.record.None?
    ensures r.status == 201 ==> r.record.Some?
    ensures r.status == 201 ==>
      var fecha := DatePart(body.fechaInicio.value);
      var rec := r.record.value;
      && rec == Record(rec.id, userId, JsonInt(body.rutinaId), fecha, fecha, None, None)
      && (forall i :: 0 <= i < |db.entrenamientos| ==> db.entrenamientos[i].id != rec.id)
      && r.db == db.(entrenamientos := db.entrenamientos +
           [EntrenamientoRow(rec.id, userId, JsonInt(body.rutinaId).value, fecha, fecha, None, None)])
  {
    if !JsonTruthy(body.rutinaId) || !Present(body.fechaInicio) then Created(400, None, db)
    else if !CanCreate(db, userId, body) then Created(404, None, db)
    else
      var id := NextId(Ids(db.entrenamientos, (r: EntrenamientoRow) => r.id));
      var fecha := DatePart(body.fechaInicio.value);
      var rutinaId := JsonInt(body.rutinaId).value;
      Created(201, Some(Record(id, userId, Some(rutinaId), fecha, fecha, None, None)),
        db.(entrenamientos := db.entrenamientos + [EntrenamientoRow(id, userId, rutinaId, fecha, fecha, None, None)]))
  }

  /** The session page's request: the routine id as a number and a full ISO timestamp. */
  lemma SessionPageCreates(db: Db, userId: int, rutinaId: int, isoNow: string)
    requires rutinaId != 0 && Owns(db, rutinaId, userId) && |isoNow| >= 10
    ensures var r := CreateEntrenamiento(db, userId, CreateBody(JNum(rutinaId), Some(isoNow)));
      && r.status == 201
      && r.record.value.fecha == isoNow[..10]
      && OwnsEntrenamiento(r.db, r.record.value.id, userId)
  {
    var r := CreateEntrenamiento(db, userId, CreateBody(JNum(rutinaId), Some(isoNow)));
    assert r.db.entrenamientos[|db.entrenamientos|].id == r.record.value.id;
  }

  // ---------------------------------------------------------------------------
  // PUT /entrenamientos/:entrenamientoId

  datatype UpdateBody = UpdateBody(fechaFin: Option<string>, notasGenerales: Option<string>)

  /** `updateEntrenamiento`: sets the end time and the general note (`notas_generales || null`). */
  function UpdateEntrenamiento(db: Db, entrenamientoId: int, userId: int, body: UpdateBody): (r: Reply)
    ensures r.status == 404 <==> !OwnsEntrenamiento(db, entrenamientoId, userId)
    ensures r.status != 404 ==> r.status == 200
    ensures r.status == 404 ==> r.db == db
    ensures r.status == 200 ==>
      && r.db.(entrenamientos := db.entrenamientos) == db
      && |r.db.entrenamientos| == |db.entrenamientos|
      && forall i :: 0 <= i < |db.entrenamientos| ==>
           r.db.entrenamientos[i] ==
             if db.entrenamientos[i].id == entrenamientoId
             then db.entrenamientos[i].(fechaFin := body.fechaFin, notaGeneral := OrNull(body.notasGenerales))
             else db.entrenamientos[i]
  {
    if !OwnsEntrenamiento(db, entrenamientoId, userId) then Reply(404, db)
    else
      var t := db.entrenamientos;
      Reply(200, db.(entrenamientos := seq(|t|, i requires 0 <= i < |t| =>
        if t[i].id == entrenamientoId then t[i].(fechaFin := body.fechaFin, notaGeneral := OrNull(body.notasGenerales)) else t[i])))
  }

  /** An empty general note is stored as `NULL`, never as the empty string. */
  lemma EmptyNoteStoredAsNull(db: Db, entrenamientoId: int, userId: int, fechaFin: Option<string>)
    requires OwnsEntrenamiento(db, entrenamientoId, userId)
    ensures var r := UpdateEntrenamiento(db, entrenamientoId, userId, UpdateBody(fechaFin, Some("")));
      forall i :: 0 <= i < |r.db.entrenamientos| && r.db.entrenamientos[i].id == entrenamientoId ==>
        r.db.entrenamientos[i].notaGeneral.None? && r.db.entrenamientos[i].fechaFin == fechaFin
  {
  }

  // ---------------------------------------------------------------------------
  // DELETE /entrenamientos/:entrenamientoId

  function OtherEntrenamiento(entrenamientoId: int): EntrenamientoRow -> bool {
    (row: EntrenamientoRow) => row.id != entrenamientoId
  }

  function DeleteEntrenamiento(db: Db, entrenamientoId: int, userId: int): (r: Reply)
    ensures r.status == 403 <==> !OwnsEntrenamiento(db, entrenamientoId, userId)
    ensures r.status != 403 ==> r.status == 200
    ensures r.status == 403 ==> r.db == db
    ensures r.status == 200 ==>
      && r.db.(entrenamientos := db.entrenamientos) == db
      && (forall i :: 0 <= i < |r.db.entrenamientos| ==> r.db.entrenamientos[i].id != entrenamientoId)
      && (forall i :: 0 <= i < |db.entrenamientos| && db.entrenamientos[i].id != entrenamientoId ==>
            db.entrenamientos[i] in r.db.entrenamientos)
      && |r.db.entrenamientos| < |db.entrenamientos|
  {
    if !OwnsEntrenamiento(db, entrenamientoId, userId) then Reply(403, db)
    else
      var kept := Seqs.Filter(db.entrenamientos, OtherEntrenamiento(entrenamientoId));
      var i :| 0 <= i < |db.entrenamientos| && db.entrenamientos[i].id == entrenamientoId && db.entrenamientos[i].usuarioId == userId;
      Seqs.FilterCount(db.entrenamientos, OtherEntrenamiento(entrenamientoId));
      Seqs.CountBelowLength(db.entrenamientos, OtherEntrenamiento(entrenamientoId), i);
      Reply(200, db.(entrenamientos := kept))
  }

  /** Deleting is final: the session cannot be deleted, finished or extended again. */
  lemma DeletedSessionGone(db: Db, entrenamientoId: int, userId: int, body: UpdateBody)
    requires DeleteEntrenamiento(db, entrenamientoId, userId).status == 200
    ensures var after := DeleteEntrenamiento(db, entrenamientoId, userId).db;
      && DeleteEntrenamiento(after, entrenamientoId, userId).status == 403
      && UpdateEntrenamiento(after, entrenamientoId, userId, body).status == 404
  {
  }

  // ---------------------------------------------------------------------------
  // POST /entrenamiento-detalles

  datatype DetalleBody = DetalleBody(
    entrenamientoId: int,
    ejercicioId: int,
    serieNumero: int,
    repeticiones: Option<int>,
    peso: Option<string>,
    notas: Option<string>)

  /** The answer: the request's fields with the new id. */
  datatype Echo = Echo(id: int, body: DetalleBody)

  datatype Recorded = Recorded(status: int, echo: Option<Echo>, db: Db)

  function RowOf(e: Echo): DetalleRow {
    DetalleRow(e.id, e.body.entrenamientoId, e.body.ejercicioId, e.body.serieNumero, e.body.repeticiones, e.body.peso, e.body.notas)
  }

  function CreateEntrenamientoDetalle(db: Db, userId: int, body: DetalleBody): (r: Recorded)
    ensures r.status == 404 <==> !OwnsEntrenamiento(db, body.entrenamientoId, userId)
    ensures r.status != 404 ==> r.status == 201
    ensures r.status == 404 ==> r.db == db && r.echo.None?
    ensures r.status == 201 ==>
      && r.echo.Some? && r.echo.value.body == body
      && (forall i :: 0 <= i < |db.detalles| ==> db.detalles[i].id != r.echo.value.id)
      && r.db == db.(detalles := db.detalles + [RowOf(r.echo.value)])
  {
    if !OwnsEntrenamiento(db, body.entrenamientoId, userId) then Recorded(404, None, db)
    else
      var e := Echo(NextId(Ids(db.detalles, (r: DetalleRow) => r.id)), body);
      Recorded(201, Some(e), db.(detalles := db.detalles + [RowOf(e)]))
  }

  /** What the handler answers is what it stored: the echo reads back as the new row. */
  lemma EchoMatchesStoredRow(db: Db, userId: int, body: DetalleBody)
    requires OwnsEntrenamiento(db, body.entrenamientoId, userId)
    ensures var r := CreateEntrenamientoDetalle(db, userId, body);
      && r.db.detalles[|r.db.detalles| - 1] == RowOf(r.echo.value)
      && r.db.detalles[|r.db.detalles| - 1].repsRealizadas == body.repeticiones
      && r.db.detalles[|r.db.detalles| - 1].pesoUsado == body.peso
  {
  }
}

=== FILE: entrenamientos_page.dfy ===
/**
 * The training-log page (src/pages/Entrenamientos.jsx): the "new session"
 * form, filling it from a routine, editing one field of one exercise, and
 * saving it through the session controller.
 */
module EntrenamientosPage {
  import opened Wrappers
  import opened Text
  import opened Domain
  import Tables
  import EntrenamientosController

  /** One exercise row of the form; the three text fields are what the user types. */
  datatype Entry = Entry(ejercicioId: int, nombre: string, series: int, repsRealizadas: string, pesoUsado: string, nota: string)

  /** The fields the form's inputs edit. */
  datatype Field = RepsRealizadas | PesoUsado | Nota

  /** `newEntrenamiento`: `rutina_id` is the value of the routine select, so text. */
  datatype Form = Form(rutinaId: string, fecha: string, notaGeneral: string, ejercicios: seq<Entry>)

  datatype Page = Page(showModal: bool, form: Form)

  /** The form as the page starts it and as "new session" resets it; `today` is the date part of the clock. */
  function BlankForm(today: string): (f: Form)
    ensures f.rutinaId == "" && f.fecha == today && f.notaGeneral == "" && f.ejercicios == []
  {
    Form("", today, "", [])
  }

  /** The save button is disabled while no routine is chosen. */
  predicate CanSave(f: Form) {
    f.rutinaId != ""
  }

  /** `handleCreateEntrenamiento`: a blank form in an open dialog, which cannot be saved yet. */
  function HandleCreate(p: Page, today: string): (r: Page)
    ensures r.showModal && r.form == BlankForm(today) && !CanSave(r.form)
  {
    Page(true, BlankForm(today))
  }

  // ---------------------------------------------------------------------------
  // Choosing a routine

  function EntryOf(e: RoutineExercise): Entry {
    Entry(e.ejercicioId, e.nombre, e.series, "", "", "")
  }

  /** The mapping in `handleRutinaChange`: one blank entry per exercise, in order. */
  function EntriesOf(es: seq<RoutineExercise>): (r: seq<Entry>)
    ensures |r| == |es|
    ensures forall i :: 0 <= i < |es| ==>
      && r[i].ejercicioId == es[i].ejercicioId && r[i].nombre == es[i].nombre && r[i].series == es[i].series
      && r[i].repsRealizadas == "" && r[i].pesoUsado == "" && r[i].nota == ""
  {
    seq(|es|, i requires 0 <= i < |es| => EntryOf(es[i]))
  }

  /**
   * `handleRutinaChange`: the choice is stored at once; the entries are
   * replaced only when a routine was chosen and its exercises arrived
   * (`fetched`, `None` when the request failed).
   */
  function HandleRutinaChange(f: Form, rutinaId: string, fetched: Option<seq<RoutineExercise>>): (r: Form)
    ensures r.rutinaId == rutinaId && r.fecha == f.fecha && r.notaGeneral == f.notaGeneral
    ensures rutinaId != "" && fetched.Some? ==> r.ejercicios == EntriesOf(fetched.value)
    ensures rutinaId == "" || fetched.None? ==> r.ejercicios == f.ejercicios
  {
    var chosen := f.(rutinaId := rutinaId);
    if rutinaId != "" && fetched.Some? then chosen.(ejercicios := EntriesOf(fetched.value)) else chosen
  }

  // ---------------------------------------------------------------------------
  // Editing one field

  function Get(e: Entry, field: Field): string {
    match field
    case RepsRealizadas => e.repsRealizadas
    case PesoUsado => e.pesoUsado
    case Nota => e.nota
  }

  /** `{ ...ejercicio, [field]: value }`. */
  function SetField(e: Entry, field: Field, value: string): (r: Entry)
    ensures Get(r, field) == value
    ensures forall g :: g != field ==> Get(r, g) == Get(e, g)
    ensures r.ejercicioId == e.ejercicioId && r.nombre == e.nombre && r.series == e.series
  {
    match field
    case RepsRealizadas => e.(repsRealizadas := value)
    case PesoUsado => e.(pesoUsado := value)
    case Nota => e.(nota := value)
  }

  /** `handleEjercicioChange(index, field, value)`: a `map` that rewrites only position `index`. */
  function HandleEjercicioChange(es: seq<Entry>, index: int, field: Field, value: string): (r: seq<Entry>)
    ensures |r| == |es|
    ensures forall i :: 0 <= i < |es| && i != index ==> r[i] == es[i]
    ensures 0 <= index < |es| ==> r[index] == SetField(es[index], field, value)
    ensures !(0 <= index < |es|) ==> r == es
  {
    seq(|es|, i requires 0 <= i < |es| => if i == index then SetField(es[i], field, value) else es[i])
  }

  /** After an edit, the edited field reads back the value and every other field of every entry is as before. */
  lemma EditReadsBack(es: seq<Entry>, index: int, field: Field, value: string)
    requires 0 <= index < |es|
    ensures var r := HandleEjercicioChange(es, index, field, value);
      && Get(r[index], field) == value
      && (forall g :: g != field ==> Get(r[index], g) == Get(es[index], g))
      && (forall i, g :: 0 <= i < |es| && i != index ==> Get(r[i], g) == Get(es[i], g))
  {
  }

  /** The entries still stand for the routine's exercises: same ids, names and series, in the same order. */
  predicate Follows(entries: seq<Entry>, es: seq<RoutineExercise>) {
    && |entries| == |es|
    && forall i :: 0 <= i < |es| ==>
         entries[i].ejercicioId == es[i].ejercicioId && entries[i].nombre == es[i].nombre
         && entries[i].series == es[i].series
  }

  /** One `onChange` of an exercise input. */
  datatype Edit = Edit(index: int, field: Field, value: string)

  function ApplyEdits(entries: seq<Entry>, edits: seq<Edit>): seq<Entry>
    decreases |edits|
  {
    if |edits| == 0 then entries
    else ApplyEdits(HandleEjercicioChange(entries, edits[0].index, edits[0].field, edits[0].value), edits[1..])
  }

  /**
   * Whatever is typed into the exercise inputs after a routine is chosen,
   * the form still lists that routine's exercises, in the listing's order.
   */
  lemma {:induction false} EditsKeepRoutine(entries: seq<Entry>, es: seq<RoutineExercise>, edits: seq<Edit>)
    requires Follows(entries, es)
    ensures Follows(ApplyEdits(entries, edits), es)
    decreases |edits|
  {
    if |edits| > 0 {
      var next := HandleEjercicioChange(entries, edits[0].index, edits[0].field, edits[0].value);
      assert Follows(next, es);
      EditsKeepRoutine(next, es, edits[1..]);
    }
  }

  /** Choosing a routine whose exercises arrived makes the form follow them, and editing keeps it so. */
  lemma ChosenRoutineFollowed(f: Form, rutinaId: string, es: seq<RoutineExercise>, edits: seq<Edit>)
    requires rutinaId != ""
    ensures Follows(ApplyEdits(HandleRutinaChange(f, rutinaId, Some(es)).ejercicios, edits), es)
  {
    EditsKeepRoutine(EntriesOf(es), es, edits);
  }

  /** Two edits of different fields of the same entry commute. */
  lemma EditsCommute(es: seq<Entry>, index: int, f: Field, v: string, g: Field, w: string)
    requires f != g
    ensures HandleEjercicioChange(HandleEjercicioChange(es, index, f, v), index, g, w)
         == HandleEjercicioChange(HandleEjercicioChange(es, index, g, w), index, f, v)
  {
  }

  // ---------------------------------------------------------------------------
  // Saving

  /**
   * What `handleSaveEntrenamiento` posts, as the controller reads it: the
   * form object itself, which names the routine `rutina_id` but the date
   * `fecha`, so `fecha_inicio` is absent.
   */
  function SaveRequest(f: Form): (b: EntrenamientosController.CreateBody)
    ensures b.rutinaId == EntrenamientosController.JStr(f.rutinaId) && b.fechaInicio.None?
  {
    EntrenamientosController.CreateBody(EntrenamientosController.JStr(f.rutinaId), None)
  }

  /** The request as the controller expects it: the form's date sent as `fecha_inicio`. */
  function SaveRequestCorrected(f: Form): (b: EntrenamientosController.CreateBody)
    ensures b.rutinaId == EntrenamientosController.JStr(f.rutinaId) && b.fechaInicio == Some(f.fecha)
  {
    EntrenamientosController.CreateBody(EntrenamientosController.JStr(f.rutinaId), Some(f.fecha))
  }

  datatype Saved = Saved(page: Page, db: Tables.Db)

  /** Posting `body`: on success the dialog closes; on an error status it stays open. */
  function Submit(p: Page, db: Tables.Db, userId: int, body: EntrenamientosController.CreateBody): (r: Saved)
    ensures var c := EntrenamientosController.CreateEntrenamiento(db, userId, body);
      && r.db == c.db
      && r.page.form == p.form
      && (r.page.showModal <==> p.showModal && c.status != 201)
  {
    var c := EntrenamientosController.CreateEntrenamiento(db, userId, body);
    Saved(if c.status == 201 then p.(showModal := false) else p, c.db)
  }

  /** `handleSaveEntrenamiento` as written: the controller refuses the body, so nothing changes. */
  function HandleSave(p: Page, db: Tables.Db, userId: int): (r: Saved)
    ensures r == Saved(p, db)
  {
    Submit(p, db, userId, SaveRequest(p.form))
  }

  /**
   * The save with `fecha_inicio` sent: the dialog closes exactly when the
   * form names one of the user's routines by its id and carries a date, and
   * then the session is stored; otherwise nothing changes.
   */
  function HandleSaveCorrected(p: Page, db: Tables.Db, userId: int): (r: Saved)
    ensures var body := SaveRequestCorrected(p.form);
      var ok := p.form.rutinaId != "" && p.form.fecha != "" && EntrenamientosController.CanCreate(db, userId, body);
      && r.page.form == p.form
      && (r.page.showModal <==> p.showModal && !ok)
      && (!ok ==> r.db == db)
      && (ok ==> |r.db.entrenamientos| == |db.entrenamientos| + 1 && r.db.entrenamientos[..|db.entrenamientos|] == db.entrenamientos)
  {
    Submit(p, db, userId, SaveRequestCorrected(p.form))
  }

  /** As written, every save is answered 400: nothing is stored and the dialog stays open. */
  lemma SaveAlwaysRejected(p: Page, db: Tables.Db, userId: int)
    ensures EntrenamientosController.CreateEntrenamiento(db, userId, SaveRequest(p.form)).status == 400
    ensures HandleSave(p, db, userId) == Saved(p, db)
  {
  }

  /**
   * With `fecha_inicio` sent, choosing one of the user's routines and saving
   * stores a session dated by the form and closes the dialog.
   */
  lemma CorrectedSaveCreates(p: Page, db: Tables.Db, userId: int, rutinaId: int)
    requires p.form.rutinaId == IntToString(rutinaId) && p.form.fecha != ""
    requires Tables.Owns(db, rutinaId, userId)
    ensures var c := EntrenamientosController.CreateEntrenamiento(db, userId, SaveRequestCorrected(p.form));
      && c.status == 201
      && c.record.value.fecha == EntrenamientosController.DatePart(p.form.fecha)
      && c.record.value.rutinaId == Some(rutinaId)
    ensures !HandleSaveCorrected(p, db, userId).page.showModal
  {
    ParseNumberOfIntToString(rutinaId);
  }
}

=== FILE: exercises_page.dfy ===
/**
 * The exercise catalogue page (src/pages/Ejercicios.jsx): the name search
 * with the group selector, the count of results, and removal after a delete.
 */
module ExercisesPage {
  import opened Wrappers
  import opened Text
  import opened Domain
  import Seqs

  /** The group choice that disables the group filter. */
  const AllGroups: string := "todos"

  /** The page's filter: the name contains the term ignoring case, and the group matches unless it is "todos". */
  predicate Shown(e: Ejercicio, term: string, grupo: string) {
    ContainsIgnoringCase(e.nombre, term) && (grupo == AllGroups || e.grupoMuscular == grupo)
  }

  function ShownBy(term: string, grupo: string): Ejercicio -> bool {
    e => Shown(e, term, grupo)
  }

  /** `filteredEjercicios`: the catalogue's exercises that pass the filter, in catalogue order. */
  function FilteredEjercicios(es: seq<Ejercicio>, term: string, grupo: string): (r: seq<Ejercicio>)
    ensures Seqs.Subseq(r, es) && |r| <= |es|
    ensures forall i :: 0 <= i < |r| ==> ContainsIgnoringCase(r[i].nombre, term)
    ensures grupo != AllGroups ==> forall i :: 0 <= i < |r| ==> r[i].grupoMuscular == grupo
    ensures forall i :: 0 <= i < |es| && Shown(es[i], term, grupo) ==> es[i] in r
  {
    Seqs.Filter(es, ShownBy(term, grupo))
  }

  /** The description plays no part in the search. */
  lemma DescriptionIgnored(e: Ejercicio, d: Option<string>, term: string, grupo: string)
    ensures Shown(e.(descripcion := d), term, grupo) == Shown(e, term, grupo)
  {
  }

  /** With "todos" and an empty search the whole catalogue shows. */
  lemma NoCriteriaShowsAll(es: seq<Ejercicio>)
    ensures FilteredEjercicios(es, "", AllGroups) == es
  {
    forall i | 0 <= i < |es|
      ensures Shown(es[i], "", AllGroups)
    {
      ContainsEmpty(ToLower(es[i].nombre));
    }
    Seqs.FilterAllPass(es, ShownBy("", AllGroups));
  }

  /** The "N ejercicios" count is the number of catalogue exercises that pass the filter. */
  function ResultCount(es: seq<Ejercicio>, term: string, grupo: string): (n: nat)
    ensures n <= |es|
    ensures n == Seqs.Count(es, ShownBy(term, grupo))
  {
    Seqs.FilterCount(es, ShownBy(term, grupo));
    |FilteredEjercicios(es, term, grupo)|
  }

  function HasOtherId(id: int): Ejercicio -> bool {
    (e: Ejercicio) => e.id != id
  }

  /** `handleDeleteEjercicio`: the exercise leaves the list only once confirmed and deleted on the server. */
  function DeleteEjercicio(es: seq<Ejercicio>, id: int, confirmed: bool, apiOk: bool): (r: seq<Ejercicio>)
    ensures !(confirmed && apiOk) ==> r == es
    ensures confirmed && apiOk ==>
      && Seqs.Subseq(r, es)
      && (forall i :: 0 <= i < |r| ==> r[i].id != id)
      && (forall i :: 0 <= i < |es| && es[i].id != id ==> es[i] in r)
  {
    if confirmed && apiOk then Seqs.Filter(es, HasOtherId(id)) else es
  }

  /** Deleting an id the list does not hold leaves the list as it was. */
  lemma DeleteAbsentId(es: seq<Ejercicio>, id: int)
    requires forall i :: 0 <= i < |es| ==> es[i].id != id
    ensures DeleteEjercicio(es, id, true, true) == es
  {
    Seqs.FilterAllPass(es, HasOtherId(id));
  }
}

=== FILE: jsmath.dfy ===
/** JavaScript integer arithmetic the pages and workers rely on. */
module JsMath {

  /** JavaScript's `%`: the remainder takes the sign of the dividend. */
  function JsRem(a: int, b: int): (r: int)
    requires b > 0
    ensures a >= 0 ==> 0 <= r < b && r == a % b
    ensures a < 0 ==> -b < r <= 0 && r == -((-a) % b)
  {
    if a >= 0 then a % b else -((-a) % b)
  }

  /** `Math.floor(a / b)` on integers: the greatest `q` with `q * b <= a`. */
  function FloorDiv(a: int, b: int): (q: int)
    requires b > 0
    ensures q * b <= a < (q + 1) * b
  {
    assert a == (a / b) * b + a % b;
    a / b
  }

  /** `Math.ceil(a / b)` on integers: the least `q` with `q * b >= a`. */
  function CeilDiv(a: int, b: int): (q: int)
    requires b > 0
    ensures q * b >= a
    ensures (q - 1) * b < a
  {
    var f := (-a) / b;
    assert -a == f * b + (-a) % b;
    -f
  }

  /** `Math.max(a, b)`. */
  function Max(a: int, b: int): (m: int)
    ensures m >= a && m >= b
    ensures m == a || m == b
  {
    if a >= b then a else b
  }

  /** A ceiling quotient never falls when the dividend grows. */
  lemma CeilDivMonotone(a: int, a': int, b: int)
    requires b > 0 && a <= a'
    ensures CeilDiv(a, b) <= CeilDiv(a', b)
  {
    var q, q' := CeilDiv(a, b), CeilDiv(a', b);
    if q > q' {
      assert (q - 1) * b >= q' * b by {
        MulMonotone(q', q - 1, b);
      }
    }
  }

  lemma MulMonotone(x: int, y: int, b: int)
    requires x <= y && b > 0
    ensures x * b <= y * b
  {
  }
}

=== FILE: number_input.dfy ===
/**
 * The numeric fields of the pages' forms (`<input type="number">`) and the
 * two ways the pages read them: a comparison such as `x < 1` reads the
 * field with `Number`, the request body reads it with `parseInt`.
 *
 * A field holds either the number copied from a loaded row or, once the
 * user has typed, the input's value. By the value sanitization of the
 * number state in the HTML standard (section 4.10.5.1.12 of the HTML
 * Living Standard) that value is the empty string or a valid
 * floating-point number: an optional `-`, digits with an optional
 * fraction (or a fraction alone), and an optional exponent.
 */
module NumberInput {
  import opened Wrappers
  import opened Text
  import opened Domain

  /** A numeric field: a number copied from the loaded row, or the text of the input once edited. */
  datatype Field = Loaded(n: int) | Typed(s: string)

  /** JavaScript falsiness of a field: the number 0 or the empty text. */
  predicate Falsy(f: Field) {
    f == Loaded(0) || f == Typed("")
  }

  /** `column || ''`: a missing or zero column starts as the empty field. */
  function FieldOf(n: Option<int>): (f: Field)
    ensures Truthy(n) ==> f == Loaded(n.value)
    ensures !Truthy(n) ==> f == Typed("")
    ensures Falsy(f) <==> !Truthy(n)
  {
    if Truthy(n) then Loaded(n.value) else Typed("")
  }

  // ---------------------------------------------------------------------------
  // The text of a valid floating-point number

  /** `-`? whole (`.` fraction)? (`e` sign? exponent)?; an empty `exponent` means there is none. */
  datatype Numeral = Numeral(negative: bool, whole: string, fraction: string, expNegative: bool, exponent: string)

  predicate Shaped(n: Numeral) {
    && AllDigits(n.whole) && AllDigits(n.fraction) && AllDigits(n.exponent)
    && (n.whole != "" || n.fraction != "")
  }

  /** The exponent after `e` or `E`: an optional sign and at least one digit. */
  function ScanExponent(t: string): (r: Option<(bool, string)>)
    ensures r.Some? ==> r.value.1 != "" && AllDigits(r.value.1)
  {
    var start := if |t| > 0 && (t[0] == '-' || t[0] == '+') then 1 else 0;
    var digits := t[start..];
    if digits != "" && AllDigits(digits) then Some((|t| > 0 && t[0] == '-', digits)) else None
  }

  /** Reads a valid floating-point number into its parts; `None` for any other text. */
  function Scan(s: string): (r: Option<Numeral>)
    ensures r.Some? ==> Shaped(r.value)
    ensures r.Some? ==> s != "" && s[0] != '+'
  {
    var negative := |s| > 0 && s[0] == '-';
    var body := if negative then s[1..] else s;
    var w := LeadingDigits(body);
    var afterWhole := body[w..];
    var hasPoint := |afterWhole| > 0 && afterWhole[0] == '.';
    var f := if hasPoint then LeadingDigits(afterWhole[1..]) else 0;
    var fraction := if hasPoint then afterWhole[1..][..f] else "";
    var rest := if hasPoint then afterWhole[1..][f..] else afterWhole;
    if (hasPoint && f == 0) || (w == 0 && fraction == "") then None
    else if rest == "" then Some(Numeral(negative, body[..w], fraction, false, ""))
    else if rest[0] != 'e' && rest[0] != 'E' then None
    else match ScanExponent(rest[1..])
      case None => None
      case Some(e) => Some(Numeral(negative, body[..w], fraction, e.0, e.1))
  }

  function Pow10(n: nat): (r: nat)
    ensures r >= 1
  {
    if n == 0 then 1 else 10 * Pow10(n - 1)
  }

  /** A string of digits is worth less than ten to its length. */
  lemma {:induction false} DigitsBelowPow10(d: string)
    requires AllDigits(d)
    ensures DigitsValue(d) < Pow10(|d|)
    decreases |d|
  {
    if |d| > 0 {
      DigitsBelowPow10(d[..|d| - 1]);
    }
  }

  /** The digits after the point, as a value in [0, 1). */
  function FractionValue(fraction: string): (v: real)
    requires AllDigits(fraction)
    ensures 0.0 <= v < 1.0
  {
    DigitsBelowPow10(fraction);
    QuotientBelowOne(DigitsValue(fraction) as real, Pow10(|fraction|) as real);
    DigitsValue(fraction) as real / Pow10(|fraction|) as real
  }

  lemma QuotientBelowOne(a: real, b: real)
    requires 0.0 <= a < b
    ensures 0.0 <= a / b < 1.0
  {
    assert (a / b) * b == a;
  }

  /** The value of the digits before the exponent, sign aside. */
  function Magnitude(n: Numeral): (v: real)
    requires Shaped(n)
    ensures DigitsValue(n.whole) as real <= v < DigitsValue(n.whole) as real + 1.0
  {
    DigitsValue(n.whole) as real + FractionValue(n.fraction)
  }

  /** The exact value the numeral denotes. */
  function Value(n: Numeral): (v: real)
    requires Shaped(n)
    ensures !n.negative ==> v >= 0.0
    ensures n.negative ==> v <= 0.0
    ensures n.exponent == "" ==> v == (if n.negative then -Magnitude(n) else Magnitude(n))
    ensures Magnitude(n) > 0.0 ==> (if n.negative then v < 0.0 else v > 0.0)
  {
    var scale := Pow10(DigitsValue(n.exponent)) as real;
    ScaledPositive(Magnitude(n), scale);
    var m := if n.expNegative then Magnitude(n) / scale else Magnitude(n) * scale;
    if n.negative then -m else m
  }

  lemma ScaledPositive(m: real, scale: real)
    requires m >= 0.0 && scale >= 1.0
    ensures m / scale >= 0.0 && m * scale >= 0.0
    ensures m > 0.0 ==> m / scale > 0.0 && m * scale > 0.0
  {
    assert (m / scale) * scale == m;
  }

  // ---------------------------------------------------------------------------
  // Reading a field

  /** What a field can hold: a loaded number, the empty text or a valid floating-point number. */
  predicate InputValue(f: Field) {
    f.Loaded? || f.s == "" || Scan(f.s).Some?
  }

  /** A field typed without an exponent (or a loaded number). */
  predicate NoExponent(f: Field) {
    f.Typed? && Scan(f.s).Some? ==> Scan(f.s).value.exponent == ""
  }

  /**
   * `Number(f)`, as a comparison reads it: the empty text is 0, and text
   * a number input never holds is `NaN` (`None`). Rounding to a double is
   * not modelled: the value is exact.
   */
  function NumberOf(f: Field): (r: Option<real>)
    ensures f.Loaded? ==> r == Some(f.n as real)
    ensures f == Typed("") ==> r == Some(0.0)
    ensures f.Typed? && f.s != "" ==> (r.Some? <==> Scan(f.s).Some?)
  {
    match f
    case Loaded(n) => Some(n as real)
    case Typed(s) =>
      if s == "" then Some(0.0)
      else match Scan(s)
        case None => None
        case Some(n) => Some(Value(n))
  }

  /** `f < k`: false when `f` is `NaN`. */
  predicate Below(f: Field, k: int) {
    NumberOf(f).Some? && NumberOf(f).value < k as real
  }

  /** The field survives the pages' guard `!f || f < k`. */
  predicate Passes(f: Field, k: int) {
    !(Falsy(f) || Below(f, k))
  }

  /**
   * `parseInt(s)` on the text of a number input: an optional sign and the
   * digits that follow it, ignoring whatever comes after; `NaN` (`None`)
   * when no digit follows the sign.
   */
  function ParseIntText(s: string): (r: Option<int>)
    ensures s == "" ==> r.None?
  {
    var signed := |s| > 0 && (s[0] == '-' || s[0] == '+');
    var body := if signed then s[1..] else s;
    var w := LeadingDigits(body);
    if w == 0 then None
    else Some(if |s| > 0 && s[0] == '-' then 0 - DigitsValue(body[..w]) else DigitsValue(body[..w]))
  }

  /** `parseInt(f)`: a loaded integer is itself. */
  function ParseIntField(f: Field): (r: Option<int>)
    ensures f.Loaded? ==> r == Some(f.n)
    ensures f.Typed? ==> r == ParseIntText(f.s)
  {
    match f
    case Loaded(n) => Some(n)
    case Typed(s) => ParseIntText(s)
  }

  // ---------------------------------------------------------------------------
  // How the two readings relate

  /** `parseInt` of a valid floating-point number reads exactly its whole part, with its sign. */
  lemma ParseIntReadsWhole(s: string)
    requires Scan(s).Some?
    ensures var n := Scan(s).value;
      ParseIntText(s) == if n.whole == "" then None
                         else Some(if n.negative then 0 - DigitsValue(n.whole) else DigitsValue(n.whole))
  {
    var negative := |s| > 0 && s[0] == '-';
    var body := if negative then s[1..] else s;
    assert Scan(s).value.whole == body[..LeadingDigits(body)];
  }

  /** A typed integer numeral reads as that integer both ways. */
  lemma TypedIntegerReadsBack(i: int)
    ensures NumberOf(Typed(IntToString(i))) == Some(i as real)
    ensures ParseIntField(Typed(IntToString(i))) == Some(i)
  {
    var s := IntToString(i);
    var body := if i < 0 then s[1..] else s;
    var digits := NatToString(if i < 0 then -i else i);
    assert body == digits;
    AllDigitsLead(digits);
    assert body[LeadingDigits(body)..] == "";
    assert body[..LeadingDigits(body)] == digits;
    DigitsValueOfNatToString(if i < 0 then -i else i);
    var n := Scan(s).value;
    assert n == Numeral(i < 0, digits, "", false, "");
    assert FractionValue("") == 0.0;
  }

  /** All of a string of digits is its leading digit run. */
  lemma {:induction false} AllDigitsLead(d: string)
    requires AllDigits(d)
    ensures LeadingDigits(d) == |d|
    decreases |d|
  {
    if |d| > 0 {
      AllDigitsLead(d[1..]);
    }
  }

  /**
   * A field that passes `!f || f < k` for a positive `k` and was typed
   * without an exponent is sent as an integer of at least `k`: its whole
   * part carries everything the fraction cannot.
   */
  lemma PassedAtLeast(f: Field, k: int)
    requires k >= 1
    requires InputValue(f) && NoExponent(f) && Passes(f, k)
    ensures ParseIntField(f).Some? && ParseIntField(f).value >= k
  {
    if f.Typed? {
      var n := Scan(f.s).value;
      ParseIntReadsWhole(f.s);
      assert Value(n) >= k as real;
      assert !n.negative;
      assert DigitsValue(n.whole) as real > (k - 1) as real;
    }
  }

  /**
   * A field that passes `!f || f < 0` is never sent negative, exponent or
   * not: a negative numeral with a non-zero whole part is below zero.
   */
  lemma PassedNonNegative(f: Field)
    requires InputValue(f) && Passes(f, 0)
    ensures ParseIntField(f).None? || ParseIntField(f).value >= 0
  {
    if f.Typed? {
      var n := Scan(f.s).value;
      ParseIntReadsWhole(f.s);
      NegativeWholeBelowZero(n);
    }
  }

  /** A negative numeral with a non-zero whole part is worth less than zero. */
  lemma NegativeWholeBelowZero(n: Numeral)
    requires Shaped(n)
    ensures n.negative && DigitsValue(n.whole) > 0 ==> Value(n) < 0.0
  {
  }

  /**
   * Conversely, a field typed without an exponent whose whole part is at
   * least `k` passes the check. With an exponent it need not: "5e-1" reads
   * as 5 but is worth 0.5.
   */
  lemma WholeAtLeastPasses(f: Field, k: int)
    requires k >= 1
    requires InputValue(f) && NoExponent(f)
    requires ParseIntField(f).Some? && ParseIntField(f).value >= k
    ensures Passes(f, k)
  {
    if f.Typed? {
      var n := Scan(f.s).value;
      ParseIntReadsWhole(f.s);
      assert !n.negative;
      assert Magnitude(n) >= k as real;
    }
  }

  /** "0.9e1" is 9 to `Number` and passes `< 1`, but `parseInt` stops at the point and reads 0. */
  lemma ExponentPassesAsZero()
    ensures InputValue(Typed("0.9e1")) && !NoExponent(Typed("0.9e1"))
    ensures NumberOf(Typed("0.9e1")) == Some(9.0)
    ensures Passes(Typed("0.9e1"), 1)
    ensures ParseIntField(Typed("0.9e1")) == Some(0)
  {
    var s := "0.9e1";
    assert LeadingDigits(s) == 1 by {
      assert LeadingDigits(s[1..]) == 0;
    }
    assert s[..1] == "0" && s[1..] == ".9e1" && s[1..][1..] == "9e1";
    assert LeadingDigits("9e1") == 1 by {
      assert "9e1"[1..] == "e1";
      assert LeadingDigits("e1") == 0;
    }
    assert "9e1"[..1] == "9" && "9e1"[1..] == "e1" && "e1"[1..] == "1";
    assert ScanExponent("1") == Some((false, "1"));
    var n := Numeral(false, "0", "9", false, "1");
    assert Scan(s) == Some(n);
    assert DigitsValue("9") == 9;
    assert FractionValue("9") == 0.9;
    assert Value(n) == 9.0;
    assert ParseIntText(s) == Some(DigitsValue("0"));
  }
}

=== FILE: offline_cache.dfy ===
/**
 * The caching service worker of the PWA (public/sw.js): how a request is
 * routed to a strategy, which caches survive activation, and what each of
 * the three strategies answers and stores. Cache Storage is a sequence of
 * named caches in creation order; the network is a parameter holding the
 * response, or `None` when `fetch` rejects. Cache writes take effect at once.
 */
module OfflineCache {
  import opened Wrappers
  import opened Text
  import Seqs

  const CacheName: string := "gymapp-v1.0.0"
  const StaticCache: string := "gymapp-static-v1"
  const DynamicCache: string := "gymapp-dynamic-v1"

  /** A request: its method, the origin, path and query of its URL, and its destination. */
  datatype Request = Request(verb: string, origin: string, path: string, query: string, destination: string)

  datatype Response = Response(status: int, body: string)

  /** A cache key: the whole URL, query included. */
  datatype Url = Url(origin: string, path: string, query: string)

  function UrlOf(req: Request): Url {
    Url(req.origin, req.path, req.query)
  }

  datatype Cache = Cache(name: string, entries: map<Url, Response>)

  // ---------------------------------------------------------------------------
  // Routing

  datatype Strategy = CacheFirst | NetworkFirst | StaleWhileRevalidate

  /** The `fetch` listener: same origin first, then API paths (the path alone, not the query), then everything else. */
  function Route(req: Request, selfOrigin: string): (s: Strategy)
    ensures s == CacheFirst <==> req.origin == selfOrigin
    ensures s == NetworkFirst <==> req.origin != selfOrigin && Contains(req.path, "/api/")
    ensures s == StaleWhileRevalidate <==> req.origin != selfOrigin && !Contains(req.path, "/api/")
  {
    if req.origin == selfOrigin then CacheFirst
    else if Contains(req.path, "/api/") then NetworkFirst
    else StaleWhileRevalidate
  }

  /** Example: the origin test comes first, so a same-origin request is served cache-first even when its path holds "/api/". */
  lemma SameOriginApiIsCacheFirst(verb: string, origin: string)
    ensures Route(Request(verb, origin, "/gym-api/api/rutinas", "", ""), origin) == CacheFirst
  {
  }

  // ---------------------------------------------------------------------------
  // Activation

  predicate Retained(c: Cache) {
    c.name == StaticCache || c.name == DynamicCache
  }

  function RetainedBy(): Cache -> bool {
    c => Retained(c)
  }

  /** The `activate` listener: every cache not named as the static or dynamic cache is deleted. */
  function Activate(st: seq<Cache>): (r: seq<Cache>)
    ensures forall i :: 0 <= i < |r| ==> r[i].name == StaticCache || r[i].name == DynamicCache
    ensures forall i :: 0 <= i < |st| && Retained(st[i]) ==> st[i] in r
    ensures forall i :: 0 <= i < |r| ==> r[i] in st
    ensures Seqs.Subseq(r, st)
  {
    Seqs.Filter(st, RetainedBy())
  }

  /** The cache named by `CACHE_NAME` does not survive activation. */
  lemma ActivateDropsCacheName(st: seq<Cache>)
    ensures forall i :: 0 <= i < |Activate(st)| ==> Activate(st)[i].name != CacheName
  {
  }

  lemma ActivateIdempotent(st: seq<Cache>)
    ensures Activate(Activate(st)) == Activate(st)
  {
    Seqs.FilterIdempotent(st, RetainedBy());
  }

  // ---------------------------------------------------------------------------
  // Cache Storage

  /** The response stored for `url` in the first cache, in creation order, that holds it. */
  function MatchUrl(st: seq<Cache>, url: Url): (r: Option<Response>)
    ensures r.None? <==> forall i :: 0 <= i < |st| ==> url !in st[i].entries
    ensures r.Some? ==> exists i :: 0 <= i < |st| && url in st[i].entries && st[i].entries[url] == r.value
    decreases |st|
  {
    if |st| == 0 then None
    else if url in st[0].entries then Some(st[0].entries[url])
    else
      var r := MatchUrl(st[1..], url);
      assert forall i :: 1 <= i < |st| ==> st[i] == st[1..][i - 1];
      r
  }

  /** `caches.match(request)`: only a GET request finds a stored response. */
  function Match(st: seq<Cache>, req: Request): (r: Option<Response>)
    ensures req.verb != "GET" ==> r.None?
    ensures req.verb == "GET" ==> r == MatchUrl(st, UrlOf(req))
  {
    if req.verb == "GET" then MatchUrl(st, UrlOf(req)) else None
  }

  predicate HasCache(st: seq<Cache>, name: string) {
    exists i :: 0 <= i < |st| && st[i].name == name
  }

  /** `caches.open(name)`: the cache is created, empty and last, if it does not exist yet. */
  function Open(st: seq<Cache>, name: string): (r: seq<Cache>)
    ensures HasCache(r, name)
    ensures HasCache(st, name) ==> r == st
    ensures !HasCache(st, name) ==> r == st + [Cache(name, map[])]
  {
    if HasCache(st, name) then st
    else
      assert (st + [Cache(name, map[])])[|st|].name == name;
      st + [Cache(name, map[])]
  }

  /**
   * `caches.open(name)` and then `cache.put(request, response)`: the cache is
   * created if it is missing either way, and a non-GET request is then
   * rejected and stores nothing.
   */
  function Put(st: seq<Cache>, name: string, req: Request, resp: Response): (r: seq<Cache>)
    ensures req.verb != "GET" ==> r == Open(st, name)
    ensures req.verb == "GET" ==>
      && |r| == |Open(st, name)|
      && (forall i :: 0 <= i < |r| && r[i].name != name ==> r[i] == Open(st, name)[i])
      && (forall i :: 0 <= i < |r| && r[i].name == name ==>
            r[i] == Open(st, name)[i].(entries := Open(st, name)[i].entries[UrlOf(req) := resp]))
  {
    if req.verb != "GET" then Open(st, name)
    else
      var withCache := Open(st, name);
      seq(|withCache|, i requires 0 <= i < |withCache| =>
        if withCache[i].name == name then withCache[i].(entries := withCache[i].entries[UrlOf(req) := resp]) else withCache[i])
  }

  /** The response stored by `name`'s cache for a request, as `cache.match` on an opened cache finds it. */
  function MatchIn(st: seq<Cache>, name: string, req: Request): Option<Response>
    decreases |st|
  {
    if |st| == 0 then None
    else if st[0].name == name then
      (if req.verb == "GET" && UrlOf(req) in st[0].entries then Some(st[0].entries[UrlOf(req)]) else None)
    else MatchIn(st[1..], name, req)
  }

  /** After a GET is stored, matching it finds what was stored, when no cache held it before. */
  lemma MatchAfterPut(st: seq<Cache>, name: string, req: Request, resp: Response)
    requires req.verb == "GET" && Match(st, req).None?
    ensures Match(Put(st, name, req, resp), req) == Some(resp)
  {
    var r := Put(st, name, req, resp);
    var url := UrlOf(req);
    var m := MatchUrl(r, url);
    var k :| 0 <= k < |r| && r[k].name == name;
    assert url in r[k].entries;
    var i :| 0 <= i < |r| && url in r[i].entries && r[i].entries[url] == m.value;
    var withCache := Open(st, name);
    if r[i].name != name {
      assert false;
    }
  }

  // ---------------------------------------------------------------------------
  // Strategies

  /**
   * What the worker hands to `respondWith`: a response, or none — a rejected
   * promise, or one that resolves to `undefined` — which the page sees as a
   * network error.
   */
  datatype Outcome = Respond(response: Response) | Reject

  datatype Handled = Handled(outcome: Outcome, storage: seq<Cache>)

  const AppOffline := Response(503, "App offline")
  const ApiOffline := Response(503, "{\"error\":\"Sin conexión\",\"message\":\"No hay conexión a internet\"}")

  /** `cacheFirstStrategy`. */
  function CacheFirstStrategy(st: seq<Cache>, req: Request, net: Option<Response>, selfOrigin: string): (h: Handled)
    ensures Match(st, req).Some? ==> h == Handled(Respond(Match(st, req).value), st)
    ensures Match(st, req).None? && net.Some? ==>
      && h.outcome == Respond(net.value)
      && h.storage == (if net.value.status == 200 then Put(st, DynamicCache, req, net.value) else st)
    ensures Match(st, req).None? && net.None? ==> h.storage == st
    ensures Match(st, req).None? && net.None? && req.destination != "document" ==> h.outcome == Reject
    ensures Match(st, req).None? && net.None? && req.destination == "document" ==>
      h.outcome == Respond(MatchUrl(st, Url(selfOrigin, "/", "")).GetOr(AppOffline))
  {
    var cached := Match(st, req);
    if cached.Some? then Handled(Respond(cached.value), st)
    else if net.Some? then
      Handled(Respond(net.value), if net.value.status == 200 then Put(st, DynamicCache, req, net.value) else st)
    else if req.destination == "document" then
      var home := Match(st, Request("GET", selfOrigin, "/", "", ""));
      Handled(Respond(home.GetOr(AppOffline)), st)
    else Handled(Reject, st)
  }

  /** `networkFirstStrategy`. */
  function NetworkFirstStrategy(st: seq<Cache>, req: Request, net: Option<Response>): (h: Handled)
    ensures net.Some? ==> h.outcome == Respond(net.value)
    ensures net.Some? ==>
      h.storage == (if req.verb == "GET" && net.value.status == 200 then Put(st, DynamicCache, req, net.value) else st)
    ensures net.None? ==> h.storage == st && h.outcome == Respond(Match(st, req).GetOr(ApiOffline))
  {
    if net.Some? then
      var stored := if req.verb == "GET" && net.value.status == 200 then Put(st, DynamicCache, req, net.value) else st;
      Handled(Respond(net.value), stored)
    else
      Handled(Respond(Match(st, req).GetOr(ApiOffline)), st)
  }

  /** `staleWhileRevalidateStrategy`: the dynamic cache answers if it can, and the network refreshes it regardless. */
  function StaleWhileRevalidateStrategy(st: seq<Cache>, req: Request, net: Option<Response>): (h: Handled)
    ensures var withCache := Open(st, DynamicCache);
      && (MatchIn(withCache, DynamicCache, req).Some? ==> h.outcome == Respond(MatchIn(withCache, DynamicCache, req).value))
      && (MatchIn(withCache, DynamicCache, req).None? && net.Some? ==> h.outcome == Respond(net.value))
      && (MatchIn(withCache, DynamicCache, req).None? && net.None? ==> h.outcome == Reject)
      && h.storage == (if net.Some? && net.value.status == 200 then Put(withCache, DynamicCache, req, net.value) else withCache)
  {
    var withCache := Open(st, DynamicCache);
    var cached := MatchIn(withCache, DynamicCache, req);
    var stored := if net.Some? && net.value.status == 200 then Put(withCache, DynamicCache, req, net.value) else withCache;
    var outcome := if cached.Some? then Respond(cached.value) else if net.Some? then Respond(net.value) else Reject;
    Handled(outcome, stored)
  }

  // ---------------------------------------------------------------------------
  // What the strategies store

  /** Every response held by a cache called `name` has status 200. */
  ghost predicate OnlyOk(st: seq<Cache>, name: string) {
    forall i, u :: 0 <= i < |st| && st[i].name == name && u in st[i].entries ==> st[i].entries[u].status == 200
  }

  /** Caches other than `name` are untouched, position by position. */
  ghost predicate OthersUnchanged(st: seq<Cache>, r: seq<Cache>, name: string) {
    |st| <= |r| && forall i :: 0 <= i < |st| && st[i].name != name ==> r[i] == st[i]
  }

  lemma PutKeepsOnlyOk(st: seq<Cache>, name: string, req: Request, resp: Response)
    requires OnlyOk(st, name) && resp.status == 200
    ensures OnlyOk(Put(st, name, req, resp), name)
    ensures OthersUnchanged(st, Put(st, name, req, resp), name)
  {
  }

  /**
   * The `fetch` listener end to end. Whatever the request and the network
   * do, the dynamic cache only ever gains status-200 responses and no other
   * cache changes; a live network always answers an API call.
   */
  function HandleFetch(st: seq<Cache>, req: Request, net: Option<Response>, selfOrigin: string): (h: Handled)
    ensures OnlyOk(st, DynamicCache) ==> OnlyOk(h.storage, DynamicCache)
    ensures OthersUnchanged(st, h.storage, DynamicCache)
    ensures Route(req, selfOrigin) == NetworkFirst && net.Some? ==> h.outcome == Respond(net.value)
    ensures Route(req, selfOrigin) == CacheFirst && Match(st, req).Some? ==> h.storage == st
  {
    var withCache := Open(st, DynamicCache);
    assert OnlyOk(st, DynamicCache) ==> OnlyOk(withCache, DynamicCache);
    assert OnlyOk(st, DynamicCache) && net.Some? && net.value.status == 200 ==>
      OnlyOk(Put(st, DynamicCache, req, net.value), DynamicCache)
      && OnlyOk(Put(withCache, DynamicCache, req, net.value), DynamicCache) by {
      if OnlyOk(st, DynamicCache) && net.Some? && net.value.status == 200 {
        PutKeepsOnlyOk(st, DynamicCache, req, net.value);
        PutKeepsOnlyOk(withCache, DynamicCache, req, net.value);
      }
    }
    assert net.Some? && net.value.status == 200 ==>
      OthersUnchanged(st, Put(st, DynamicCache, req, net.value), DynamicCache)
      && OthersUnchanged(withCache, Put(withCache, DynamicCache, req, net.value), DynamicCache);
    match Route(req, selfOrigin)
    case CacheFirst => CacheFirstStrategy(st, req, net, selfOrigin)
    case NetworkFirst => NetworkFirstStrategy(st, req, net)
    case StaleWhileRevalidate => StaleWhileRevalidateStrategy(st, req, net)
  }

  /** What cache-first fetched and stored, it serves next time without the network. */
  lemma CacheFirstServesWhatItStored(st: seq<Cache>, req: Request, resp: Response, later: Option<Response>, selfOrigin: string)
    requires req.verb == "GET" && Match(st, req).None? && resp.status == 200
    ensures var h := CacheFirstStrategy(st, req, Some(resp), selfOrigin);
      CacheFirstStrategy(h.storage, req, later, selfOrigin) == Handled(Respond(resp), h.storage)
  {
    MatchAfterPut(st, DynamicCache, req, resp);
  }

  /** Offline, an API call with nothing cached gets the 503 JSON answer. */
  lemma NetworkFirstOfflineFallback(st: seq<Cache>, req: Request)
    requires Match(st, req).None?
    ensures NetworkFirstStrategy(st, req, None).outcome == Respond(ApiOffline)
    ensures ApiOffline.status == 503
  {
  }
}

=== FILE: routines_page.dfy ===
/**
 * The routines page (src/pages/Rutinas.jsx): the weekday filter and
 * removal after a delete.
 */
module RoutinesPage {
  import opened Text
  import opened Domain
  import Seqs

  /** The filter choice that shows every routine. */
  const AllDays: string := "todas"

  /** A routine passes when the filter is "todas" or its day equals the filter ignoring case. */
  predicate Shown(r: Rutina, filter: string) {
    filter == AllDays || ToLower(r.dia) == ToLower(filter)
  }

  function ShownBy(filter: string): Rutina -> bool {
    r => Shown(r, filter)
  }

  /** `filteredRutinas`. */
  function FilteredRutinas(rs: seq<Rutina>, filter: string): (out: seq<Rutina>)
    ensures Seqs.Subseq(out, rs) && |out| <= |rs|
    ensures filter != AllDays ==> forall i :: 0 <= i < |out| ==> ToLower(out[i].dia) == ToLower(filter)
    ensures forall i :: 0 <= i < |rs| && Shown(rs[i], filter) ==> rs[i] in out
  {
    Seqs.Filter(rs, ShownBy(filter))
  }

  lemma AllDaysShowsAll(rs: seq<Rutina>)
    ensures FilteredRutinas(rs, AllDays) == rs
  {
    Seqs.FilterAllPass(rs, ShownBy(AllDays));
  }

  /** A day written in another case selects the same routines. */
  lemma FilterIgnoresCase(rs: seq<Rutina>, filter: string)
    requires filter != AllDays && ToLower(filter) != AllDays
    ensures FilteredRutinas(rs, ToLower(filter)) == FilteredRutinas(rs, filter)
  {
    ToLowerIdempotent(filter);
    Seqs.FilterCongruent(rs, ShownBy(ToLower(filter)), ShownBy(filter));
  }

  function HasOtherId(id: int): Rutina -> bool {
    (r: Rutina) => r.id != id
  }

  /** `handleDeleteRutina`: the routine leaves the list only once confirmed and deleted on the server. */
  function DeleteRutina(rs: seq<Rutina>, id: int, confirmed: bool, apiOk: bool): (out: seq<Rutina>)
    ensures !(confirmed && apiOk) ==> out == rs
    ensures confirmed && apiOk ==>
      && Seqs.Subseq(out, rs)
      && (forall i :: 0 <= i < |out| ==> out[i].id != id)
      && (forall i :: 0 <= i < |rs| && rs[i].id != id ==> rs[i] in out)
  {
    if confirmed && apiOk then Seqs.Filter(rs, HasOtherId(id)) else rs
  }

  /** With unique ids, a delete shortens the list by one exactly when the id was listed. */
  lemma {:induction false} DeleteRemovesOne(rs: seq<Rutina>, id: int, k: int)
    requires 0 <= k < |rs| && rs[k].id == id
    requires forall i :: 0 <= i < |rs| && i != k ==> rs[i].id != id
    ensures |DeleteRutina(rs, id, true, true)| == |rs| - 1
    decreases |rs|
  {
    if k == 0 {
      Seqs.FilterAllPass(rs[1..], HasOtherId(id));
    } else {
      DeleteRemovesOne(rs[1..], id, k - 1);
    }
  }
}

=== FILE: rutinas_controller.dfy ===
/**
 * The routine endpoints (src/controllers/rutinasController.js): what each
 * handler answers and how it changes the tables. SQL text is not modelled,
 * only the rows each statement selects, inserts, updates or deletes.
 */
module RutinasController {
  import opened Wrappers
  import opened Domain
  import opened Tables
  import Seqs
  import Sorting

  datatype Reply = Reply(status: int, db: Db)

  // ---------------------------------------------------------------------------
  // GET /rutinas/:rutinaId/ejercicios

  /** `ORDER BY re.orden`: a total preorder, rows of equal `orden` tying. */
  function ByOrden(): (f: (RutinaEjercicioRow, RutinaEjercicioRow) -> bool)
    ensures Sorting.TotalPreorder(f)
    ensures forall a, b :: f(a, b) || f(b, a)
    ensures forall a, b :: f(a, b) && f(b, a) ==> a.orden == b.orden
  {
    (a: RutinaEjercicioRow, b: RutinaEjercicioRow) => a.orden <= b.orden
  }

  /** The rows the join returns: the routine's exercises whose catalogue entry exists. */
  function ListedFor(db: Db, rutinaId: int): RutinaEjercicioRow -> bool {
    (row: RutinaEjercicioRow) => row.rutinaId == rutinaId && EjercicioExists(db, row.ejercicioId)
  }

  datatype Listing = Listing(status: int, rows: seq<RutinaEjercicioRow>)

  function GetRutinaEjercicios(db: Db, rutinaId: int, userId: int): (r: Listing)
    ensures r.status == 404 <==> !Owns(db, rutinaId, userId)
    ensures r.status != 404 ==> r.status == 200
    ensures r.status == 404 ==> r.rows == []
    ensures r.status == 200 ==> Sorting.SortedBy(r.rows, ByOrden())
    ensures r.status == 200 ==> multiset(r.rows) == multiset(Seqs.Filter(db.rutinaEjercicios, ListedFor(db, rutinaId)))
  {
    if !Owns(db, rutinaId, userId) then Listing(404, [])
    else
      Listing(200, Sorting.SortBy(Seqs.Filter(db.rutinaEjercicios, ListedFor(db, rutinaId)), ByOrden()))
  }

  // ---------------------------------------------------------------------------
  // POST /rutinas

  /** One exercise of the creation request. */
  datatype NewItem = NewItem(ejercicioId: int, series: Option<int>, repsObjetivo: Option<int>)

  /** The creation request; an absent `ejercicios` is the empty sequence. */
  datatype CreateBody = CreateBody(nombre: Option<string>, dia: Option<string>, grupoMuscular: Option<string>, ejercicios: seq<NewItem>)

  datatype Created = Created(status: int, rutinaId: Option<int>, db: Db)

  predicate CreateBodyValid(b: CreateBody) {
    Present(b.nombre) && Present(b.dia) && Present(b.grupoMuscular)
  }

  /** The exercise rows inserted in the loop, `orden` counting from 1. */
  function ItemRows(items: seq<NewItem>, rutinaId: int, firstId: int): (rows: seq<RutinaEjercicioRow>)
    ensures |rows| == |items|
    ensures forall i :: 0 <= i < |items| ==>
      rows[i] == RutinaEjercicioRow(firstId + i, rutinaId, items[i].ejercicioId, Config(items[i].series, items[i].repsObjetivo, None, None, None), i + 1)
  {
    seq(|items|, i requires 0 <= i < |items| =>
      RutinaEjercicioRow(firstId + i, rutinaId, items[i].ejercicioId, Config(items[i].series, items[i].repsObjetivo, None, None, None), i + 1))
  }

  /**
   * `createRutina`. The statements run inside one transaction, in order:
   * 0 inserts the routine, 1 assigns it, 2 + i inserts the i-th exercise.
   * `failAt` names the statement that throws, if any; the rollback then
   * undoes every earlier one.
   */
  function CreateRutina(db: Db, userId: int, body: CreateBody, failAt: Option<nat>): (r: Created)
    ensures r.status == 400 <==> !CreateBodyValid(body)
    ensures r.status == 500 <==> CreateBodyValid(body) && failAt.Some? && failAt.value < 2 + |body.ejercicios|
    ensures r.status == 201 || r.status == 400 || r.status == 500
    ensures r.status != 201 ==> r.db == db && r.rutinaId.None?
    ensures r.status == 201 ==>
      && r.rutinaId.Some? && !RutinaExists(db, r.rutinaId.value)
      && r.db.rutinas == db.rutinas + [RutinaRow(r.rutinaId.value, body.nombre.value, body.dia.value, body.grupoMuscular.value)]
      && |r.db.asignaciones| == |db.asignaciones| + 1
      && r.db.asignaciones[..|db.asignaciones|] == db.asignaciones
      && r.db.asignaciones[|db.asignaciones|].rutinaId == r.rutinaId.value
      && r.db.asignaciones[|db.asignaciones|].usuarioId == userId
      && |r.db.rutinaEjercicios| == |db.rutinaEjercicios| + |body.ejercicios|
      && r.db.rutinaEjercicios[..|db.rutinaEjercicios|] == db.rutinaEjercicios
      && (forall i :: 0 <= i < |body.ejercicios| ==>
            && r.db.rutinaEjercicios[|db.rutinaEjercicios| + i].rutinaId == r.rutinaId.value
            && r.db.rutinaEjercicios[|db.rutinaEjercicios| + i].ejercicioId == body.ejercicios[i].ejercicioId
            && r.db.rutinaEjercicios[|db.rutinaEjercicios| + i].orden == i + 1)
      && r.db.ejercicios == db.ejercicios && r.db.entrenamientos == db.entrenamientos && r.db.detalles == db.detalles
  {
    if !CreateBodyValid(body) then Created(400, None, db)
    else if failAt.Some? && failAt.value < 2 + |body.ejercicios| then Created(500, None, db)
    else
      var id := NextId(Ids(db.rutinas, (r: RutinaRow) => r.id));
      var rows := ItemRows(body.ejercicios, id, NextId(Ids(db.rutinaEjercicios, (r: RutinaEjercicioRow) => r.id)));
      var asignacion := Asignacion(NextId(Ids(db.asignaciones, (a: Asignacion) => a.id)), id, userId);
      var db' := db.(
        rutinas := db.rutinas + [RutinaRow(id, body.nombre.value, body.dia.value, body.grupoMuscular.value)],
        asignaciones := db.asignaciones + [asignacion],
        rutinaEjercicios := db.rutinaEjercicios + rows);
      assert db'.rutinaEjercicios[..|db.rutinaEjercicios|] == db.rutinaEjercicios;
      assert db'.asignaciones[..|db.asignaciones|] == db.asignaciones;
      Created(201, Some(id), db')
  }

  /** The creator owns the routine just created. */
  lemma CreatedRutinaOwned(db: Db, userId: int, body: CreateBody, failAt: Option<nat>)
    requires CreateRutina(db, userId, body, failAt).status == 201
    ensures var r := CreateRutina(db, userId, body, failAt); Owns(r.db, r.rutinaId.value, userId)
  {
    var r := CreateRutina(db, userId, body, failAt);
    assert r.db.rutinas[|db.rutinas|].id == r.rutinaId.value;
    assert r.db.asignaciones[|db.asignaciones|].rutinaId == r.rutinaId.value;
  }

  /** Rows in strictly increasing `orden` are already in listing order. */
  lemma SortByOrdenFixed(rows: seq<RutinaEjercicioRow>)
    requires forall i, j :: 0 <= i < j < |rows| ==> rows[i].orden < rows[j].orden
    ensures Sorting.TotalPreorder(ByOrden()) && Sorting.SortBy(rows, ByOrden()) == rows
  {
    var sorted := Sorting.SortBy(rows, ByOrden());
    forall x, y | x in rows && y in rows && ByOrden()(x, y) && ByOrden()(y, x)
      ensures x == y
    {
      var i :| 0 <= i < |rows| && rows[i] == x;
      var j :| 0 <= j < |rows| && rows[j] == y;
      assert i == j;
    }
    Sorting.SortedUnique(rows, sorted, ByOrden());
  }

  /** When only the appended rows belong to the routine, they are exactly what the join returns. */
  lemma ListedFreshRows(db: Db, id: int, prior: seq<RutinaEjercicioRow>, rows: seq<RutinaEjercicioRow>)
    requires db.rutinaEjercicios == prior + rows
    requires forall i :: 0 <= i < |prior| ==> prior[i].rutinaId != id
    requires forall i :: 0 <= i < |rows| ==> rows[i].rutinaId == id && EjercicioExists(db, rows[i].ejercicioId)
    ensures Seqs.Filter(db.rutinaEjercicios, ListedFor(db, id)) == rows
  {
    var p := ListedFor(db, id);
    Seqs.FilterAppend(prior, rows, p);
    Seqs.FilterNonePass(prior, p);
    Seqs.FilterAllPass(rows, p);
    assert prior + rows == db.rutinaEjercicios;
  }

  /**
   * Round trip: right after creation, listing the routine's exercises
   * returns exactly the rows just inserted, in the order they were sent.
   */
  lemma CreatedExercisesListedInOrder(db: Db, userId: int, body: CreateBody, failAt: Option<nat>)
    requires RoutineKeysValid(db)
    requires forall i :: 0 <= i < |body.ejercicios| ==> EjercicioExists(db, body.ejercicios[i].ejercicioId)
    requires CreateRutina(db, userId, body, failAt).status == 201
    ensures var r := CreateRutina(db, userId, body, failAt);
      GetRutinaEjercicios(r.db, r.rutinaId.value, userId) == Listing(200, r.db.rutinaEjercicios[|db.rutinaEjercicios|..])
  {
    var r := CreateRutina(db, userId, body, failAt);
    var id := r.rutinaId.value;
    CreatedRutinaOwned(db, userId, body, failAt);
    var n := |db.rutinaEjercicios|;
    var rows := r.db.rutinaEjercicios[n..];
    assert r.db.rutinaEjercicios == db.rutinaEjercicios + rows;
    forall i | 0 <= i < n
      ensures db.rutinaEjercicios[i].rutinaId != id
    {
      assert RutinaExists(db, db.rutinaEjercicios[i].rutinaId);
    }
    forall i | 0 <= i < |rows|
      ensures rows[i].rutinaId == id && EjercicioExists(r.db, rows[i].ejercicioId) && rows[i].orden == i + 1
    {
      assert rows[i] == r.db.rutinaEjercicios[n + i];
    }
    ListedFreshRows(r.db, id, db.rutinaEjercicios, rows);
    SortByOrdenFixed(rows);
  }

  // ---------------------------------------------------------------------------
  // POST /rutinas/:rutinaId/ejercicios

  /** `SELECT MAX(orden)` over the routine's rows; `NULL` when it has none. */
  function MaxOrden(rows: seq<RutinaEjercicioRow>, rutinaId: int): (m: Option<int>)
    ensures m.None? <==> forall i :: 0 <= i < |rows| ==> rows[i].rutinaId != rutinaId
    ensures m.Some? ==> exists i :: 0 <= i < |rows| && rows[i].rutinaId == rutinaId && rows[i].orden == m.value
    ensures m.Some? ==> forall i :: 0 <= i < |rows| && rows[i].rutinaId == rutinaId ==> rows[i].orden <= m.value
  {
    if |rows| == 0 then None
    else
      var last := rows[|rows| - 1];
      var m := MaxOrden(rows[..|rows| - 1], rutinaId);
      assert forall i :: 0 <= i < |rows| - 1 ==> rows[..|rows| - 1][i] == rows[i];
      if last.rutinaId != rutinaId then m
      else if m.None? || m.value < last.orden then Some(last.orden)
      else m
  }

  /** `(max_orden || 0) + 1`: above every `orden` of the routine, and 1 for an empty routine. */
  function NextOrden(db: Db, rutinaId: int): (o: int)
    ensures forall i :: 0 <= i < |db.rutinaEjercicios| && db.rutinaEjercicios[i].rutinaId == rutinaId ==> db.rutinaEjercicios[i].orden < o
    ensures (forall i :: 0 <= i < |db.rutinaEjercicios| ==> db.rutinaEjercicios[i].rutinaId != rutinaId) ==> o == 1
  {
    OrElse(MaxOrden(db.rutinaEjercicios, rutinaId), 0) + 1
  }

  datatype AddBody = AddBody(ejercicioId: int, config: Config)

  function AddEjercicioToRutina(db: Db, rutinaId: int, userId: int, body: AddBody): (r: Reply)
    ensures r.status == 404 <==> !Owns(db, rutinaId, userId)
    ensures r.status != 404 ==> r.status == 201
    ensures r.status == 404 ==> r.db == db
    ensures r.status == 201 ==>
      && |r.db.rutinaEjercicios| == |db.rutinaEjercicios| + 1
      && r.db.rutinaEjercicios[..|db.rutinaEjercicios|] == db.rutinaEjercicios
      && r.db.(rutinaEjercicios := db.rutinaEjercicios) == db
    ensures r.status == 201 ==>
      var row := r.db.rutinaEjercicios[|db.rutinaEjercicios|];
      && row.rutinaId == rutinaId && row.ejercicioId == body.ejercicioId && row.config == body.config
      && (forall i :: 0 <= i < |db.rutinaEjercicios| ==> db.rutinaEjercicios[i].id != row.id)
      && (forall i :: 0 <= i < |db.rutinaEjercicios| && db.rutinaEjercicios[i].rutinaId == rutinaId ==>
            db.rutinaEjercicios[i].orden < row.orden)
  {
    if !Owns(db, rutinaId, userId) then Reply(404, db)
    else
      var ids := Ids(db.rutinaEjercicios, (r: RutinaEjercicioRow) => r.id);
      var row := RutinaEjercicioRow(NextId(ids), rutinaId, body.ejercicioId, body.config, NextOrden(db, rutinaId));
      var db' := db.(rutinaEjercicios := db.rutinaEjercicios + [row]);
      assert db'.rutinaEjercicios[..|db.rutinaEjercicios|] == db.rutinaEjercicios;
      Reply(201, db')
  }

  /** In an ordered sequence, an element above all the others comes last. */
  lemma GreatestComesLast(after: seq<RutinaEjercicioRow>, rest: seq<RutinaEjercicioRow>, row: RutinaEjercicioRow)
    requires Sorting.SortedBy(after, ByOrden())
    requires multiset(after) == multiset(rest) + multiset{row}
    requires forall i :: 0 <= i < |rest| ==> rest[i].orden < row.orden
    ensures |after| == |rest| + 1 && after[|after| - 1] == row
  {
    assert |after| == |multiset(after)| == |multiset(rest)| + 1 == |rest| + 1;
    var last := after[|after| - 1];
    assert row in multiset(after);
    var k :| 0 <= k < |after| && after[k] == row;
    assert row.orden <= last.orden by {
      if k < |after| - 1 {
        assert ByOrden()(after[k], last);
      }
    }
    assert last in multiset(after);
    assert last == row || last in multiset(rest);
    assert last in multiset(rest) ==> last in rest;
  }

  /** Appending a listed row of the routine appends it to what the join returns. */
  lemma ListedAfterAppend(db: Db, db': Db, id: int, row: RutinaEjercicioRow)
    requires db'.rutinaEjercicios == db.rutinaEjercicios + [row] && db'.ejercicios == db.ejercicios
    requires row.rutinaId == id && EjercicioExists(db, row.ejercicioId)
    ensures Seqs.Filter(db'.rutinaEjercicios, ListedFor(db', id)) == Seqs.Filter(db.rutinaEjercicios, ListedFor(db, id)) + [row]
  {
    var p := ListedFor(db, id);
    var p' := ListedFor(db', id);
    Seqs.FilterCongruent(db.rutinaEjercicios, p', p);
    Seqs.FilterAppend(db.rutinaEjercicios, [row], p');
    assert Seqs.Filter([row], p') == [row];
  }

  /** An added exercise is listed last, after every exercise the routine had. */
  lemma AddedExerciseListedLast(db: Db, rutinaId: int, userId: int, body: AddBody)
    requires Owns(db, rutinaId, userId) && EjercicioExists(db, body.ejercicioId)
    ensures var r := AddEjercicioToRutina(db, rutinaId, userId, body);
      var before := GetRutinaEjercicios(db, rutinaId, userId).rows;
      var after := GetRutinaEjercicios(r.db, rutinaId, userId).rows;
      && |after| == |before| + 1
      && after[|after| - 1] == r.db.rutinaEjercicios[|db.rutinaEjercicios|]
  {
    var r := AddEjercicioToRutina(db, rutinaId, userId, body);
    var row := r.db.rutinaEjercicios[|db.rutinaEjercicios|];
    assert r.db.rutinaEjercicios == db.rutinaEjercicios + [row];
    ListedAfterAppend(db, r.db, rutinaId, row);
    var rest := Seqs.Filter(db.rutinaEjercicios, ListedFor(db, rutinaId));
    forall i | 0 <= i < |rest|
      ensures rest[i].orden < row.orden
    {
      assert rest[i] in db.rutinaEjercicios;
    }
    var before := GetRutinaEjercicios(db, rutinaId, userId).rows;
    assert |before| == |multiset(before)| == |rest|;
    GreatestComesLast(GetRutinaEjercicios(r.db, rutinaId, userId).rows, rest, row);
  }

  // ---------------------------------------------------------------------------
  // PUT and DELETE /rutinas/:rutinaId/ejercicios/:ejercicioId

  function Matches(rutinaId: int, ejercicioId: int): RutinaEjercicioRow -> bool {
    (row: RutinaEjercicioRow) => row.rutinaId == rutinaId && row.ejercicioId == ejercicioId
  }

  function Unmatched(rutinaId: int, ejercicioId: int): RutinaEjercicioRow -> bool {
    (row: RutinaEjercicioRow) => !(row.rutinaId == rutinaId && row.ejercicioId == ejercicioId)
  }

  predicate AnyMatch(rows: seq<RutinaEjercicioRow>, rutinaId: int, ejercicioId: int) {
    exists i :: 0 <= i < |rows| && rows[i].rutinaId == rutinaId && rows[i].ejercicioId == ejercicioId
  }

  /**
   * `updateEjercicioInRutina`: the five configuration columns of the matching
   * rows are overwritten; `affectedRows` counts matched rows, so an update
   * that matches but changes nothing still answers 200.
   */
  function UpdateEjercicioInRutina(db: Db, rutinaId: int, ejercicioId: int, userId: int, cfg: Config): (r: Reply)
    ensures r.status == 404 <==> !Owns(db, rutinaId, userId) || !AnyMatch(db.rutinaEjercicios, rutinaId, ejercicioId)
    ensures r.status != 404 ==> r.status == 200
    ensures r.status == 404 ==> r.db == db
    ensures r.status == 200 ==>
      && r.db.(rutinaEjercicios := db.rutinaEjercicios) == db
      && |r.db.rutinaEjercicios| == |db.rutinaEjercicios|
      && forall i :: 0 <= i < |db.rutinaEjercicios| ==>
           var before := db.rutinaEjercicios[i];
           var after := r.db.rutinaEjercicios[i];
           && after.id == before.id && after.rutinaId == before.rutinaId
           && after.ejercicioId == before.ejercicioId && after.orden == before.orden
           && after.config == (if before.rutinaId == rutinaId && before.ejercicioId == ejercicioId then cfg else before.config)
  {
    if !Owns(db, rutinaId, userId) || !AnyMatch(db.rutinaEjercicios, rutinaId, ejercicioId) then Reply(404, db)
    else
      var t := db.rutinaEjercicios;
      Reply(200, db.(rutinaEjercicios := seq(|t|, i requires 0 <= i < |t| =>
        if t[i].rutinaId == rutinaId && t[i].ejercicioId == ejercicioId then t[i].(config := cfg) else t[i])))
  }

  /** Sending the same configuration twice leaves what the first one left. */
  lemma UpdateIdempotent(db: Db, rutinaId: int, ejercicioId: int, userId: int, cfg: Config)
    requires UpdateEjercicioInRutina(db, rutinaId, ejercicioId, userId, cfg).status == 200
    ensures var once := UpdateEjercicioInRutina(db, rutinaId, ejercicioId, userId, cfg);
      UpdateEjercicioInRutina(once.db, rutinaId, ejercicioId, userId, cfg) == once
  {
    var once := UpdateEjercicioInRutina(db, rutinaId, ejercicioId, userId, cfg);
    assert once.db.rutinas == db.rutinas && once.db.asignaciones == db.asignaciones;
    var i :| 0 <= i < |db.rutinaEjercicios| && db.rutinaEjercicios[i].rutinaId == rutinaId && db.rutinaEjercicios[i].ejercicioId == ejercicioId;
    assert once.db.rutinaEjercicios[i].rutinaId == rutinaId;
    var twice := UpdateEjercicioInRutina(once.db, rutinaId, ejercicioId, userId, cfg);
    assert twice.db.rutinaEjercicios == once.db.rutinaEjercicios;
  }

  /** `removeEjercicioFromRutina`: every matching row is deleted. */
  function RemoveEjercicioFromRutina(db: Db, rutinaId: int, ejercicioId: int, userId: int): (r: Reply)
    ensures r.status == 404 <==> !Owns(db, rutinaId, userId) || !AnyMatch(db.rutinaEjercicios, rutinaId, ejercicioId)
    ensures r.status != 404 ==> r.status == 200
    ensures r.status == 404 ==> r.db == db
    ensures r.status == 200 ==>
      && r.db.(rutinaEjercicios := db.rutinaEjercicios) == db
      && Seqs.Subseq(r.db.rutinaEjercicios, db.rutinaEjercicios)
      && |r.db.rutinaEjercicios| < |db.rutinaEjercicios|
      && !AnyMatch(r.db.rutinaEjercicios, rutinaId, ejercicioId)
      && forall i :: 0 <= i < |db.rutinaEjercicios| && !Matches(rutinaId, ejercicioId)(db.rutinaEjercicios[i]) ==>
           db.rutinaEjercicios[i] in r.db.rutinaEjercicios
  {
    if !Owns(db, rutinaId, userId) || !AnyMatch(db.rutinaEjercicios, rutinaId, ejercicioId) then Reply(404, db)
    else
      var kept := Seqs.Filter(db.rutinaEjercicios, Unmatched(rutinaId, ejercicioId));
      var i :| 0 <= i < |db.rutinaEjercicios| && Matches(rutinaId, ejercicioId)(db.rutinaEjercicios[i]);
      Seqs.FilterCount(db.rutinaEjercicios, Unmatched(rutinaId, ejercicioId));
      Seqs.CountBelowLength(db.rutinaEjercicios, Unmatched(rutinaId, ejercicioId), i);
      Reply(200, db.(rutinaEjercicios := kept))
  }

  /** Removing the same exercise again finds nothing and changes nothing. */
  lemma RemoveTwice(db: Db, rutinaId: int, ejercicioId: int, userId: int)
    requires RemoveEjercicioFromRutina(db, rutinaId, ejercicioId, userId).status == 200
    ensures var once := RemoveEjercicioFromRutina(db, rutinaId, ejercicioId, userId);
      RemoveEjercicioFromRutina(once.db, rutinaId, ejercicioId, userId) == Reply(404, once.db)
  {
  }

  // ---------------------------------------------------------------------------
  // DELETE /rutinas/:rutinaId

  function OtherRutina(rutinaId: int): RutinaRow -> bool {
    (row: RutinaRow) => row.id != rutinaId
  }

  /** `deleteRutina`: access is the assignment alone, without the join on `rutinas`. */
  function DeleteRutina(db: Db, rutinaId: int, userId: int): (r: Reply)
    ensures r.status == 403 <==> !AssignedTo(db, rutinaId, userId)
    ensures r.status != 403 ==> r.status == 200
    ensures r.status == 403 ==> r.db == db
    ensures r.status == 200 ==>
      && r.db.(rutinas := db.rutinas) == db
      && !RutinaExists(r.db, rutinaId)
      && Seqs.Subseq(r.db.rutinas, db.rutinas)
      && forall i :: 0 <= i < |db.rutinas| && db.rutinas[i].id != rutinaId ==> db.rutinas[i] in r.db.rutinas
  {
    if !AssignedTo(db, rutinaId, userId) then Reply(403, db)
    else Reply(200, db.(rutinas := Seqs.Filter(db.rutinas, OtherRutina(rutinaId))))
  }

  /** Once deleted, the routine's exercises are not found for anyone. */
  lemma DeletedRoutineNotFound(db: Db, rutinaId: int, userId: int, anyUser: int)
    requires DeleteRutina(db, rutinaId, userId).status == 200
    ensures GetRutinaEjercicios(DeleteRutina(db, rutinaId, userId).db, rutinaId, anyUser).status == 404
  {
  }
}

=== FILE: seqs.dfy ===
/** Sequence helpers shared by the list pages and the controllers. */
module Seqs {

  /** `a` is an order-preserving subsequence of `b`. */
  ghost predicate Subseq<T>(a: seq<T>, b: seq<T>)
    decreases |b|
  {
    || |a| == 0
    || (&& |b| > 0
        && ((a[0] == b[0] && Subseq(a[1..], b[1..])) || Subseq(a, b[1..])))
  }

  lemma {:induction false} SubseqLength<T>(a: seq<T>, b: seq<T>)
    requires Subseq(a, b)
    ensures |a| <= |b|
    decreases |b|
  {
    if |a| > 0 {
      if a[0] == b[0] && Subseq(a[1..], b[1..]) {
        SubseqLength(a[1..], b[1..]);
      } else {
        SubseqLength(a, b[1..]);
      }
    }
  }

  /** `Array.prototype.filter`: the elements of `s` that satisfy `p`, in order. */
  function Filter<T>(s: seq<T>, p: T -> bool): (r: seq<T>)
    ensures |r| <= |s|
    ensures Subseq(r, s)
    ensures forall i :: 0 <= i < |r| ==> p(r[i])
    ensures forall i :: 0 <= i < |r| ==> r[i] in s
    ensures forall i :: 0 <= i < |s| && p(s[i]) ==> s[i] in r
    decreases |s|
  {
    if |s| == 0 then []
    else if p(s[0]) then
      var rest := Filter(s[1..], p);
      assert s == [s[0]] + s[1..];
      [s[0]] + rest
    else
      var rest := Filter(s[1..], p);
      assert s == [s[0]] + s[1..];
      rest
  }

  /** Filtering keeps a sequence whose every element already passes. */
  lemma {:induction false} FilterAllPass<T>(s: seq<T>, p: T -> bool)
    requires forall i :: 0 <= i < |s| ==> p(s[i])
    ensures Filter(s, p) == s
    decreases |s|
  {
    if |s| > 0 {
      FilterAllPass(s[1..], p);
    }
  }

  /** Filtering twice by the same predicate is filtering once. */
  lemma FilterIdempotent<T>(s: seq<T>, p: T -> bool)
    ensures Filter(Filter(s, p), p) == Filter(s, p)
  {
    FilterAllPass(Filter(s, p), p);
  }

  /** Filtering by a conjunction is filtering by one conjunct, then the other. */
  lemma {:induction false} FilterThenFilter<T>(s: seq<T>, p: T -> bool, q: T -> bool, pq: T -> bool)
    requires forall x :: pq(x) == (p(x) && q(x))
    ensures Filter(Filter(s, p), q) == Filter(s, pq)
    decreases |s|
  {
    if |s| > 0 {
      FilterThenFilter(s[1..], p, q, pq);
    }
  }

  /** Number of elements of `s` that satisfy `p`. */
  function Count<T>(s: seq<T>, p: T -> bool): (n: nat)
    ensures n <= |s|
    ensures n == 0 <==> forall i :: 0 <= i < |s| ==> !p(s[i])
    decreases |s|
  {
    if |s| == 0 then 0
    else (if p(s[0]) then 1 else 0) + Count(s[1..], p)
  }

  lemma {:induction false} FilterCount<T>(s: seq<T>, p: T -> bool)
    ensures |Filter(s, p)| == Count(s, p)
    decreases |s|
  {
    if |s| > 0 {
      FilterCount(s[1..], p);
    }
  }

  lemma {:induction false} CountAppend<T>(a: seq<T>, b: seq<T>, p: T -> bool)
    ensures Count(a + b, p) == Count(a, p) + Count(b, p)
    decreases |a|
  {
    if |a| > 0 {
      assert (a + b)[1..] == a[1..] + b;
      CountAppend(a[1..], b, p);
    } else {
      assert a + b == b;
    }
  }

  /** Filters by pointwise-equal predicates agree. */
  lemma {:induction false} FilterCongruent<T>(s: seq<T>, p: T -> bool, q: T -> bool)
    requires forall i :: 0 <= i < |s| ==> p(s[i]) == q(s[i])
    ensures Filter(s, p) == Filter(s, q)
    decreases |s|
  {
    if |s| > 0 {
      FilterCongruent(s[1..], p, q);
    }
  }

  /** Filtering distributes over concatenation. */
  lemma {:induction false} FilterAppend<T>(a: seq<T>, b: seq<T>, p: T -> bool)
    ensures Filter(a + b, p) == Filter(a, p) + Filter(b, p)
    decreases |a|
  {
    if |a| > 0 {
      assert (a + b)[1..] == a[1..] + b;
      FilterAppend(a[1..], b, p);
    } else {
      assert a + b == b;
    }
  }

  /** Filtering a sequence none of whose elements passes leaves nothing. */
  lemma {:induction false} FilterNonePass<T>(s: seq<T>, p: T -> bool)
    requires forall i :: 0 <= i < |s| ==> !p(s[i])
    ensures Filter(s, p) == []
    decreases |s|
  {
    if |s| > 0 {
      FilterNonePass(s[1..], p);
    }
  }

  /** Fewer elements pass than there are, when one fails. */
  lemma {:induction false} CountBelowLength<T>(s: seq<T>, p: T -> bool, i: int)
    requires 0 <= i < |s| && !p(s[i])
    ensures Count(s, p) < |s|
    decreases |s|
  {
    if i > 0 {
      CountBelowLength(s[1..], p, i - 1);
    }
  }

  /** Permutations of each other have the same members. */
  lemma SameMembers<T>(a: seq<T>, b: seq<T>)
    requires multiset(a) == multiset(b)
    ensures forall i :: 0 <= i < |a| ==> a[i] in b
    ensures forall i :: 0 <= i < |b| ==> b[i] in a
  {
    forall i | 0 <= i < |a|
      ensures a[i] in b
    {
      assert a[i] in multiset(a);
    }
    forall i | 0 <= i < |b|
      ensures b[i] in a
    {
      assert b[i] in multiset(b);
    }
  }
}

=== FILE: server.dfy ===
/**
 * The request-level decisions of the Express server (backend/src/server.js):
 * which browser origins the CORS policy admits, the fallback for unknown
 * routes, and the status the global error handler answers with.
 */
module Server {
  import opened Wrappers
  import opened Text
  import opened Domain

  /** `process.env.NODE_ENV`, with `None` when it is unset. */
  predicate IsProduction(nodeEnv: Option<string>) {
    nodeEnv == Some("production")
  }

  /** The only origin configured for production. */
  const ProductionOrigins: seq<string> := ["https://tudominio.com"]

  /** The origins the development policy lists one by one. */
  const DevelopmentOrigins: seq<string> := [
    "http://localhost:5173", "http://localhost:5174", "http://localhost:5175",
    "http://127.0.0.1:5173", "http://127.0.0.1:5174", "http://127.0.0.1:5175",
    "http://192.168.1.3:5173", "http://192.168.1.3:5174", "http://192.168.1.3:5175"]

  // ---------------------------------------------------------------------------
  // The local-network pattern /^http:\/\/192\.168\.1\.\d{1,3}:(5173|5174|5175)$/

  const LanPrefix: string := "http://192.168.1."

  /** `(5173|5174|5175)`: the ports the development server may use. */
  predicate IsDevPort(port: string) {
    port == "5173" || port == "5174" || port == "5175"
  }

  /** The origin built from a host octet and a port. */
  function LanOrigin(octet: string, port: string): string {
    LanPrefix + octet + ":" + port
  }

  /** What the pattern describes: the prefix, one to three digits, a colon and a development port, and nothing else. */
  ghost predicate LanShaped(origin: string) {
    exists octet: string, port: string ::
      1 <= |octet| <= 3 && AllDigits(octet) && IsDevPort(port) && origin == LanOrigin(octet, port)
  }

  lemma {:induction false} LeadingDigitsOfDigitsThenColon(d: string, rest: string)
    requires AllDigits(d)
    ensures LeadingDigits(d + ":" + rest) == |d|
    decreases |d|
  {
    var s := d + ":" + rest;
    if |d| == 0 {
      assert s[0] == ':';
    } else {
      assert s[1..] == d[1..] + ":" + rest;
      LeadingDigitsOfDigitsThenColon(d[1..], rest);
    }
  }

  /** An origin of the pattern's shape splits into its octet and port in one way only. */
  lemma LanOriginInjective(octet: string, port: string, octet': string, port': string)
    requires AllDigits(octet) && AllDigits(octet')
    requires LanOrigin(octet, port) == LanOrigin(octet', port')
    ensures octet == octet' && port == port'
  {
    var o := LanOrigin(octet, port);
    assert o[|LanPrefix|..] == octet + ":" + port;
    assert o[|LanPrefix|..] == octet' + ":" + port';
    LeadingDigitsOfDigitsThenColon(octet, port);
    LeadingDigitsOfDigitsThenColon(octet', port');
    assert octet == (octet + ":" + port)[..|octet|];
    assert octet' == (octet' + ":" + port')[..|octet'|];
    assert port == (octet + ":" + port)[|octet| + 1..];
    assert port' == (octet' + ":" + port')[|octet'| + 1..];
  }

  /** Given digits for the octet, the shape holds exactly when there are one to three of them and the port is a development port. */
  lemma LanShapedExactly(octet: string, port: string)
    requires AllDigits(octet)
    ensures LanShaped(LanOrigin(octet, port)) <==> 1 <= |octet| <= 3 && IsDevPort(port)
  {
    if LanShaped(LanOrigin(octet, port)) {
      var o', p' :| 1 <= |o'| <= 3 && AllDigits(o') && IsDevPort(p') && LanOrigin(octet, port) == LanOrigin(o', p');
      LanOriginInjective(octet, port, o', p');
    }
  }

  /** `localNetworkRegex.test(origin)`, matching the anchored pattern left to right. */
  function LanPatternTest(origin: string): (b: bool)
    ensures b <==> LanShaped(origin)
  {
    var k := |LanPrefix|;
    if |origin| < k || origin[..k] != LanPrefix then
      false
    else
      var rest := origin[k..];
      var n := LeadingDigits(rest);
      var ok := 1 <= n <= 3 && n < |rest| && rest[n] == ':' && IsDevPort(rest[n + 1..]);
      assert origin == LanPrefix + rest;
      assert ok ==> LanShaped(origin) by {
        if ok {
          assert rest == rest[..n] + ":" + rest[n + 1..];
          assert origin == LanOrigin(rest[..n], rest[n + 1..]);
        }
      }
      assert LanShaped(origin) ==> ok by {
        if LanShaped(origin) {
          var octet, port :| 1 <= |octet| <= 3 && AllDigits(octet) && IsDevPort(port) && origin == LanOrigin(octet, port);
          assert rest == octet + ":" + port;
          LeadingDigitsOfDigitsThenColon(octet, port);
          assert rest[n + 1..] == port;
        }
      }
      ok
  }

  // ---------------------------------------------------------------------------
  // The CORS policy

  /**
   * What the CORS middleware does with a request: admit its origin, answer
   * without admitting it (the production list), or fail the request with
   * the "No permitido por CORS" error (the development callback).
   */
  datatype CorsVerdict = Admitted | NotAdmitted | Refused

  /** `!origin`: no `Origin` header, or an empty one. */
  predicate NoOrigin(origin: Option<string>) {
    !Present(origin)
  }

  function Cors(nodeEnv: Option<string>, origin: Option<string>): (v: CorsVerdict)
    ensures IsProduction(nodeEnv) ==> v != Refused
    ensures IsProduction(nodeEnv) ==> (v == Admitted <==> origin == Some("https://tudominio.com"))
    ensures !IsProduction(nodeEnv) ==> v != NotAdmitted
    ensures !IsProduction(nodeEnv) ==>
      (v == Admitted <==> NoOrigin(origin) || origin.value in DevelopmentOrigins || LanShaped(origin.value))
  {
    if IsProduction(nodeEnv) then
      if origin.Some? && origin.value in ProductionOrigins then Admitted else NotAdmitted
    else if NoOrigin(origin) then Admitted
    else if origin.value in DevelopmentOrigins || LanPatternTest(origin.value) then Admitted
    else Refused
  }

  /** Example: every listed address on the 192.168.1 network is already admitted by the pattern. */
  lemma ListedLanOriginsMatchPattern()
    ensures LanPatternTest("http://192.168.1.3:5173")
    ensures LanPatternTest("http://192.168.1.3:5174")
    ensures LanPatternTest("http://192.168.1.3:5175")
  {
    assert "http://192.168.1.3:5173" == LanOrigin("3", "5173");
    assert "http://192.168.1.3:5174" == LanOrigin("3", "5174");
    assert "http://192.168.1.3:5175" == LanOrigin("3", "5175");
  }

  /** Example: the pattern admits any three digits, including ones that are not an address octet. */
  lemma PatternAdmitsAnyThreeDigits()
    ensures LanPatternTest("http://192.168.1.999:5175")
  {
    assert "http://192.168.1.999:5175" == LanOrigin("999", "5175");
  }

  /** Examples: four digits, or a port with anything after it, fall outside the pattern. */
  lemma PatternRejections()
    ensures !LanPatternTest(LanOrigin("1234", "5173"))
    ensures !LanPatternTest(LanOrigin("20", "5176"))
    ensures !LanPatternTest(LanOrigin("20", "5173/"))
    ensures !LanPatternTest(LanOrigin("", "5173"))
  {
    LanShapedExactly("1234", "5173");
    LanShapedExactly("20", "5176");
    LanShapedExactly("20", "5173/");
    LanShapedExactly("", "5173");
  }

  /** An origin that differs from `http://192.168.1.` within its first 17 characters, such as `https://...` or `http://192.168.2.x`, is outside the pattern. */
  lemma OtherSchemeOrSubnetRejected(origin: string, k: int)
    requires 0 <= k < |LanPrefix| && k < |origin| && origin[k] != LanPrefix[k]
    ensures !LanPatternTest(origin)
  {
  }

  /** Examples: https, and another subnet, fall outside the pattern. */
  lemma HttpsAndOtherSubnetRejected()
    ensures !LanPatternTest("https://192.168.1.20:5173")
    ensures !LanPatternTest("http://192.168.2.20:5173")
  {
    OtherSchemeOrSubnetRejected("https://192.168.1.20:5173", 4);
    OtherSchemeOrSubnetRejected("http://192.168.2.20:5173", 15);
  }

  // ---------------------------------------------------------------------------
  // Fallback and error handler

  datatype Reply = Reply(status: int, message: string, path: Option<string>)

  /** `app.use('*', ...)`: any route no router handled. */
  function NotFound(originalUrl: string): (r: Reply)
    ensures r.status == 404 && r.path == Some(originalUrl)
  {
    Reply(404, "Ruta no encontrada", Some(originalUrl))
  }

  /** An error reaching the global handler: its `status` and `message`, either possibly missing or falsy. */
  datatype AppError = AppError(status: Option<int>, message: Option<string>)

  /** The global error handler: the error's own status when truthy, else 500. */
  function HandleError(e: AppError): (r: Reply)
    ensures Truthy(e.status) ==> r.status == e.status.value
    ensures !Truthy(e.status) ==> r.status == 500
    ensures r.message == (if Present(e.message) then e.message.value else "Error interno del servidor")
    ensures r.path.None?
  {
    Reply(OrElse(e.status, 500), if Present(e.message) then e.message.value else "Error interno del servidor", None)
  }

  // ---------------------------------------------------------------------------
  // The pipeline

  /** What the routers do with a request that passed CORS; a parameter, as their handlers are modelled elsewhere. */
  datatype Routed = Answered(reply: Reply) | NoRoute | Threw(error: AppError)

  /**
   * The answer, and whether it carries `Access-Control-Allow-Origin`. The
   * `cors` package echoes the request's `Origin` into that header, so an
   * admitted request without an `Origin` (or with an empty one) gets none.
   */
  datatype Served = Served(reply: Reply, allowOrigin: bool)

  const CorsErrorMessage: string := "No permitido por CORS"

  /**
   * A request through the middleware chain: CORS first; a refused origin
   * skips the routers and reaches the error handler with an error that has
   * a message but no status; otherwise the routers answer, or the fallback
   * answers 404, or a thrown error reaches the error handler.
   */
  function Serve(nodeEnv: Option<string>, origin: Option<string>, originalUrl: string, routed: Routed): (s: Served)
    ensures Cors(nodeEnv, origin) == Refused ==> s == Served(Reply(500, CorsErrorMessage, None), false)
    ensures Cors(nodeEnv, origin) != Refused ==>
      && (s.allowOrigin <==> Cors(nodeEnv, origin) == Admitted && Present(origin))
      && (routed.Answered? ==> s.reply == routed.reply)
      && (routed.NoRoute? ==> s.reply == NotFound(originalUrl))
      && (routed.Threw? ==> s.reply == HandleError(routed.error))
  {
    match Cors(nodeEnv, origin)
    case Refused => Served(HandleError(AppError(None, Some(CorsErrorMessage))), false)
    case verdict =>
      var reply := match routed
        case Answered(r) => r
        case NoRoute => NotFound(originalUrl)
        case Threw(e) => HandleError(e);
      Served(reply, verdict == Admitted && Present(origin))
  }

  /** The routers never answer 500 themselves and their errors carry another status. */
  predicate NeverFails(routed: Routed) {
    match routed
    case Answered(r) => r.status != 500
    case NoRoute => true
    case Threw(e) => Truthy(e.status) && e.status.value != 500
  }

  /**
   * When the routers never produce a 500, a request is answered 500 exactly
   * when CORS refuses its origin, which happens only outside production.
   */
  lemma RefusedIffServerError(nodeEnv: Option<string>, origin: Option<string>, originalUrl: string, routed: Routed)
    requires NeverFails(routed)
    ensures Serve(nodeEnv, origin, originalUrl, routed).reply.status == 500 <==> Cors(nodeEnv, origin) == Refused
    ensures Serve(nodeEnv, origin, originalUrl, routed).reply.status == 500 ==> !IsProduction(nodeEnv)
  {
  }
}

=== FILE: session.dfy ===
/**
 * The workout-session page (src/pages/IniciarEntrenamiento.jsx) as a record
 * of its React state and pure transitions: recording a series, resting,
 * advancing to the next series or exercise, and closing the session.
 * Calls to the API are parameters: whether the call succeeded, the id of
 * the session row the start created (or none when that call failed), and
 * for the closing update the timestamp it carries.
 */
module WorkoutSession {
  import opened Wrappers
  import opened Domain
  import opened RestCountdown
  import opened NumberInput
  import RoutineStats
  import Tables
  import EntrenamientosController

  /** The series being entered (`setData`); the repetitions are a number input. */
  datatype SetData = SetData(repeticiones: Field, peso: string, notas: string, completado: bool)

  /** One recorded series, as posted to `/entrenamiento-detalles`. */
  datatype Detalle = Detalle(
    entrenamientoId: int,
    ejercicioId: int,
    serieNumero: int,
    repeticiones: Option<int>,   // parseInt of the field; None is NaN
    peso: Option<string>,
    notas: string)

  datatype SessionError = StartFailed | MissingReps | SaveFailed | FinalizeFailed

  /** The body of the closing `PUT /entrenamientos/:id`. */
  datatype Closing = Closing(fechaFin: string, notasGenerales: string)

  datatype Session = Session(
    ejercicios: seq<RoutineExercise>,
    entrenamiento: Option<int>,  // the created session row's id; None while `entrenamiento` is null
    index: int,                  // currentEjercicioIndex
    serie: int,                  // currentSerie, 1-based
    setData: SetData,
    completados: set<int>,       // ejercicioCompletado
    detalles: seq<Detalle>,      // detallesEntrenamiento
    notaGeneral: string,
    timer: Countdown,
    error: Option<SessionError>,
    closed: Option<Closing>)     // the session was closed and the page left

  // ---------------------------------------------------------------------------
  // The plan of series

  /** How many series the page records for an exercise: its `series`, and never fewer than one. */
  function SeriesToDo(e: RoutineExercise): (n: int)
    ensures n >= 1
    ensures e.series >= 1 ==> n == e.series
  {
    if e.series < 1 then 1 else e.series
  }

  /** A recorded series identified by exercise and series number. */
  type Key = (int, int)

  /** `(id, from), (id, from + 1), ..., (id, to - 1)`. */
  function SeriesKeys(id: int, from: int, to: int): (r: seq<Key>)
    ensures |r| == if to > from then to - from else 0
    ensures forall k :: 0 <= k < |r| ==> r[k] == (id, from + k)
  {
    seq(if to > from then to - from else 0, k => (id, from + k))
  }

  lemma SeriesKeysSnoc(id: int, from: int, to: int)
    requires from <= to
    ensures SeriesKeys(id, from, to + 1) == SeriesKeys(id, from, to) + [(id, to)]
  {
  }

  /** Every series of every exercise, in the order the page walks through them. */
  function AllSeries(es: seq<RoutineExercise>): seq<Key>
    decreases |es|
  {
    if |es| == 0 then []
    else AllSeries(es[..|es| - 1]) + SeriesKeys(es[|es| - 1].ejercicioId, 1, SeriesToDo(es[|es| - 1]) + 1)
  }

  lemma AllSeriesSnoc(es: seq<RoutineExercise>, i: int)
    requires 0 <= i < |es|
    ensures AllSeries(es[..i + 1])
         == AllSeries(es[..i]) + SeriesKeys(es[i].ejercicioId, 1, SeriesToDo(es[i]) + 1)
  {
    assert es[..i + 1][..i] == es[..i];
  }

  function Keys(ds: seq<Detalle>): (r: seq<Key>)
    ensures |r| == |ds|
  {
    seq(|ds|, i requires 0 <= i < |ds| => (ds[i].ejercicioId, ds[i].serieNumero))
  }

  lemma KeysSnoc(ds: seq<Detalle>, d: Detalle)
    ensures Keys(ds + [d]) == Keys(ds) + [(d.ejercicioId, d.serieNumero)]
  {
  }

  function Current(s: Session): RoutineExercise
    requires 0 <= s.index < |s.ejercicios|
  {
    s.ejercicios[s.index]
  }

  /** The series a session in state `s` has recorded so far, by the plan. */
  function Done(s: Session): seq<Key>
    requires 0 <= s.index < |s.ejercicios|
  {
    var id := Current(s).ejercicioId;
    AllSeries(s.ejercicios[..s.index]) + SeriesKeys(id, 1, s.serie)
      + (if s.setData.completado then [(id, s.serie)] else [])
  }

  /**
   * The invariant of the page: the exercise index is in range; the series
   * number is between 1 and the exercise's series; exercises before the
   * current one are marked complete; a rest countdown runs only after a
   * series was recorded and before the exercise's last one; the recorded
   * series are exactly those the plan has reached, in order; and a closed
   * session has a session row and stopped on the last series of the last
   * exercise.
   */
  ghost predicate Valid(s: Session) {
    && 0 <= s.index < |s.ejercicios|
    && 1 <= s.serie <= SeriesToDo(Current(s))
    && (forall k :: 0 <= k < s.index ==> k in s.completados)
    && (forall k :: k in s.completados ==> 0 <= k <= s.index)
    && (s.timer.active ==> s.setData.completado && s.serie < Current(s).series)
    && Keys(s.detalles) == Done(s)
    && InputValue(s.setData.repeticiones)
    && (s.closed.Some? ==>
          s.entrenamiento.Some? && s.index == |s.ejercicios| - 1 && s.serie == SeriesToDo(Current(s)) && s.setData.completado)
  }

  // ---------------------------------------------------------------------------
  // Handlers

  /** The fields pre-filled for an exercise's first series. */
  function FirstSeriesData(e: RoutineExercise): (d: SetData)
    ensures !d.completado && d.notas == ""
    ensures !Falsy(d.repeticiones) <==> Truthy(e.repeticiones)
    ensures d.peso == OrEmpty(e.pesoSugerido)
  {
    SetData(FieldOf(e.repeticiones), OrEmpty(e.pesoSugerido), "", false)
  }

  /**
   * The state once `fetchData` has loaded the routine's exercises and tried
   * to create the session row: `entrenamiento` is the created row's id, or
   * `None` when the POST failed, in which case the catch sets the error and
   * the page still shows the exercises.
   */
  function Begin(ejercicios: seq<RoutineExercise>, entrenamiento: Option<int>): (s: Session)
    ensures s.index == 0 && s.serie == 1 && s.detalles == [] && !s.timer.active && s.closed.None?
    ensures s.entrenamiento == entrenamiento
    ensures s.error.Some? <==> entrenamiento.None?
    ensures entrenamiento.None? ==> s.error == Some(StartFailed)
    ensures |ejercicios| > 0 ==> Valid(s) && s.setData == FirstSeriesData(ejercicios[0])
  {
    Session(ejercicios, entrenamiento, 0, 1,
      if |ejercicios| > 0 then FirstSeriesData(ejercicios[0]) else SetData(Typed(""), "", "", false),
      {}, [], "", Idle, if entrenamiento.None? then Some(StartFailed) else None, None)
  }

  /** `!repeticiones || repeticiones < 1` rejects the entry. */
  predicate RepsAccepted(reps: Field) {
    Passes(reps, 1)
  }

  /** The detail `handleCompletarSerie` posts for the current series of a created session. */
  function SeriesRecord(s: Session): (d: Detalle)
    requires 0 <= s.index < |s.ejercicios|
    requires RepsAccepted(s.setData.repeticiones) && s.entrenamiento.Some?
    ensures d.entrenamientoId == s.entrenamiento.value
    ensures d.ejercicioId == Current(s).ejercicioId && d.serieNumero == s.serie
    ensures InputValue(s.setData.repeticiones) && NoExponent(s.setData.repeticiones) ==>
      d.repeticiones.Some? && d.repeticiones.value >= 1
    ensures d.peso.Some? <==> s.setData.peso != ""
  {
    var f := s.setData.repeticiones;
    assert InputValue(f) && NoExponent(f) ==> ParseIntField(f).Some? && ParseIntField(f).value >= 1 by {
      if InputValue(f) && NoExponent(f) {
        PassedAtLeast(f, 1);
      }
    }
    Detalle(s.entrenamiento.value, Current(s).ejercicioId, s.serie, ParseIntField(s.setData.repeticiones),
      if s.setData.peso != "" then Some(s.setData.peso) else None, s.setData.notas)
  }

  /**
   * `handleCompletarSerie`; `saveOk` is whether the POST of the detail
   * succeeded. Without a session row, reading `entrenamiento.id` throws
   * before the `try`: the handler stops and nothing changes.
   */
  function CompletarSerie(s: Session, saveOk: bool): (r: Session)
    requires 0 <= s.index < |s.ejercicios|
    ensures !RepsAccepted(s.setData.repeticiones) ==> r == s.(error := Some(MissingReps))
    ensures RepsAccepted(s.setData.repeticiones) && s.entrenamiento.None? ==> r == s
    ensures RepsAccepted(s.setData.repeticiones) && s.entrenamiento.Some? && !saveOk ==> r == s.(error := Some(SaveFailed))
    ensures RepsAccepted(s.setData.repeticiones) && s.entrenamiento.Some? && saveOk ==>
      && r.detalles == s.detalles + [SeriesRecord(s)]
      && r.setData == s.setData.(completado := true)
      && r.timer == (if s.serie < Current(s).series then Start(RestSeconds(Current(s))) else s.timer)
      && r == s.(detalles := r.detalles, setData := r.setData, timer := r.timer)
  {
    if !RepsAccepted(s.setData.repeticiones) then
      s.(error := Some(MissingReps))
    else if s.entrenamiento.None? then
      s
    else if !saveOk then
      s.(error := Some(SaveFailed))
    else
      var ej := Current(s);
      s.(detalles := s.detalles + [SeriesRecord(s)],
         setData := s.setData.(completado := true),
         timer := if s.serie < ej.series then Start(RestSeconds(ej)) else s.timer)
  }

  /**
   * `handleFinalizarEntrenamiento`: the closing update carries the end time
   * and the general note. Without a session row, reading `entrenamiento.id`
   * throws inside the `try`, so it fails as a failed update does.
   */
  function Finalizar(s: Session, now: string, putOk: bool): (r: Session)
    ensures putOk && s.entrenamiento.Some? ==> r == s.(closed := Some(Closing(now, s.notaGeneral)))
    ensures !putOk || s.entrenamiento.None? ==> r == s.(error := Some(FinalizeFailed))
  {
    if putOk && s.entrenamiento.Some? then s.(closed := Some(Closing(now, s.notaGeneral)))
    else s.(error := Some(FinalizeFailed))
  }

  /** `handleSiguienteEjercicio`. */
  function SiguienteEjercicio(s: Session, now: string, putOk: bool): (r: Session)
    requires 0 <= s.index < |s.ejercicios|
    ensures s.index < |s.ejercicios| - 1 ==>
      && r.index == s.index + 1 && r.serie == 1
      && r.setData == FirstSeriesData(s.ejercicios[s.index + 1])
      && r.timer == Idle
      && r == s.(index := r.index, serie := 1, setData := r.setData, timer := Idle)
    ensures s.index >= |s.ejercicios| - 1 ==> r == Finalizar(s, now, putOk)
  {
    if s.index < |s.ejercicios| - 1 then
      var next := s.index + 1;
      s.(index := next, serie := 1, setData := FirstSeriesData(s.ejercicios[next]), timer := Reset(s.timer))
    else
      Finalizar(s, now, putOk)
  }

  /** `handleSiguienteSerie`: the next series of this exercise, or the next exercise. */
  function SiguienteSerie(s: Session, now: string, putOk: bool): (r: Session)
    requires 0 <= s.index < |s.ejercicios|
    ensures s.serie < Current(s).series ==>
      && r.serie == s.serie + 1
      && r.setData.peso == s.setData.peso
      && r.setData.repeticiones == FieldOf(Current(s).repeticiones)
      && !r.setData.completado
      && r.timer == Idle
      && r == s.(serie := r.serie, setData := r.setData, timer := Idle)
    ensures s.serie >= Current(s).series ==>
      r == SiguienteEjercicio(s.(completados := s.completados + {s.index}), now, putOk)
  {
    var ej := Current(s);
    if s.serie < ej.series then
      s.(serie := s.serie + 1,
         setData := SetData(FieldOf(ej.repeticiones), s.setData.peso, "", false),
         timer := Reset(s.timer))
    else
      SiguienteEjercicio(s.(completados := s.completados + {s.index}), now, putOk)
  }

  // ---------------------------------------------------------------------------
  // What the user can do, and when

  datatype Action =
    | EditReps(text: string)
    | EditPeso(peso: string)
    | EditNotas(notas: string)
    | EditNotaGeneral(nota: string)
    | CompleteSeries(saveOk: bool)
    | NextSeries(now: string, putOk: bool)
    | TimerTick
    | TimerPause
    | TimerContinue
    | TimerAddThirty
    | TimerAddMinute

  /**
   * Whether the page offers the action: the series inputs and "Completar
   * Serie" until the series is recorded, then the advance button; the
   * general note on the last series of the last exercise; the countdown's
   * buttons while its dialog shows; nothing once the session is closed.
   * This over-approximates the page: the rest dialog is a full-screen
   * overlay, so while it shows the page's other buttons cannot be reached,
   * yet they stay enabled here, and the properties of `Step` and `Run`
   * hold over every such sequence too.
   */
  predicate Enabled(s: Session, a: Action)
    requires 0 <= s.index < |s.ejercicios|
  {
    s.closed.None? &&
    match a
    case EditReps(t) => !s.setData.completado && InputValue(Typed(t))
    case EditPeso(_) => !s.setData.completado
    case EditNotas(_) => !s.setData.completado
    case EditNotaGeneral(_) => s.index == |s.ejercicios| - 1 && s.serie == Current(s).series
    case CompleteSeries(_) => !s.setData.completado
    case NextSeries(_, _) => s.setData.completado
    case TimerTick => true
    case _ => s.timer.active
  }

  /**
   * The effect of an action on the state: the routine and the session row
   * never change, and only "Completar Serie" adds to the log, one detail at
   * the end.
   */
  function Apply(s: Session, a: Action): (r: Session)
    requires 0 <= s.index < |s.ejercicios|
    ensures r.ejercicios == s.ejercicios && r.entrenamiento == s.entrenamiento
    ensures !a.CompleteSeries? ==> r.detalles == s.detalles
    ensures a.CompleteSeries? ==>
      r.detalles == s.detalles
      || (RepsAccepted(s.setData.repeticiones) && s.entrenamiento.Some? && r.detalles == s.detalles + [SeriesRecord(s)])
  {
    match a
    case EditReps(v) => s.(setData := s.setData.(repeticiones := Typed(v)))
    case EditPeso(v) => s.(setData := s.setData.(peso := v))
    case EditNotas(v) => s.(setData := s.setData.(notas := v))
    case EditNotaGeneral(v) => s.(notaGeneral := v)
    case CompleteSeries(ok) => CompletarSerie(s, ok)
    case NextSeries(now, ok) => SiguienteSerie(s, now, ok)
    case TimerTick => s.(timer := Tick(s.timer).next)
    case TimerPause => s.(timer := Pause(s.timer))
    case TimerContinue => s.(timer := Reset(s.timer))
    case TimerAddThirty => s.(timer := AddSeconds(s.timer, 30))
    case TimerAddMinute => s.(timer := AddSeconds(s.timer, 60))
  }

  lemma CompleteKeepsPlan(s: Session, ok: bool)
    requires Valid(s) && s.closed.None? && !s.setData.completado
    ensures Valid(CompletarSerie(s, ok))
  {
    if RepsAccepted(s.setData.repeticiones) && s.entrenamiento.Some? && ok {
      KeysSnoc(s.detalles, SeriesRecord(s));
    }
  }

  lemma NextKeepsPlan(s: Session, now: string, ok: bool)
    requires Valid(s) && s.closed.None? && s.setData.completado
    ensures Valid(SiguienteSerie(s, now, ok))
  {
    var ej := Current(s);
    var r := SiguienteSerie(s, now, ok);
    if s.serie < ej.series {
      SeriesKeysSnoc(ej.ejercicioId, 1, s.serie);
    } else if s.index < |s.ejercicios| - 1 {
      assert s.serie == SeriesToDo(ej);
      AllSeriesSnoc(s.ejercicios, s.index);
      SeriesKeysSnoc(ej.ejercicioId, 1, s.serie);
      assert Done(r) == AllSeries(s.ejercicios[..s.index + 1]);
    }
  }

  lemma EditKeepsPlan(s: Session, a: Action)
    requires Valid(s) && Enabled(s, a)
    requires a.EditReps? || a.EditPeso? || a.EditNotas? || a.EditNotaGeneral?
    ensures Valid(Apply(s, a)) && Apply(s, a).detalles == s.detalles
  {
    assert Done(Apply(s, a)) == Done(s);
  }

  lemma TimerKeepsPlan(s: Session, a: Action)
    requires Valid(s) && Enabled(s, a)
    requires a.TimerTick? || a.TimerPause? || a.TimerContinue? || a.TimerAddThirty? || a.TimerAddMinute?
    ensures Valid(Apply(s, a)) && Apply(s, a).detalles == s.detalles
  {
    assert Done(Apply(s, a)) == Done(s);
  }

  /** One user action or countdown tick; actions the page does not offer change nothing. */
  function Step(s: Session, a: Action): (r: Session)
    requires Valid(s)
    ensures Valid(r)
    ensures s.detalles <= r.detalles && |r.detalles| <= |s.detalles| + 1
    ensures s.closed.Some? ==> r == s
    ensures r.ejercicios == s.ejercicios && r.entrenamiento == s.entrenamiento
  {
    if !Enabled(s, a) then s
    else
      match a
      case CompleteSeries(ok) =>
        CompleteKeepsPlan(s, ok);
        CompletarSerie(s, ok)
      case NextSeries(now, ok) =>
        NextKeepsPlan(s, now, ok);
        SiguienteSerie(s, now, ok)
      case EditReps(_) => EditKeepsPlan(s, a); Apply(s, a)
      case EditPeso(_) => EditKeepsPlan(s, a); Apply(s, a)
      case EditNotas(_) => EditKeepsPlan(s, a); Apply(s, a)
      case EditNotaGeneral(_) => EditKeepsPlan(s, a); Apply(s, a)
      case _ => TimerKeepsPlan(s, a); Apply(s, a)
  }

  /** A run of actions. */
  function Run(s: Session, actions: seq<Action>): (r: Session)
    requires Valid(s)
    ensures Valid(r)
    ensures s.detalles <= r.detalles
    ensures r.ejercicios == s.ejercicios
    decreases |actions|
  {
    if |actions| == 0 then s else Run(Step(s, actions[0]), actions[1..])
  }

  /**
   * Without a session row the page is stuck: "Completar Serie" either
   * complains about the repetitions or throws, so no series is ever marked
   * done, the advance button never shows, nothing is recorded and the
   * session is never closed.
   */
  lemma {:induction false} NoSessionRowRecordsNothing(s: Session, actions: seq<Action>)
    requires Valid(s) && s.entrenamiento.None? && !s.setData.completado
    ensures var r := Run(s, actions);
      && r.detalles == s.detalles && r.closed.None? && !r.setData.completado
      && r.index == s.index && r.serie == s.serie && r.entrenamiento.None?
      && (s.error.Some? ==> r.error.Some?)
    decreases |actions|
  {
    if |actions| > 0 {
      var t := Step(s, actions[0]);
      assert t.detalles == s.detalles && !t.setData.completado && t.index == s.index && t.serie == s.serie;
      assert s.error.Some? ==> t.error.Some?;
      NoSessionRowRecordsNothing(t, actions[1..]);
    }
  }

  /** A page whose `POST /entrenamientos` failed shows its error and records nothing, whatever the user does. */
  lemma FailedStartRecordsNothing(ejercicios: seq<RoutineExercise>, actions: seq<Action>)
    requires |ejercicios| > 0
    ensures var r := Run(Begin(ejercicios, None), actions);
      && r.detalles == [] && r.closed.None? && r.error.Some?
      && r.index == 0 && r.serie == 1
  {
    NoSessionRowRecordsNothing(Begin(ejercicios, None), actions);
  }

  /**
   * A closed session has recorded every series of every exercise exactly
   * once, in routine order, and nothing else.
   */
  lemma ClosedSessionRecordedEverySeries(s: Session)
    requires Valid(s) && s.closed.Some?
    ensures Keys(s.detalles) == AllSeries(s.ejercicios)
  {
    var n := |s.ejercicios|;
    var ej := Current(s);
    SeriesKeysSnoc(ej.ejercicioId, 1, s.serie);
    AllSeriesSnoc(s.ejercicios, n - 1);
    assert s.ejercicios[..n] == s.ejercicios;
  }

  /**
   * When every exercise has at least one series, a finished session records
   * as many series as the routine's detail page announces.
   */
  lemma {:induction false} PlanLengthIsTotalSeries(es: seq<RoutineExercise>)
    requires forall k :: 0 <= k < |es| ==> es[k].series >= 1
    ensures |AllSeries(es)| == RoutineStats.TotalSeries(es)
    decreases |es|
  {
    if |es| > 0 {
      var n := |es|;
      PlanLengthIsTotalSeries(es[..n - 1]);
      assert es == es[..n - 1] + [es[n - 1]];
      RoutineStats.TotalSeriesAppend(es[..n - 1], [es[n - 1]]);
      assert RoutineStats.TotalSeries([es[n - 1]]) == es[n - 1].series;
    }
  }

  /**
   * The check compares `Number(repeticiones)` but the detail carries
   * `parseInt(repeticiones)`: "0.9e1" repetitions pass as 9 and are
   * recorded as 0.
   */
  lemma ExponentRepsRecordedAsZero(s: Session)
    requires 0 <= s.index < |s.ejercicios|
    requires s.setData.repeticiones == Typed("0.9e1")
    ensures RepsAccepted(s.setData.repeticiones)
    ensures s.entrenamiento.Some? ==>
      CompletarSerie(s, true).detalles == s.detalles + [SeriesRecord(s)] && SeriesRecord(s).repeticiones == Some(0)
  {
    ExponentPassesAsZero();
  }

  /** The body the detail is posted with: the notes are always sent, as text. */
  function BodyOf(d: Detalle): (b: EntrenamientosController.DetalleBody)
    ensures b.entrenamientoId == d.entrenamientoId && b.ejercicioId == d.ejercicioId
    ensures b.serieNumero == d.serieNumero && b.repeticiones == d.repeticiones
    ensures b.peso == d.peso && b.notas == Some(d.notas)
  {
    EntrenamientosController.DetalleBody(d.entrenamientoId, d.ejercicioId, d.serieNumero, d.repeticiones, d.peso, Some(d.notas))
  }

  /**
   * The series the page records, posted by the owner of the session, is
   * accepted with 201 and stored as the last detail row with the same
   * exercise, series number, repetitions and weight.
   */
  lemma CompletedSeriesStored(s: Session, db: Tables.Db, userId: int)
    requires Valid(s) && RepsAccepted(s.setData.repeticiones)
    requires s.entrenamiento.Some? && Tables.OwnsEntrenamiento(db, s.entrenamiento.value, userId)
    ensures var d := SeriesRecord(s);
      var r := EntrenamientosController.CreateEntrenamientoDetalle(db, userId, BodyOf(d));
      && r.status == 201
      && |r.db.detalles| == |db.detalles| + 1
      && var row := r.db.detalles[|db.detalles|];
      && row.entrenamientoId == s.entrenamiento.value
      && row.ejercicioId == Current(s).ejercicioId && row.serieNumero == s.serie
      && row.repsRealizadas == ParseIntField(s.setData.repeticiones)
      && (NoExponent(s.setData.repeticiones) ==> row.repsRealizadas.Some? && row.repsRealizadas.value >= 1)
      && row.pesoUsado == d.peso
  {
    var d := SeriesRecord(s);
    EntrenamientosController.EchoMatchesStoredRow(db, userId, BodyOf(d));
  }

  /**
   * Example: a one-exercise routine of two series: record, rest, advance, record,
   * close. The log holds both series and the rest countdown ran in between.
   */
  lemma TwoSeriesSession()
    ensures
      var e := RoutineExercise(7, "Press", None, "Pecho", 2, Some(10), Some("40"), None, None, 1);
      var s0 := Begin([e], Some(3));
      var s1 := Step(s0, CompleteSeries(true));
      var s2 := Step(s1, NextSeries("t", true));
      var s3 := Step(s2, CompleteSeries(true));
      var s4 := Step(s3, NextSeries("t", true));
      && s1.timer == Start(60)
      && s2.serie == 2 && s2.setData.peso == "40" && !s2.timer.active
      && !s3.timer.active
      && s4.closed == Some(Closing("t", ""))
      && s4.detalles == [Detalle(3, 7, 1, Some(10), Some("40"), ""), Detalle(3, 7, 2, Some(10), Some("40"), "")]
  {
  }
}

=== FILE: sorting.dfy ===
/**
 * Sorting for the `ORDER BY` clauses of the controllers' queries. The
 * database promises an order, not a particular tie-break, so the model
 * promises exactly that: the result is ordered and is a permutation.
 */
module Sorting {

  /** `leq` is total and transitive. */
  ghost predicate TotalPreorder<T(!new)>(leq: (T, T) -> bool) {
    && (forall a, b :: leq(a, b) || leq(b, a))
    && (forall a, b, c :: leq(a, b) && leq(b, c) ==> leq(a, c))
  }

  ghost predicate SortedBy<T>(s: seq<T>, leq: (T, T) -> bool) {
    forall i, j :: 0 <= i < j < |s| ==> leq(s[i], s[j])
  }

  /** Every element of `s` is at least `y`. */
  ghost predicate AllAtLeast<T>(y: T, s: seq<T>, leq: (T, T) -> bool) {
    forall k :: 0 <= k < |s| ==> leq(y, s[k])
  }

  lemma AllAtLeastPermutation<T>(y: T, a: seq<T>, x: T, b: seq<T>, leq: (T, T) -> bool)
    requires AllAtLeast(y, a, leq) && leq(y, x)
    requires multiset(b) == multiset(a) + multiset{x}
    ensures AllAtLeast(y, b, leq)
  {
    forall k | 0 <= k < |b|
      ensures leq(y, b[k])
    {
      assert b[k] in multiset(b);
      if b[k] != x {
        assert b[k] in multiset(a);
        var j :| 0 <= j < |a| && a[j] == b[k];
      }
    }
  }

  function Insert<T(!new)>(x: T, s: seq<T>, leq: (T, T) -> bool): (r: seq<T>)
    requires TotalPreorder(leq)
    requires SortedBy(s, leq)
    ensures |r| == |s| + 1
    ensures SortedBy(r, leq)
    ensures multiset(r) == multiset(s) + multiset{x}
    decreases |s|
  {
    if |s| == 0 then [x]
    else if leq(x, s[0]) then
      assert forall k :: 0 <= k < |s| ==> leq(s[0], s[k]);
      assert AllAtLeast(x, s, leq);
      [x] + s
    else
      var rest := Insert(x, s[1..], leq);
      assert s == [s[0]] + s[1..];
      assert AllAtLeast(s[0], s[1..], leq);
      AllAtLeastPermutation(s[0], s[1..], x, rest, leq);
      [s[0]] + rest
  }

  /** Insertion sort: an ordered permutation of `s`. */
  function SortBy<T(!new)>(s: seq<T>, leq: (T, T) -> bool): (r: seq<T>)
    requires TotalPreorder(leq)
    ensures |r| == |s|
    ensures SortedBy(r, leq)
    ensures multiset(r) == multiset(s)
    decreases |s|
  {
    if |s| == 0 then []
    else
      assert s == [s[0]] + s[1..];
      Insert(s[0], SortBy(s[1..], leq), leq)
  }

  /** Lexicographic order on code points, standing in for the database collation. */
  predicate LexLeq(a: string, b: string)
    decreases |a|
  {
    || |a| == 0
    || (&& |b| > 0
        && (a[0] < b[0] || (a[0] == b[0] && LexLeq(a[1..], b[1..]))))
  }

  lemma {:induction false} LexLeqTotal(a: string, b: string)
    ensures LexLeq(a, b) || LexLeq(b, a)
    decreases |a|
  {
    if |a| > 0 && |b| > 0 && a[0] == b[0] {
      LexLeqTotal(a[1..], b[1..]);
    }
  }

  lemma {:induction false} LexLeqTransitive(a: string, b: string, c: string)
    requires LexLeq(a, b) && LexLeq(b, c)
    ensures LexLeq(a, c)
    decreases |a|
  {
    if |a| > 0 && a[0] == b[0] && b[0] == c[0] {
      LexLeqTransitive(a[1..], b[1..], c[1..]);
    }
  }

  /** The first elements of two ordered permutations of each other are tied. */
  lemma HeadsTied<T>(a: seq<T>, b: seq<T>, leq: (T, T) -> bool)
    requires SortedBy(a, leq) && SortedBy(b, leq)
    requires multiset(a) == multiset(b) && |a| > 0
    ensures |b| > 0 && b[0] in a
    ensures a[0] == b[0] || (leq(a[0], b[0]) && leq(b[0], a[0]))
  {
    assert a[0] in multiset(b);
    assert b[0] in multiset(a);
    var k :| 0 <= k < |a| && a[k] == b[0];
    var m :| 0 <= m < |b| && b[m] == a[0];
    if k != 0 && m != 0 {
      assert leq(a[0], a[k]) && leq(b[0], b[m]);
    }
  }

  /**
   * An order leaves no choice when it ties no two distinct elements: two
   * ordered permutations of each other are then equal.
   */
  lemma {:induction false} SortedUnique<T>(a: seq<T>, b: seq<T>, leq: (T, T) -> bool)
    requires SortedBy(a, leq) && SortedBy(b, leq)
    requires multiset(a) == multiset(b)
    requires forall x, y :: x in a && y in a && leq(x, y) && leq(y, x) ==> x == y
    ensures a == b
    decreases |a|
  {
    if |a| == 0 {
      assert |b| == |multiset(b)| == 0;
    } else {
      HeadsTied(a, b, leq);
      assert a[0] == b[0];
      assert multiset(a[1..]) == multiset(a) - multiset{a[0]} by {
        assert a == [a[0]] + a[1..];
      }
      assert multiset(b[1..]) == multiset(b) - multiset{b[0]} by {
        assert b == [b[0]] + b[1..];
      }
      SortedUnique(a[1..], b[1..], leq);
      assert a == [a[0]] + a[1..] && b == [b[0]] + b[1..];
    }
  }
}

=== FILE: stats.dfy ===
/**
 * The summary a routine's detail page (src/pages/RutinaDetalle.jsx) shows
 * over its exercises, and the page's removal of an exercise from the list.
 */
module RoutineStats {
  import opened Wrappers
  import opened Domain
  import Seqs
  import opened JsMath

  /** `ejercicios.reduce((total, ej) => total + ej.series, 0)`. */
  function TotalSeries(es: seq<RoutineExercise>): (n: int)
    ensures (forall k :: 0 <= k < |es| ==> es[k].series >= 0) ==>
      n >= 0 && forall k :: 0 <= k < |es| ==> es[k].series <= n
    decreases |es|
  {
    if |es| == 0 then 0 else es[0].series + TotalSeries(es[1..])
  }

  /** The seconds of rest the routine prescribes: each exercise's series times its rest. */
  function RestBudget(es: seq<RoutineExercise>): (r: int)
    ensures (forall k :: 0 <= k < |es| ==> es[k].series >= 0 && RestSeconds(es[k]) > 0) ==>
      r >= 0 && forall k :: 0 <= k < |es| ==> es[k].series * RestSeconds(es[k]) <= r
    decreases |es|
  {
    if |es| == 0 then 0 else es[0].series * RestSeconds(es[0]) + RestBudget(es[1..])
  }

  lemma {:induction false} TotalSeriesAppend(a: seq<RoutineExercise>, b: seq<RoutineExercise>)
    ensures TotalSeries(a + b) == TotalSeries(a) + TotalSeries(b)
    decreases |a|
  {
    if |a| > 0 {
      assert (a + b)[1..] == a[1..] + b;
      TotalSeriesAppend(a[1..], b);
    } else {
      assert a + b == b;
    }
  }

  /** "Duración Estimada": the rest budget in minutes, rounded up. */
  function EstimatedMinutes(es: seq<RoutineExercise>): (m: int)
    ensures m * 60 >= RestBudget(es)
    ensures m * 60 < RestBudget(es) + 60
  {
    CeilDiv(RestBudget(es), 60)
  }

  /** An exercise with no rest configured adds a minute per series. */
  lemma DefaultRestAddsMinutePerSeries(e: RoutineExercise, es: seq<RoutineExercise>)
    requires !Truthy(e.descansoSegundos)
    ensures EstimatedMinutes([e] + es) == EstimatedMinutes(es) + e.series
  {
    assert ([e] + es)[1..] == es;
    var m := EstimatedMinutes(es);
    var q := EstimatedMinutes([e] + es);
    assert RestBudget([e] + es) == e.series * 60 + RestBudget(es);
    assert (q - e.series) * 60 >= RestBudget(es) && (q - e.series - 1) * 60 < RestBudget(es);
    assert m * 60 >= RestBudget(es) && (m - 1) * 60 < RestBudget(es);
  }

  /** Whether a row is not the exercise being removed. */
  predicate Keeps(ejercicioId: int, e: RoutineExercise) {
    e.ejercicioId != ejercicioId
  }

  /**
   * `handleEliminarEjercicio`: once confirmed and deleted on the server, the
   * exercise leaves the list; otherwise the list stays as it was.
   */
  function EliminarEjercicio(es: seq<RoutineExercise>, ejercicioId: int, confirmed: bool, apiOk: bool)
    : (r: seq<RoutineExercise>)
    ensures !(confirmed && apiOk) ==> r == es
    ensures confirmed && apiOk ==>
      && (forall i :: 0 <= i < |r| ==> r[i].ejercicioId != ejercicioId)
      && (forall i :: 0 <= i < |es| && es[i].ejercicioId != ejercicioId ==> es[i] in r)
      && Seqs.Subseq(r, es)
  {
    if confirmed && apiOk then Seqs.Filter(es, e => Keeps(ejercicioId, e)) else es
  }

  /** Removing an exercise twice is removing it once. */
  lemma EliminarTwice(es: seq<RoutineExercise>, ejercicioId: int)
    ensures EliminarEjercicio(EliminarEjercicio(es, ejercicioId, true, true), ejercicioId, true, true)
         == EliminarEjercicio(es, ejercicioId, true, true)
  {
    Seqs.FilterIdempotent(es, e => Keeps(ejercicioId, e));
  }

  /** The series total drops by exactly the series of the removed rows. */
  lemma {:induction false} EliminarSeries(es: seq<RoutineExercise>, ejercicioId: int)
    ensures TotalSeries(EliminarEjercicio(es, ejercicioId, true, true))
         == TotalSeries(es) - TotalSeries(Seqs.Filter(es, e => !Keeps(ejercicioId, e)))
    decreases |es|
  {
    if |es| > 0 {
      EliminarSeries(es[1..], ejercicioId);
      var keep := e => Keeps(ejercicioId, e);
      var drop := e => !Keeps(ejercicioId, e);
      assert Seqs.Filter(es, keep) == (if keep(es[0]) then [es[0]] else []) + Seqs.Filter(es[1..], keep);
      assert Seqs.Filter(es, drop) == (if drop(es[0]) then [es[0]] else []) + Seqs.Filter(es[1..], drop);
      TotalSeriesAppend(if keep(es[0]) then [es[0]] else [], Seqs.Filter(es[1..], keep));
      TotalSeriesAppend(if drop(es[0]) then [es[0]] else [], Seqs.Filter(es[1..], drop));
    }
  }
}

=== FILE: tables.dfy ===
/**
 * The database tables the controllers read and write, each as a sequence of
 * rows in insertion order, and the two queries several handlers share.
 * Column types follow what the handlers store; a nullable column is an `Option`.
 */
module Tables {
  import opened Wrappers
  import JsMath

  datatype RutinaRow = RutinaRow(id: int, nombre: string, dia: string, grupoMuscular: string)

  /** A row of `rutinas_usuarios`: which user a routine is assigned to. */
  datatype Asignacion = Asignacion(id: int, rutinaId: int, usuarioId: int)

  /** The per-routine configuration of an exercise, the columns the update handler sets. */
  datatype Config = Config(
    series: Option<int>,
    repeticiones: Option<int>,
    pesoSugerido: Option<string>,
    descansoSegundos: Option<int>,
    notas: Option<string>)

  const NoConfig := Config(None, None, None, None, None)

  /** A row of `rutina_ejercicios`. */
  datatype RutinaEjercicioRow = RutinaEjercicioRow(id: int, rutinaId: int, ejercicioId: int, config: Config, orden: int)

  datatype EjercicioRow = EjercicioRow(id: int, nombre: string, grupoMuscular: string, videoUrl: Option<string>)

  datatype EntrenamientoRow = EntrenamientoRow(
    id: int,
    usuarioId: int,
    rutinaId: int,
    fecha: string,
    fechaInicio: string,
    fechaFin: Option<string>,
    notaGeneral: Option<string>)

  /** A row of `entrenamiento_detalles`: one recorded series. */
  datatype DetalleRow = DetalleRow(
    id: int,
    entrenamientoId: int,
    ejercicioId: int,
    serieNumero: int,
    repsRealizadas: Option<int>,
    pesoUsado: Option<string>,
    notas: Option<string>)

  datatype Db = Db(
    rutinas: seq<RutinaRow>,
    asignaciones: seq<Asignacion>,
    rutinaEjercicios: seq<RutinaEjercicioRow>,
    ejercicios: seq<EjercicioRow>,
    entrenamientos: seq<EntrenamientoRow>,
    detalles: seq<DetalleRow>)

  /** The id `AUTO_INCREMENT` hands out next: above every id in use. */
  function NextId(ids: seq<int>): (n: int)
    ensures n >= 1
    ensures forall i :: 0 <= i < |ids| ==> ids[i] < n
  {
    if |ids| == 0 then 1 else JsMath.Max(ids[|ids| - 1] + 1, NextId(ids[..|ids| - 1]))
  }

  /** The ids of a table's rows, in row order. */
  function Ids<T>(t: seq<T>, id: T -> int): (r: seq<int>)
    ensures |r| == |t| && forall i :: 0 <= i < |t| ==> r[i] == id(t[i])
  {
    seq(|t|, i requires 0 <= i < |t| => id(t[i]))
  }

  predicate RutinaExists(db: Db, rutinaId: int) {
    exists i :: 0 <= i < |db.rutinas| && db.rutinas[i].id == rutinaId
  }

  predicate AssignedTo(db: Db, rutinaId: int, userId: int) {
    exists j :: 0 <= j < |db.asignaciones| && db.asignaciones[j].rutinaId == rutinaId && db.asignaciones[j].usuarioId == userId
  }

  /** The ownership query: the routine exists and is assigned to the user. */
  predicate Owns(db: Db, rutinaId: int, userId: int) {
    RutinaExists(db, rutinaId) && AssignedTo(db, rutinaId, userId)
  }

  /** The session ownership query: a training session with that id belongs to the user. */
  predicate OwnsEntrenamiento(db: Db, entrenamientoId: int, userId: int) {
    exists i :: 0 <= i < |db.entrenamientos| && db.entrenamientos[i].id == entrenamientoId && db.entrenamientos[i].usuarioId == userId
  }

  predicate EjercicioExists(db: Db, ejercicioId: int) {
    exists i :: 0 <= i < |db.ejercicios| && db.ejercicios[i].id == ejercicioId
  }

  /** Every `rutina_ejercicios` row points at an existing routine, as its foreign key demands. */
  ghost predicate RoutineKeysValid(db: Db) {
    forall i :: 0 <= i < |db.rutinaEjercicios| ==> RutinaExists(db, db.rutinaEjercicios[i].rutinaId)
  }
}

=== FILE: text.dfy ===
/**
 * String helpers standing in for the JavaScript string methods the
 * application calls: `toLowerCase` (ASCII and Latin-1 letters), `includes`,
 * `trim`, `split`, `slice`, `padStart` and decimal `toString`.
 */
module Text {
  import opened Wrappers

  // ---------------------------------------------------------------------------
  // Case

  /** The capital letters of Basic Latin and Latin-1 (`A`-`Z`, `À`-`Þ` except `×`). */
  predicate IsUpper(c: char) {
    'A' <= c <= 'Z' || ('\U{00C0}' <= c <= '\U{00DE}' && c != '\U{00D7}')
  }

  /** The Unicode lower-case mapping of a capital letter of Basic Latin and Latin-1 is 32 code points on. */
  function LowerChar(c: char): (r: char)
    ensures !IsUpper(r)
    ensures IsUpper(c) ==> r as int == c as int + 32
    ensures !IsUpper(c) ==> r == c
  {
    if IsUpper(c) then (c as int + 32) as char else c
  }

  /** `toLowerCase` restricted to the ASCII and Latin-1 letters. */
  function ToLower(s: string): (r: string)
    ensures |r| == |s|
    ensures forall i :: 0 <= i < |s| ==> r[i] == LowerChar(s[i])
    ensures forall i :: 0 <= i < |r| ==> !IsUpper(r[i])
  {
    seq(|s|, i requires 0 <= i < |s| => LowerChar(s[i]))
  }

  lemma ToLowerIdempotent(s: string)
    ensures ToLower(ToLower(s)) == ToLower(s)
  {
  }

  // ---------------------------------------------------------------------------
  // Substrings

  /** `t` occurs in `s` starting at index `i`. */
  ghost predicate OccursAt(t: string, s: string, i: int) {
    0 <= i && i + |t| <= |s| && s[i..i + |t|] == t
  }

  lemma OccursShift(t: string, s: string, i: int)
    requires |s| > 0 && 0 <= i
    ensures OccursAt(t, s[1..], i) <==> OccursAt(t, s, i + 1)
  {
    if 0 <= i && i + |t| <= |s| - 1 {
      assert s[1..][i..i + |t|] == s[i + 1..i + 1 + |t|];
    }
  }

  /** `s.includes(t)`. */
  function Contains(s: string, t: string): (r: bool)
    ensures r <==> exists i :: OccursAt(t, s, i)
    decreases |s|
  {
    if |t| <= |s| && s[..|t|] == t then
      assert OccursAt(t, s, 0);
      true
    else if |s| == 0 then
      false
    else
      var r := Contains(s[1..], t);
      assert r ==> exists i :: OccursAt(t, s, i) by {
        if r {
          var i :| OccursAt(t, s[1..], i);
          OccursShift(t, s, i);
          assert OccursAt(t, s, i + 1);
        }
      }
      assert (exists i :: OccursAt(t, s, i)) ==> r by {
        if exists i :: OccursAt(t, s, i) {
          var i :| OccursAt(t, s, i);
          assert i != 0;
          OccursShift(t, s, i - 1);
        }
      }
      r
  }

  lemma ContainsEmpty(s: string)
    ensures Contains(s, "")
  {
    assert OccursAt("", s, 0);
  }

  lemma ContainsSelf(s: string)
    ensures Contains(s, s)
  {
    assert OccursAt(s, s, 0);
  }

  /** Case-insensitive `includes`, as the search boxes write it. */
  function ContainsIgnoringCase(s: string, t: string): (r: bool)
    ensures r <==> exists i :: OccursAt(ToLower(t), ToLower(s), i)
  {
    Contains(ToLower(s), ToLower(t))
  }

  // ---------------------------------------------------------------------------
  // Slicing

  /** `s.slice(0, n)`. */
  function Take(s: string, n: nat): (r: string)
    ensures |r| == if n < |s| then n else |s|
    ensures r <= s
  {
    if n < |s| then s[..n] else s
  }

  // ---------------------------------------------------------------------------
  // Whitespace

  /**
   * The characters `trim` removes: the WhiteSpace and LineTerminator
   * productions of ECMA-262, that is tab, line tabulation, form feed,
   * space, no-break space, the byte order mark, the space separators of
   * Unicode (U+1680, U+2000 to U+200A, U+202F, U+205F, U+3000), line feed,
   * carriage return, and U+2028 and U+2029.
   */
  predicate IsSpace(c: char) {
    || c == '\t' || c == '\U{000B}' || c == '\U{000C}' || c == ' ' || c == '\U{00A0}' || c == '\U{FEFF}'
    || c == '\U{1680}' || ('\U{2000}' <= c <= '\U{200A}') || c == '\U{202F}' || c == '\U{205F}' || c == '\U{3000}'
    || c == '\n' || c == '\r' || c == '\U{2028}' || c == '\U{2029}'
  }

  function LeadingSpaces(s: string): (i: nat)
    ensures i <= |s|
    ensures forall k :: 0 <= k < i ==> IsSpace(s[k])
    ensures i < |s| ==> !IsSpace(s[i])
    decreases |s|
  {
    if |s| == 0 || !IsSpace(s[0]) then 0 else 1 + LeadingSpaces(s[1..])
  }

  function TrailingStart(s: string): (j: nat)
    ensures j <= |s|
    ensures forall k :: j <= k < |s| ==> IsSpace(s[k])
    ensures 0 < j ==> !IsSpace(s[j - 1])
    decreases |s|
  {
    if |s| == 0 || !IsSpace(s[|s| - 1]) then |s| else TrailingStart(s[..|s| - 1])
  }

  /** `s.trim()`: the text between the leading and the trailing white space. */
  function Trim(s: string): (r: string)
    ensures |r| <= |s| && LeadingSpaces(s) + |r| <= |s|
    ensures r == s[LeadingSpaces(s)..LeadingSpaces(s) + |r|]
    ensures forall k :: 0 <= k < LeadingSpaces(s) ==> IsSpace(s[k])
    ensures forall k :: LeadingSpaces(s) + |r| <= k < |s| ==> IsSpace(s[k])
    ensures r == [] <==> forall k :: 0 <= k < |s| ==> IsSpace(s[k])
    ensures r != [] ==> !IsSpace(r[0]) && !IsSpace(r[|r| - 1])
    ensures exists i :: OccursAt(r, s, i)
  {
    var i := LeadingSpaces(s);
    var t := s[i..];
    var j := TrailingStart(t);
    assert s[i..i + j] == t[..j];
    assert OccursAt(t[..j], s, i);
    t[..j]
  }

  lemma TrimIdempotent(s: string)
    ensures Trim(Trim(s)) == Trim(s)
  {
    var r := Trim(s);
    if r != [] {
      assert LeadingSpaces(r) == 0;
      assert TrailingStart(r) == |r|;
    }
  }

  // ---------------------------------------------------------------------------
  // Splitting

  /** `s.split(sep)` for a one-character separator. */
  function Split(s: string, sep: char): (r: seq<string>)
    ensures |r| >= 1
    ensures forall i :: 0 <= i < |r| ==> sep !in r[i]
    ensures (forall k :: 0 <= k < |s| ==> s[k] != sep) ==> r == [s]
    decreases |s|
  {
    if |s| == 0 then [""]
    else
      var rest := Split(s[1..], sep);
      assert (forall k :: 0 <= k < |s| ==> s[k] != sep) ==> forall k :: 0 <= k < |s| - 1 ==> s[1..][k] != sep;
      assert s == [s[0]] + s[1..];
      if s[0] == sep then [""] + rest
      else [[s[0]] + rest[0]] + rest[1..]
  }

  /** The text before the first separator is the first part, and the rest splits on its own. */
  lemma {:induction false} SplitAtFirst(w: string, t: string, sep: char)
    requires sep !in w
    ensures Split(w + [sep] + t, sep) == [w] + Split(t, sep)
    decreases |w|
  {
    var s := w + [sep] + t;
    if |w| == 0 {
      assert s[1..] == t;
    } else {
      assert s[1..] == w[1..] + [sep] + t;
      SplitAtFirst(w[1..], t, sep);
      assert [s[0]] + w[1..] == w;
    }
  }

  /** `parts.join(sep)`. */
  function Join(parts: seq<string>, sep: char): string
    decreases |parts|
  {
    if |parts| == 0 then ""
    else if |parts| == 1 then parts[0]
    else parts[0] + [sep] + Join(parts[1..], sep)
  }

  lemma JoinCons(head: string, rest: seq<string>, sep: char)
    requires |rest| >= 1
    ensures Join([head] + rest, sep) == head + [sep] + Join(rest, sep)
  {
    assert ([head] + rest)[1..] == rest;
  }

  lemma JoinPrependChar(c: char, parts: seq<string>, sep: char)
    requires |parts| >= 1
    ensures Join([[c] + parts[0]] + parts[1..], sep) == [c] + Join(parts, sep)
  {
    if |parts| > 1 {
      JoinCons([c] + parts[0], parts[1..], sep);
      JoinCons(parts[0], parts[1..], sep);
      assert parts == [parts[0]] + parts[1..];
    }
  }

  /** Splitting loses nothing: joining the parts back gives the input. */
  lemma {:induction false} JoinSplit(s: string, sep: char)
    ensures Join(Split(s, sep), sep) == s
    decreases |s|
  {
    if |s| > 0 {
      var rest := Split(s[1..], sep);
      JoinSplit(s[1..], sep);
      if s[0] == sep {
        JoinCons("", rest, sep);
      } else {
        JoinPrependChar(s[0], rest, sep);
      }
      assert s == [s[0]] + s[1..];
    }
  }

  // ---------------------------------------------------------------------------
  // Decimal numerals

  predicate IsDigit(c: char) {
    '0' <= c <= '9'
  }

  predicate AllDigits(s: string) {
    forall i :: 0 <= i < |s| ==> IsDigit(s[i])
  }

  /** Number of leading decimal digits. */
  function LeadingDigits(s: string): (n: nat)
    ensures n <= |s|
    ensures AllDigits(s[..n])
    ensures n < |s| ==> !IsDigit(s[n])
    decreases |s|
  {
    if |s| == 0 || !IsDigit(s[0]) then 0
    else
      var n := 1 + LeadingDigits(s[1..]);
      assert s[..n] == [s[0]] + s[1..][..n - 1];
      n
  }

  function DigitChar(d: nat): (c: char)
    requires d < 10
    ensures IsDigit(c)
  {
    ('0' as int + d) as char
  }

  /** `n.toString()` for a natural number: shortest decimal numeral. */
  function NatToString(n: nat): (r: string)
    ensures 1 <= |r|
    ensures AllDigits(r)
    ensures |r| > 1 ==> r[0] != '0'
    decreases n
  {
    if n < 10 then [DigitChar(n)] else NatToString(n / 10) + [DigitChar(n % 10)]
  }

  /** Value of a string of decimal digits. */
  function DigitsValue(s: string): nat
    requires AllDigits(s)
    decreases |s|
  {
    if |s| == 0 then 0
    else DigitsValue(s[..|s| - 1]) * 10 + (s[|s| - 1] as int - '0' as int)
  }

  lemma {:induction false} DigitsValueOfNatToString(n: nat)
    ensures DigitsValue(NatToString(n)) == n
    decreases n
  {
    if n >= 10 {
      DigitsValueOfNatToString(n / 10);
      var r := NatToString(n);
      assert r[..|r| - 1] == NatToString(n / 10);
    }
  }

  /** `i.toString()` for any integer. */
  function IntToString(i: int): (r: string)
    ensures 1 <= |r|
    ensures i >= 0 ==> AllDigits(r)
    ensures i < 0 ==> r[0] == '-' && AllDigits(r[1..])
  {
    if i < 0 then "-" + NatToString(-i) else NatToString(i)
  }

  /** Reads back a numeral written by `IntToString`. */
  function ParseInt(s: string): int
    requires 1 <= |s|
    requires AllDigits(s) || (s[0] == '-' && AllDigits(s[1..]))
  {
    if s[0] == '-' then 0 - DigitsValue(s[1..]) else DigitsValue(s)
  }

  lemma ParseIntOfIntToString(i: int)
    ensures ParseInt(IntToString(i)) == i
  {
    if i < 0 {
      assert IntToString(i)[1..] == NatToString(-i);
      DigitsValueOfNatToString(-i);
    } else {
      DigitsValueOfNatToString(i);
    }
  }

  /** Distinct integers print differently. */
  lemma IntToStringInjective(a: int, b: int)
    ensures IntToString(a) == IntToString(b) <==> a == b
  {
    ParseIntOfIntToString(a);
    ParseIntOfIntToString(b);
  }

  /** An optionally signed decimal integer numeral. */
  predicate IsIntLiteral(s: string) {
    (|s| >= 1 && AllDigits(s)) || (|s| >= 2 && s[0] == '-' && AllDigits(s[1..]))
  }

  /**
   * A text read as a decimal integer, as the controllers read an id that
   * arrives as a string; `None` stands for `NaN`.
   */
  function ParseNumber(s: string): (r: Option<int>)
    ensures r.Some? <==> IsIntLiteral(s)
  {
    if IsIntLiteral(s) then Some(ParseInt(s)) else None
  }

  /** Every printed integer reads back as itself. */
  lemma ParseNumberOfIntToString(i: int)
    ensures ParseNumber(IntToString(i)) == Some(i)
  {
    ParseIntOfIntToString(i);
    if i < 0 {
      assert |NatToString(-i)| >= 1;
    }
  }

  /** `s.padStart(2, '0')`. */
  function PadStart2(s: string): (r: string)
    ensures |r| == if |s| < 2 then 2 else |s|
    ensures r[|r| - |s|..] == s
    ensures forall k :: 0 <= k < |r| - |s| ==> r[k] == '0'
  {
    if |s| == 0 then "00" else if |s| == 1 then "0" + s else s
  }
}

=== FILE: worker.dfy ===
/**
 * The background rest timer of the service worker (public/service-worker.js):
 * a `startTimer` message fixes an end time and starts a once-a-second tick;
 * each tick broadcasts the seconds left to every client and, at zero, stops
 * itself, shows a notification and broadcasts `timerFinished`; a `stopTimer`
 * message clears the tick. Time is an integer millisecond clock passed in;
 * the clients and the notification are an event log.
 */
module BackgroundTimer {
  import opened JsMath
  import Seqs

  /** The worker's globals: whether an interval is set (`timerInterval`) and `timerEndTime`. */
  datatype Worker = Worker(running: bool, endTime: int)

  const Initial := Worker(false, 0)

  datatype Message = TimerUpdate(timeLeft: int) | TimerFinished

  datatype Event = Post(client: int, msg: Message) | ShowNotification

  /** `clients.forEach(client => client.postMessage(msg))`. */
  function Broadcast(clients: seq<int>, msg: Message): (r: seq<Event>)
    ensures |r| == |clients|
    ensures forall i :: 0 <= i < |r| ==> r[i] == Post(clients[i], msg)
  {
    seq(|clients|, i requires 0 <= i < |clients| => Post(clients[i], msg))
  }

  predicate IsNotification(e: Event) {
    e.ShowNotification?
  }

  lemma BroadcastNotifiesNobody(clients: seq<int>, msg: Message)
    ensures Seqs.Count(Broadcast(clients, msg), IsNotification) == 0
  {
  }

  /** `Math.max(0, Math.ceil((timerEndTime - now) / 1000))`: whole seconds left, rounded up. */
  function TimeLeft(endTime: int, now: int): (t: int)
    ensures t >= 0
    ensures t == 0 <==> now >= endTime
    ensures now < endTime ==> (t - 1) * 1000 < endTime - now <= t * 1000
  {
    Max(0, CeilDiv(endTime - now, 1000))
  }

  /** A later clock never shows more time left. */
  lemma TimeLeftMonotone(endTime: int, now: int, later: int)
    requires now <= later
    ensures TimeLeft(endTime, later) <= TimeLeft(endTime, now)
  {
    CeilDivMonotone(endTime - later, endTime - now, 1000);
  }

  /** The `startTimer` message: any previous interval is cleared and the new end time governs. */
  function StartTimer(w: Worker, duration: int, now: int): (r: Worker)
    ensures r.running
    ensures r.endTime - now == duration * 1000
  {
    Worker(true, now + duration * 1000)
  }

  /** A new start forgets everything about the run it replaces. */
  lemma StartReplacesPreviousRun(w: Worker, w': Worker, duration: int, now: int)
    ensures StartTimer(w, duration, now) == StartTimer(w', duration, now)
  {
  }

  /** The first reading after a start is at most the requested duration. */
  lemma FirstReadingWithinDuration(w: Worker, duration: int, now: int, later: int)
    requires duration >= 0 && now <= later
    ensures TimeLeft(StartTimer(w, duration, now).endTime, later) <= duration
  {
    TimeLeftMonotone(now + duration * 1000, now, later);
    assert TimeLeft(now + duration * 1000, now) == duration by {
      if duration > 0 {
        var t := TimeLeft(now + duration * 1000, now);
        assert (t - 1) * 1000 < duration * 1000 <= t * 1000;
        if t > duration {
          MulMonotone(duration, t - 1, 1000);
        } else if t < duration {
          MulMonotone(t, duration - 1, 1000);
        }
      }
    }
  }

  /** The `stopTimer` message: the interval is cleared if there is one. */
  function StopTimer(w: Worker): (r: Worker)
    ensures !r.running
    ensures r.endTime == w.endTime
  {
    if w.running then w.(running := false) else w
  }

  lemma StopIdempotent(w: Worker)
    ensures StopTimer(StopTimer(w)) == StopTimer(w)
  {
  }

  datatype TickOut = TickOut(next: Worker, reading: int, events: seq<Event>)

  /**
   * One firing of the interval at time `now`. A cleared interval does not
   * fire. Otherwise the reading is broadcast to the clients a first
   * `matchAll` finds; at zero the interval is cleared and the notification is
   * shown at once, while both broadcasts wait for their `matchAll`, so the
   * notification comes first, then the reading, then `timerFinished` to the
   * clients a second `matchAll` finds.
   */
  function Tick(w: Worker, now: int, clients: seq<int>, laterClients: seq<int>): (o: TickOut)
    ensures !w.running ==> o.next == w && o.events == []
    ensures w.running ==>
      && o.reading == TimeLeft(w.endTime, now)
      && o.next.endTime == w.endTime
      && (o.next.running <==> o.reading > 0)
      && (o.reading > 0 ==> o.events == Broadcast(clients, TimerUpdate(o.reading)))
      && (o.reading == 0 ==>
            && |o.events| == 1 + |clients| + |laterClients|
            && o.events[0] == ShowNotification
            && o.events[1..1 + |clients|] == Broadcast(clients, TimerUpdate(0))
            && o.events[1 + |clients|..] == Broadcast(laterClients, TimerFinished))
  {
    if !w.running then TickOut(w, 0, [])
    else
      var t := TimeLeft(w.endTime, now);
      var update := Broadcast(clients, TimerUpdate(t));
      if t == 0 then
        TickOut(w.(running := false), t, [ShowNotification] + update + Broadcast(laterClients, TimerFinished))
      else
        TickOut(w, t, update)
  }

  /** A tick shows the notification exactly when it finishes a live run. */
  lemma TickNotifications(w: Worker, now: int, clients: seq<int>, laterClients: seq<int>)
    ensures var o := Tick(w, now, clients, laterClients);
      Seqs.Count(o.events, IsNotification) == (if w.running && !o.next.running then 1 else 0)
  {
    var o := Tick(w, now, clients, laterClients);
    if w.running {
      var t := TimeLeft(w.endTime, now);
      var update := Broadcast(clients, TimerUpdate(t));
      BroadcastNotifiesNobody(clients, TimerUpdate(t));
      if t == 0 {
        BroadcastNotifiesNobody(laterClients, TimerFinished);
        Seqs.CountAppend([ShowNotification], update, IsNotification);
        Seqs.CountAppend([ShowNotification] + update, Broadcast(laterClients, TimerFinished), IsNotification);
      }
    }
  }

  datatype Trace = Trace(last: Worker, readings: seq<int>, events: seq<Event>)

  /** The interval firing at each of `times` in turn, with the same clients open throughout. */
  function Ticks(w: Worker, times: seq<int>, clients: seq<int>): (tr: Trace)
    ensures tr.last.endTime == w.endTime
    ensures !w.running ==> tr.last == w && tr.readings == [] && tr.events == []
    decreases |times|
  {
    if |times| == 0 || !w.running then Trace(w, [], [])
    else
      var o := Tick(w, times[0], clients, clients);
      var rest := Ticks(o.next, times[1..], clients);
      Trace(rest.last, [o.reading] + rest.readings, o.events + rest.events)
  }

  predicate NonDecreasing(times: seq<int>) {
    forall i, j :: 0 <= i <= j < |times| ==> times[i] <= times[j]
  }

  /** However the clock moves, one run notifies at most once, and only if it has ended. */
  lemma {:induction false} FinishesAtMostOnce(w: Worker, times: seq<int>, clients: seq<int>)
    ensures var tr := Ticks(w, times, clients);
      Seqs.Count(tr.events, IsNotification) == (if w.running && !tr.last.running then 1 else 0)
    decreases |times|
  {
    if |times| > 0 && w.running {
      var o := Tick(w, times[0], clients, clients);
      TickNotifications(w, times[0], clients, clients);
      FinishesAtMostOnce(o.next, times[1..], clients);
      Seqs.CountAppend(o.events, Ticks(o.next, times[1..], clients).events, IsNotification);
    }
  }

  /**
   * With a clock that never goes back, the readings of one run never
   * increase, are never negative, and only the last of them can be zero:
   * once zero is read no further tick of that run happens.
   */
  lemma {:induction false} ReadingsCountDown(w: Worker, times: seq<int>, clients: seq<int>)
    requires NonDecreasing(times)
    ensures var r := Ticks(w, times, clients).readings;
      && |r| <= |times|
      && (forall i :: 0 <= i < |r| ==> r[i] == TimeLeft(w.endTime, times[i]))
      && (forall i, j :: 0 <= i <= j < |r| ==> r[j] <= r[i])
      && (forall i :: 0 <= i < |r| - 1 ==> r[i] > 0)
    decreases |times|
  {
    if |times| > 0 && w.running {
      var o := Tick(w, times[0], clients, clients);
      ReadingsCountDown(o.next, times[1..], clients);
      var r := Ticks(w, times, clients).readings;
      var rest := Ticks(o.next, times[1..], clients).readings;
      assert r == [o.reading] + rest;
      forall i, j | 0 <= i <= j < |r|
        ensures r[j] <= r[i]
      {
        TimeLeftMonotone(w.endTime, times[i], times[j]);
      }
    }
  }
}

=== FILE: wrappers.dfy ===
/** Optional values (JavaScript's `null`/`undefined` next to a present value) and outcomes. */
module Wrappers {

  datatype Option<+T> = None | Some(value: T) {

    /** Returns the value encapsulated in Some, or `default` if None */
    function GetOr(default: T): T {
      match this
      case Some(v) => v
      case None => default
    }
  }

  /** The outcome of an operation that either produces a value or reports why it did not. */
  datatype Result<+T, +E> = Ok(value: T) | Err(error: E)
}
